=== FILE: README.md ===
# rustdoc-parser, modelled in Dafny

This project models the parsing core of `rustdoc-parser`, the crate behind the
`man-o-war` documentation viewer. The crate reads one rustdoc HTML page. It
cuts the page at a few literal anchors. It then turns the sidebar and the
sectioned main content into trees of `Fragment`s: text that is raw, bold,
code, a code block or coloured.

The model follows the crate layer by layer, one Dafny module per source file:

- `Tags` (tag.rs): the tag tokenizer. It covers the name/attribute split, the
  `"`-chunk attribute loop, the map built from pairs and the kind table. The
  attribute loop is a method proved against `Keys`/`Values`. A render/parse
  round trip shows that the attribute map is the pairs written out, with the
  last repeat of a key winning.
- `Fragments` (fragment.rs): the `Fragment` and `Color` types, `raw_content`,
  the fixed four-step `un_escape` chain, `un_escape_content` and `to_hex`.
- `Elements` (html_element.rs): the element tree builder and `extract`. The
  builder's cursor loop is a method proved equal to the recursive function
  `ParseElement`. That function's measure is the cursor length.
- `ContentZipper` and `CodeZipper` (html_element.rs): `zip_content` and
  `zip_code`. Each is a method proved against a specification function.
  `zip_content` also returns the element with its last child popped, which is
  the change the source makes to `self`.
- `Descriptions` and `Methods` (description.rs, method.rs): the `<h5` split,
  the introduction, and the peek-driven `<p>`/`<div>` loop. That loop is a
  method over a step function that always consumes input.
- `MainContents` (main_content.rs): the `<h2` chunks, the heading dispatch,
  and one splitter per section kind.
- `Sidebars` (sidebar.rs): the `</ul>`/`</h3>` split and the sidebar items.
- `Pages` (lib.rs): the `process_html` anchor chain. It is given both as a
  function and as the method that assigns the parsed sidebar and main content
  as it goes.
- `LegacyZipper` (helpers.rs): the older `zip_content` that the crate root
  still declares. Without a `strong` first child or a `where` clause, the
  two versions are proved to agree except on the trailing text run. With a
  `where` clause, they agree whenever their trailing runs and their zips of
  the clause agree.
- `Strings` and `Results` hold the parts of the Rust standard library the
  crate relies on:
  - `split_once`, `split`, `split_terminator` and `split_inclusive`;
  - `replace`;
  - `trim`, `trim_matches`, `trim_start_matches` and `trim_end_matches`;
  - `find`;
  - collecting an iterator of results, where the first failure wins.

Every Rust panic is an explicit failure: `expect`, `unwrap`, `unreachable!`,
an index out of range, and `raw_content` on a non-`Raw` fragment. Each becomes
`Fail(...)` of a `Result`, with one `Failure` constructor per kind of panic.
Where a panic can stop an iterator early, the model keeps Rust's order of
evaluation. So a lazy `zip` resolves only as many children as there are text
runs, and the first failing element of a `map`/`collect` wins.

Three behaviours of the code are worth noting:

- **The trailing text run in `zip_content`.** `zip_content` in
  html_element.rs pops the last child before it checks for a trailing run. So
  with as many runs as children, at least one, and no `where` clause, the last
  run comes out twice (`ContentZipper.ZipContentRepeatsLastRun`). The older
  copy in helpers.rs checks before the pop and does not repeat it
  (`LegacyZipper.LegacyAgrees`).
- **An unknown `<h2>` heading.** It reaches `unreachable!()`. So it is a
  failure (`UnknownHeading`), not a section of its own.
- **The unit test in tag.rs.** The test calls `Tag::build`, which tag.rs does
  not define. Its expected tag is stated about `Tag::parse`
  (`Tags.ParseTestTag`).

## Model

| member | source | states |
|---|---|---|
| Tags.Parse | rustdoc-parser/src/helper_types/tag.rs:48-67 | the kind is Void exactly for the fourteen void names, whatever the attributes; otherwise Closing exactly when the name starts with '/' |
| Tags.ParseName | rustdoc-parser/src/helper_types/tag.rs:24-46 | with a space, the name is the text before the first space and the attributes come from the rest; without one, the name is the whole text and there are no attributes |
| Tags.ParseTag | rustdoc-parser/src/helper_types/tag.rs:21-69 | running the split, the attribute loop and the map construction gives exactly `Parse` |
| Tags.CollectAttributes | rustdoc-parser/src/helper_types/tag.rs:26-37 | the `for_each` loop pushes exactly the trimmed even-indexed chunks as names and the trimmed odd-indexed chunks as values, in order |
| Tags.PushChunk | rustdoc-parser/src/helper_types/tag.rs:31-36 | one more chunk extends the names at an even index and the values at an odd one, leaving the other list unchanged |
| Tags.Keys | rustdoc-parser/src/helper_types/tag.rs:32-33 | one name per even-indexed chunk |
| Tags.Values | rustdoc-parser/src/helper_types/tag.rs:34-35 | one value per odd-indexed chunk |
| Tags.KeysAt | rustdoc-parser/src/helper_types/tag.rs:32-33 | the name at index `j` is chunk `2j` trimmed of spaces and '=' |
| Tags.ValuesAt | rustdoc-parser/src/helper_types/tag.rs:34-35 | the value at index `j` is chunk `2j+1` trimmed of whitespace |
| Tags.Zip | rustdoc-parser/src/helper_types/tag.rs:39-42 | names and values are paired position by position, up to the shorter list |
| Tags.FromPairsLookup | rustdoc-parser/src/helper_types/tag.rs:38-43 | a key is in the map exactly when some pair has it, and it maps to the value of the last pair that has it |
| Tags.SplitRendered | rustdoc-parser/src/helper_types/tag.rs:28-29 | splitting rendered `key="value" ` pairs at '"' gives the key chunks and the value chunks, alternating |
| Tags.RenderedTerminated | rustdoc-parser/src/helper_types/tag.rs:28-29 | `split_terminator` on rendered pairs gives the same chunks, the empty last one dropped |
| Tags.RenderedPairs | rustdoc-parser/src/helper_types/tag.rs:32-42 | trimming and zipping the chunks of rendered pairs gives back exactly the pairs |
| Tags.RenderedAttributes | rustdoc-parser/src/helper_types/tag.rs:26-43 | the attribute map of rendered pairs is the map built from those pairs; a trailing key with no quoted value is dropped |
| Tags.RenderRoundTrip | rustdoc-parser/src/helper_types/tag.rs:21-69 | parsing a name, a space and rendered pairs gives back the name, its kind and the map of the pairs |
| Tags.ParseTestTag | rustdoc-parser/src/helper_types/tag.rs:77-93 | the test's tag text parses to name "a", kind Opening and exactly the href, type and class attributes; "url Home" keeps its space and the trailing `open>!emocleW` is dropped |
| Fragments.RawContent | rustdoc-parser/src/helper_types/fragment.rs:15-21 | succeeds exactly on `Raw` and returns its text; any other variant is the `NotRaw` failure |
| Fragments.UnEscapeContent | rustdoc-parser/src/helper_types/fragment.rs:24-37 | the result is `Raw` exactly when the input is |
| Fragments.UnEscapeContentShape | rustdoc-parser/src/helper_types/fragment.rs:24-37 | the constructor, the length of every `Bold` list and every colour are kept; every text of the result is an output of `un_escape` |
| Fragments.UnEscapeContentWithoutAmpersand | rustdoc-parser/src/helper_types/fragment.rs:24-37 | a fragment whose texts are all `Raw` without '&' is unchanged |
| Fragments.UnEscapeWithoutAmpersand | rustdoc-parser/src/helper_types/fragment.rs:41-46 | `un_escape` is the identity on text without '&' |
| Fragments.UnEscapeShrinks | rustdoc-parser/src/helper_types/fragment.rs:41-46 | `un_escape` never lengthens its input |
| Fragments.UnEscapeKeepsLoneAmpersand | rustdoc-parser/src/helper_types/fragment.rs:41-46 | an '&' that starts no entity survives un-escaping |
| Fragments.UnEscapeAmpersandThenApostrophe | rustdoc-parser/src/helper_types/fragment.rs:44-45 | because `&amp;` is replaced before `&#x27;`, "&amp;#x27;" becomes "'" |
| Fragments.UnEscapeNotIdempotent | rustdoc-parser/src/helper_types/fragment.rs:42-44 | "&amp;lt;" un-escapes to "&lt;" only, and un-escaping that again gives "<", so `un_escape` is not idempotent |
| Fragments.ToHex | rustdoc-parser/src/helper_types/fragment.rs:60-71 | every colour has a seven-character '#' code, and "#2dbfb8" is the code exactly of Enum, Primitive and Struct |
| Fragments.ToHexShared | rustdoc-parser/src/helper_types/fragment.rs:61-71 | two colours share a code exactly when they are equal or both among Enum, Primitive and Struct |
| Strings.SplitOnce | rustdoc-parser/src/helper_types/tag.rs:24 | `split_once`: none exactly without an occurrence; otherwise the text is the two parts around the first occurrence |
| Strings.Find | rustdoc-parser/src/helper_types/html_element.rs:59-61 | `find`: the first occurrence, none exactly without one |
| Strings.Split | rustdoc-parser/src/main_content.rs:24 | `split`: the pieces joined by the pattern give back the text, and no piece holds the pattern |
| Strings.SplitTerminator | rustdoc-parser/src/helper_types/tag.rs:29 | `split_terminator`: the pieces of `split`, without an empty last one |
| Strings.SplitInclusive | rustdoc-parser/src/helper_types/html_element.rs:43 | `split_inclusive`: non-empty pieces whose concatenation is the text; the first ends at the first occurrence, or is the whole text without one |
| Strings.SplitInclusiveRest | rustdoc-parser/src/helper_types/html_element.rs:43 | the pieces after the first are `split_inclusive` of the text after the first, so every piece is pinned in turn |
| Strings.TrimChars | rustdoc-parser/src/helper_types/tag.rs:33 | `trim_matches`: a part of the text that neither starts nor ends with a trimmed character |
| Strings.TrimCharsFrame | rustdoc-parser/src/helper_types/tag.rs:33 | trimming removes exactly a frame of trimmed characters |
| Strings.Trim | rustdoc-parser/src/helper_types/tag.rs:35 | `trim`: a slice of the text with no leading or trailing whitespace, and it is `TrimChars` over whitespace, so removing a whitespace frame around a text gives that text back (`TrimCharsFrame`) |
| Strings.TrimStartMatches | rustdoc-parser/src/main_content.rs:188 | `trim_start_matches`: a suffix of the text that does not start with the pattern |
| Strings.TrimStartMatchesRepeats | rustdoc-parser/src/main_content.rs:188 | what `trim_start_matches` removes is the pattern a whole number of times |
| Strings.TrimStartMatchesFrame | rustdoc-parser/src/main_content.rs:188 | any number of copies of the pattern in front of a text not starting with it are removed exactly |
| Strings.TrimEndMatches | rustdoc-parser/src/main_content.rs:130 | `trim_end_matches`: a prefix of the text that does not end with the pattern |
| Strings.TrimEndMatchesRepeats | rustdoc-parser/src/main_content.rs:130 | what `trim_end_matches` removes is the pattern a whole number of times |
| Strings.TrimEndMatchesFrame | rustdoc-parser/src/main_content.rs:130 | any number of copies of the pattern after a text not ending with it are removed exactly |
| Strings.Without | rustdoc-parser/src/main_content.rs:147 | `filter(!= s)`: every copy of `s` removed, every other piece kept as often as it occurs |
| Strings.WithoutAppend | rustdoc-parser/src/main_content.rs:147 | filtering keeps the order: the kept pieces of `a + b` are the kept pieces of `a` followed by those of `b` |
| Strings.ReplaceAbsent | rustdoc-parser/src/helper_types/fragment.rs:42 | `replace` changes nothing when the pattern's first character is absent |
| Strings.ReplaceShrinks | rustdoc-parser/src/helper_types/fragment.rs:42-45 | replacing by something no longer never lengthens the text |
| Results.MapAll | rustdoc-parser/src/main_content.rs:32-53 | mapping then collecting: one result per input, in order, or the failure of the first input that fails |
| Results.MapAllAppend | rustdoc-parser/src/main_content.rs:32-53 | mapping a concatenation maps each part, the first failure winning |
| Results.FlatMapAll | rustdoc-parser/src/helper_types/description.rs:26-29 | `flat_map`: the results concatenated in order, or the first failure |
| Results.FlattenAppend | rustdoc-parser/src/helper_types/description.rs:73 | flattening one more list appends it |
| Elements.ParseElement | rustdoc-parser/src/helper_types/html_element.rs:58-115 | a missing '>' and an empty tag slice are failures; a built element has the name and attributes of the tag up to the first '>'; the cursor left over is strictly shorter than the input |
| Elements.ParseBody | rustdoc-parser/src/helper_types/html_element.rs:69-114 | the element keeps the opening tag's name and attributes; the cursor never grows; each path of the loop is stated by the step lemmas below |
| Elements.AtTag | rustdoc-parser/src/helper_types/html_element.rs:75-97 | at a tag, the loop keeps the element's kind and attributes and the cursor it leaves never grows |
| Elements.Parse | rustdoc-parser/src/helper_types/html_element.rs:58-115 | the cursor loop gives exactly `ParseElement` |
| Elements.VoidStep | rustdoc-parser/src/helper_types/html_element.rs:76-85 | a void tag adds a childless, textless child with the tag's name and attributes, and the loop goes on after the tag |
| Elements.OpeningStep | rustdoc-parser/src/helper_types/html_element.rs:86 | an opening tag adds the recursively parsed child, or aborts with its failure |
| Elements.ClosingStep | rustdoc-parser/src/helper_types/html_element.rs:87-96 | a closing tag of any name ends the element with everything built so far, and the cursor moves past the tag, trimmed |
| Elements.EmptyCursorCloses | rustdoc-parser/src/helper_types/html_element.rs:99-106 | the end of the text ends the element with everything built so far |
| Elements.TextStep | rustdoc-parser/src/helper_types/html_element.rs:107-112 | text is pushed as one `Raw` run up to the next '<', and the loop goes on from that '<' |
| Elements.TextWithoutTagFails | rustdoc-parser/src/helper_types/html_element.rs:107-109 | text with no '<' after it is the `expect` failure |
| Elements.InnerTagWithoutEnd | rustdoc-parser/src/helper_types/html_element.rs:71-73 | an inner tag with no '>' after it is the `expect` failure |
| Elements.TextRunAhead | rustdoc-parser/src/helper_types/html_element.rs:107-112 | text not starting with '<' runs, non-empty and without '<', up to the next '<' |
| Elements.ParseElementWellFormed | rustdoc-parser/src/helper_types/html_element.rs:98-112 | every text of a parsed tree, at every depth, is a non-empty `Raw` run without '<' |
| Elements.ParseBodyWellFormed | rustdoc-parser/src/helper_types/html_element.rs:69-114 | the loop keeps every text of the element and its children a text run |
| Elements.ExtractTail | rustdoc-parser/src/helper_types/html_element.rs:32-41 | the text starts at the first `<name>`, else at the first `<name`, else at the start |
| Elements.UntagOf | rustdoc-parser/src/helper_types/html_element.rs:34 | the closing tag is `</name>` |
| Elements.ExtractSlice | rustdoc-parser/src/helper_types/html_element.rs:42-45 | the slice runs up to and including the first closing tag, or is the whole tail without one; empty data is the `expect` failure |
| Elements.Extract | rustdoc-parser/src/helper_types/html_element.rs:31-48 | empty data fails; it succeeds exactly when the cut slice exists and builds, and then gives the element built from that slice, which is well formed |
| Elements.ExtractIgnoresLaterText | rustdoc-parser/src/helper_types/html_element.rs:35-47 | text after the first closed element does not change what is extracted |
| Elements.ExtractName | rustdoc-parser/src/helper_types/html_element.rs:31-47 | an element extracted from `<name>` has that name |
| ContentZipper.Interleave | rustdoc-parser/src/helper_types/html_element.rs:160-168 | runs and resolved children alternate, run first |
| ContentZipper.InterleaveSnoc | rustdoc-parser/src/helper_types/html_element.rs:162-165 | unfolding step of the fold: each step appends one run and one resolved child |
| ContentZipper.UnEscapeAll | rustdoc-parser/src/helper_types/html_element.rs:193-196 | every fragment is un-escaped, in place and order |
| ContentZipper.UnEscapeAllAppend | rustdoc-parser/src/helper_types/html_element.rs:180-184 | unfolding step: un-escaping a concatenation un-escapes both parts |
| ContentZipper.NonDiv | rustdoc-parser/src/helper_types/html_element.rs:129 | no `div` is kept; without a `div` the children are unchanged |
| ContentZipper.NonDivOne | rustdoc-parser/src/helper_types/html_element.rs:129 | a single child is kept exactly when it is not a `div` |
| ContentZipper.NonDivAppend | rustdoc-parser/src/helper_types/html_element.rs:129 | the filter distributes over concatenation, so with `NonDivOne` every non-`div` child is kept, in order |
| ContentZipper.ClassColor | rustdoc-parser/src/helper_types/html_element.rs:133-144 | a colour exactly for the seven listed classes: trait, struct, enum, macro and primitive give their own colour, "fn" gives Method (and only it does), "associatedtype" gives AssociatedType |
| ContentZipper.ResolveCases | rustdoc-parser/src/helper_types/html_element.rs:131-158 | a classed child gives its first text, coloured for a listed class; a `code` child gives Code; a child with children gives its first child's text, as Code under `code`; any other child gives its own first text, and a missing text is the index failure |
| ContentZipper.Resolve | rustdoc-parser/src/helper_types/html_element.rs:130-159 | a child without the text it looks up is the index failure |
| ContentZipper.ZipRunsShape | rustdoc-parser/src/helper_types/html_element.rs:160-168 | the lazy zip resolves only as many children as there are runs; it gives `2 min` fragments, run then resolved child |
| ContentZipper.ZipPairs | rustdoc-parser/src/helper_types/html_element.rs:160-168 | the fold gives exactly `ZipRuns` |
| ContentZipper.Trailing | rustdoc-parser/src/helper_types/html_element.rs:170-191 | the last run is added exactly when there are more runs than children after the last child is popped |
| ContentZipper.ZippedShape | rustdoc-parser/src/helper_types/html_element.rs:160-191 | the pairs, then the trailing run |
| ContentZipper.ZipContentSpec | rustdoc-parser/src/helper_types/html_element.rs:117-124 | with a `strong` first child, exactly the bold first text of that child and the first run, not un-escaped |
| ContentZipper.Popped | rustdoc-parser/src/helper_types/html_element.rs:170 | the last child is removed whatever its class |
| ContentZipper.ZipContent | rustdoc-parser/src/helper_types/html_element.rs:117-197 | the zip, pop and where-clause steps give exactly `ZipContentSpec`, and leave the element popped |
| ContentZipper.ZipContentUnfold | rustdoc-parser/src/helper_types/html_element.rs:186-196 | unfolding step: without `strong` or `where`, the result is the zipped fragments un-escaped |
| ContentZipper.ZipContentWhereUnfold | rustdoc-parser/src/helper_types/html_element.rs:170-184 | unfolding step: with a `where` last child, its own zipped content comes after the trailing run, and everything is un-escaped |
| ContentZipper.ZipContentWhere | rustdoc-parser/src/helper_types/html_element.rs:170-184 | the `where` clause's fragments come last |
| ContentZipper.ZipContentPlain | rustdoc-parser/src/helper_types/html_element.rs:193-196 | on text without '&', un-escaping changes nothing |
| ContentZipper.ZippedRepeatsLastRun | rustdoc-parser/src/helper_types/html_element.rs:170-185 | before un-escaping, with as many runs as children and no `div` or `where`, there are `2n+1` fragments and the last run is both the last fragment and the one before the last child |
| ContentZipper.ZipContentRepeatsLastRun | rustdoc-parser/src/helper_types/html_element.rs:170-191 | with as many runs as children, at least one, and no `div` or `where`, there are `2n+1` fragments and the last run appears twice |
| ContentZipper.ZipExtracted | rustdoc-parser/src/helper_types/description.rs:28 | empty data fails; a failing `extract` is passed on, otherwise the result is the zip of the extracted element |
| CodeZipper.FirstContent | rustdoc-parser/src/helper_types/html_element.rs:201-204 | a span's first text, or the index failure |
| CodeZipper.TakeSpans | rustdoc-parser/src/helper_types/html_element.rs:201-205 | every child's first text in order; `.last()` walks every child, so one without text aborts |
| CodeZipper.SpansFail | rustdoc-parser/src/helper_types/html_element.rs:204-205 | any child without text aborts |
| CodeZipper.CodePieces | rustdoc-parser/src/helper_types/html_element.rs:208-219 | span then run, pairwise up to the shorter list; the last span only when there are more spans than runs |
| CodeZipper.PushPieces | rustdoc-parser/src/helper_types/html_element.rs:208-219 | the fold gives exactly `CodePieces` |
| CodeZipper.JoinStep | rustdoc-parser/src/helper_types/html_element.rs:224-228 | a step succeeds exactly on two `Raw` pieces |
| CodeZipper.JoinRaw | rustdoc-parser/src/helper_types/html_element.rs:225-227 | unfolding step of the reduce: a step joins the un-escaped accumulator and the un-escaped next piece |
| CodeZipper.ReduceFrom | rustdoc-parser/src/helper_types/html_element.rs:221-230 | a lone piece comes back untouched; anything folded is `Raw` |
| CodeZipper.Reduce | rustdoc-parser/src/helper_types/html_element.rs:221-231 | the reduce loop gives exactly `ReduceFrom` |
| CodeZipper.ReduceRaw | rustdoc-parser/src/helper_types/html_element.rs:224-228 | folding `Raw` pieces never aborts |
| CodeZipper.ReducePlain | rustdoc-parser/src/helper_types/html_element.rs:221-230 | folding `Raw` pieces without '&' joins their texts in order |
| CodeZipper.ReduceUnEscapesAccumulator | rustdoc-parser/src/helper_types/html_element.rs:224-228 | the accumulator is un-escaped again at each step, so three pieces can differ from one un-escaping of the joined text |
| CodeZipper.ZipCodeSpec | rustdoc-parser/src/helper_types/html_element.rs:200-232 | no children or a child without text fails; with runs the result is `Raw`; without runs it is the last span, untouched |
| CodeZipper.ZipCode | rustdoc-parser/src/helper_types/html_element.rs:200-232 | the spans, fold and reduce give exactly `ZipCodeSpec` |
| CodeZipper.ZipCodeWellFormed | rustdoc-parser/src/helper_types/html_element.rs:200-232 | on a parsed block, `zip_code` succeeds exactly when there is a child and every child has text, and then gives one `Raw` |
| CodeZipper.ZipCodePlain | rustdoc-parser/src/helper_types/html_element.rs:200-232 | on a parsed block without '&', the result is the texts of the pieces joined in order |
| Descriptions.SplitSections | rustdoc-parser/src/helper_types/description.rs:16-24 | without "<h5" the whole text is the introduction and there are no sections; otherwise the introduction precedes the first "<h5" and the section texts are the pieces between occurrences |
| Descriptions.Introduction | rustdoc-parser/src/helper_types/description.rs:26-29 | empty text gives nothing; otherwise it succeeds exactly when every `</p>\n`-terminated line zips, and the result is the zipped lines concatenated in order |
| Descriptions.IntroductionOneLine | rustdoc-parser/src/helper_types/description.rs:26-29 | a text with no line end is one line |
| Descriptions.Parse | rustdoc-parser/src/helper_types/description.rs:15-35 | one section per "<h5", in order, and the introduction from the text before the first one; it succeeds exactly when every section and the introduction parse |
| Descriptions.Peek | rustdoc-parser/src/helper_types/description.rs:52 | the second character of the trimmed text, when there is one |
| Descriptions.BodyStep | rustdoc-parser/src/helper_types/description.rs:51-69 | 'p' consumes through the first "</p>" and pushes the zipped content of the element built from the text before it with "</p>" put back; 'd' consumes through the first "</div>" and pushes one code block, the zipped code of the `code` element extracted from the text before it; anything else stops; a missing closer fails; with the closer present, 'p' and 'd' succeed exactly when building and zipping succeed |
| Descriptions.BodyStepConsumes | rustdoc-parser/src/helper_types/description.rs:51-69 | every step that goes on strictly shortens the remaining text |
| Descriptions.Turns | rustdoc-parser/src/helper_types/description.rs:51-69 | stop gives nothing more; a failing step aborts |
| Descriptions.TurnsPush | rustdoc-parser/src/helper_types/description.rs:53-67 | a step that pushes fragments adds them after those already collected and goes on from the text it left |
| Descriptions.BodySteps | rustdoc-parser/src/helper_types/description.rs:51-69 | the loop over the body: stop gives nothing, a failure aborts |
| Descriptions.RunTurns | rustdoc-parser/src/helper_types/description.rs:51-69 | the `loop` gives exactly `Turns` |
| Descriptions.SectionOf | rustdoc-parser/src/helper_types/description.rs:47-75 | a missing "</h5>" fails; the name is the bold first text of the `a` element extracted from the heading before "</h5>"; the content is the flattened step results of the body after it; it succeeds exactly when "</h5>" is present, the `a` element is extracted with a text, and the body steps succeed |
| Descriptions.ParseSection | rustdoc-parser/src/helper_types/description.rs:47-75 | the loop over the body gives exactly `SectionOf` |
| Methods.Parse | rustdoc-parser/src/helper_types/method.rs:16-21 | the signature is the zipped first `<h4>` and the description is the description parsed from the whole text; it succeeds exactly when both do, and otherwise passes on the first failure |
| Methods.SignatureIgnoresLaterText | rustdoc-parser/src/helper_types/method.rs:18 | the signature stops at the first "</h4>"; later text never reaches it |
| MainContents.Heading | rustdoc-parser/src/main_content.rs:127-128 | succeeds exactly when extracting and zipping the tag succeeds, and is `Bold` of those fragments |
| MainContents.FieldOf | rustdoc-parser/src/main_content.rs:110-116 | a field without "</span>" fails; otherwise its code and description come from the two sides of the first "</span>"; it succeeds exactly when "</span>" is present and both sides extract and zip |
| MainContents.ParseFields | rustdoc-parser/src/main_content.rs:107-119 | one field per `split_terminator("</div>")` chunk, in order; it succeeds exactly when every chunk gives a field |
| MainContents.FieldWithoutSpan | rustdoc-parser/src/main_content.rs:111 | any chunk without "</span>" aborts the section |
| MainContents.MethodsOf | rustdoc-parser/src/main_content.rs:129-134 | after every trailing "</div></details>" is trimmed, one method per opener, in order; it succeeds exactly when every piece after the first parses as a method |
| MainContents.Block | rustdoc-parser/src/main_content.rs:126-134 | a block without "</summary>" fails; the heading is `Heading("h3")` of the text before the first "</summary>" and the methods come from the text after it; it succeeds exactly when "</summary>" is present and both the heading and the methods succeed |
| MainContents.ImplementationOf | rustdoc-parser/src/main_content.rs:125-139 | one implementation is the block cut with the `open` method toggle; it succeeds exactly when the block does |
| MainContents.ParseImplementations | rustdoc-parser/src/main_content.rs:121-142 | one implementation per `open` implementors toggle, in order; it succeeds exactly when every piece after the first gives an implementation |
| MainContents.BlanketOf | rustdoc-parser/src/main_content.rs:160-174 | one blanket implementation is the block cut with the method toggle without `open`; it succeeds exactly when the block does |
| MainContents.ParseBlanketImplementations | rustdoc-parser/src/main_content.rs:156-177 | one trait implementation per implementors toggle without `open`, in order; it succeeds exactly when every piece after the first gives a record |
| MainContents.AutoTraitOf | rustdoc-parser/src/main_content.rs:148-151 | the bold zipped `h3`, with no methods |
| MainContents.ParseAutoTraitImplementations | rustdoc-parser/src/main_content.rs:144-154 | one record per "</section>" piece other than a bare "</div>", none with methods; it succeeds exactly when every kept piece gives a record |
| MainContents.TraitMethods | rustdoc-parser/src/main_content.rs:186-195 | no methods without "</summary>"; otherwise one method per "<details" piece after the impl-items opener, bare "<details" pieces dropped |
| MainContents.TraitImplementationOf | rustdoc-parser/src/main_content.rs:184-199 | a bold heading and the trait methods; no methods without "</summary>"; it succeeds exactly when the heading and the trait methods succeed |
| MainContents.ParseTraitImplementations | rustdoc-parser/src/main_content.rs:179-203 | one record per "</details>" piece after the first, bare "</div>" pieces dropped; it succeeds exactly when every kept piece gives a record |
| MainContents.ParseObjectSafety | rustdoc-parser/src/main_content.rs:205-207 | the section parsed as one element and zipped; it succeeds exactly when building and zipping succeed |
| MainContents.AssociatedTypeOf | rustdoc-parser/src/main_content.rs:213-216 | the name is `Heading("h4")` of the chunk; the description is the first text of the first `p`, neither zipped nor un-escaped; it succeeds exactly when the heading zips and a `p` with a text is extracted |
| MainContents.ParseRequiredAssociatedTypes | rustdoc-parser/src/main_content.rs:209-219 | trailing "</div>"s trimmed, then one record per "</details>"-terminated chunk; it succeeds exactly when every chunk gives a record |
| MainContents.VariantOf | rustdoc-parser/src/main_content.rs:225-228 | a bold `h3` name and a zipped `p` description |
| MainContents.ParseVariants | rustdoc-parser/src/main_content.rs:221-231 | one variant per "</a>" piece after the first; it succeeds exactly when every piece after the first gives a variant |
| MainContents.ParseBody | rustdoc-parser/src/main_content.rs:37-47 | the whole heading table: each of the nine headings runs its own section parser, "Fields" and "Tuple Fields" the same one; never `Dummy`; the three trait sections give trait implementations |
| MainContents.Dispatch | rustdoc-parser/src/main_content.rs:37-47 | an unknown heading is the `unreachable!` failure; a missing body is the index failure; otherwise the parser the heading names |
| MainContents.HeadingText | rustdoc-parser/src/main_content.rs:35-36 | the first text of the element built from the chunk up to the first "</h2>", which must be `Raw`; an empty chunk is the index failure and a build failure is passed on; it succeeds exactly when the chunk is non-empty, the element builds and its first text is `Raw` |
| MainContents.SectionOf | rustdoc-parser/src/main_content.rs:34-51 | the name is `Bold([Raw(heading text)])`, the heading is known, the content is the named parser's result and never `Dummy`; it succeeds exactly when the heading text is known, a body follows "</h2>" and its parser succeeds |
| MainContents.Chunks | rustdoc-parser/src/main_content.rs:23-29 | one chunk per "<h2", each re-prefixed with "<h2"; only the text before the first is lost |
| MainContents.Parse | rustdoc-parser/src/main_content.rs:22-55 | one section per "<h2", in order, none `Dummy`; it succeeds exactly when every chunk gives a section |
| Sidebars.NameOf | rustdoc-parser/src/sidebar.rs:27-28 | the first text of the heading's first child, as written and not un-escaped; it succeeds exactly when that text exists and is `Raw` |
| Sidebars.ItemOf | rustdoc-parser/src/sidebar.rs:34-38 | a child without children gives the empty string; otherwise the un-escaped first text of its first child; with children, it succeeds exactly when that text exists and is `Raw` |
| Sidebars.ItemsOf | rustdoc-parser/src/sidebar.rs:29-43 | nothing after "</h3>" gives no items; otherwise one item per direct child of the parsed list; with a list, it succeeds exactly when the list builds and every child gives an item |
| Sidebars.SectionOf | rustdoc-parser/src/sidebar.rs:24-46 | the heading up to the first "</h3>" names the section and the rest gives the items; it succeeds exactly when the text is non-empty, the heading builds and gives a name, and the items succeed |
| Sidebars.Parse | rustdoc-parser/src/sidebar.rs:20-49 | one section per `split_inclusive("</ul>")` piece, in order; it succeeds exactly when every piece gives a section |
| Sidebars.NameNotUnEscaped | rustdoc-parser/src/sidebar.rs:28-37 | example: a heading "&lt;T" stays "&lt;T" as a name but becomes "<T" as an item |
| Pages.SidebarPart | rustdoc-parser/src/lib.rs:61-62 | missing exactly when either sidebar anchor is missing; the sidebar is the text between the first "<section>" and the next "</section>" |
| Pages.ScriptPart | rustdoc-parser/src/lib.rs:67-68 | none exactly when "<script" is missing or no "</details>" precedes it; otherwise the block lies between the first "</details>" and the first "<script" |
| Pages.SectionPart | rustdoc-parser/src/lib.rs:65-68 | none exactly when the marker is missing or the later anchors are missing after it; the marker is searched for after the sidebar, and "<script" after the marker |
| Pages.ProcessHtml | rustdoc-parser/src/lib.rs:58-74 | refused with the parsing error exactly when an anchor is missing, the sidebar is parsed before the later anchors are looked for; otherwise done once both parsers succeed; no page is returned |
| Pages.Process | rustdoc-parser/src/lib.rs:58-74 | the `and_then` chain gives exactly `ProcessHtml` and assigns the parsed sidebar and main content |
| Pages.AnchorsCut | rustdoc-parser/src/lib.rs:61-69 | the five anchors cut the page into six texts, in order |
| LegacyZipper.LegacyTrailing | rustdoc-parser/src/helpers.rs:174-178 | the last run is added exactly when there are more runs than children, before any pop |
| LegacyZipper.LegacyZipped | rustdoc-parser/src/helpers.rs:165-178 | the pairs then the older trailing run |
| LegacyZipper.LegacyZipContent | rustdoc-parser/src/helpers.rs:125-190 | with a `strong` first child it agrees with the newer version |
| LegacyZipper.LegacyZipContentWhere | rustdoc-parser/src/helpers.rs:165-189 | with a `where` last child, the clause's own older zip comes after the trailing run, which counts the clause among the children, and everything is un-escaped again |
| LegacyZipper.LegacyAgreesWhere | rustdoc-parser/src/helpers.rs:165-189 | with a `where` last child, the two versions agree whenever their trailing runs and their zips of the clause agree |
| LegacyZipper.TrailingDiffers | rustdoc-parser/src/helpers.rs:174-178 | the two trailing runs differ exactly with as many runs as children, at least one |
| LegacyZipper.ZippedDiffers | rustdoc-parser/src/helpers.rs:165-178 | both versions zip the same pairs; only the newer one adds the extra run |
| LegacyZipper.LegacyAgrees | rustdoc-parser/src/helpers.rs:174-190 | without `strong` or `where` the two versions succeed together and agree, except with as many runs as children, where the newer ends with the last run once more |
| LegacyZipper.LegacyZip | rustdoc-parser/src/helpers.rs:125-190 | the older steps give exactly `LegacyZipContent` and leave the element popped |

## Left out

- man-o-war/src/main.rs reads a page from a fixed path. File I/O is outside the model.
- rustdoc-parser/src/errors.rs appears only as the `Herr` datatype. Its `Display` text is not modelled.
- rustdoc-parser/src/traits.rs is an empty marker trait used for dynamic dispatch. It is not modelled.
- rustdoc-parser/src/sections.rs is a superseded copy that does not compile. It is not modelled.
- The `dbg!` print in `process_html` is not modelled.
- Panic messages are not modelled: each panic is a `Failure` constructor.
- helpers.rs `extract`, `un_escape`, `HtmlElement::build`, `zip_code`, `Tag::build`, `Fragment::raw_content`, `un_escape_content` and `Color::to_hex` are not modelled separately. They do what the helper_types versions modelled here do. Only the older `zip_content` differs, and it is modelled as `LegacyZipper`.
- The test in helpers.rs (`Tag::build` on the same text) is covered by `Tags.ParseTestTag`.
- lib.rs calls `Sidebar::build` and `MainContent::build`. sidebar.rs and main_content.rs define these as `parse`, and the model calls the `parse` versions.
- Pages.Process: the parsed sidebar and main content are locals in the source. Here they are returned so that what was parsed can be stated.
- ContentZipper.ZipContent: popping the last child of `self` is returned as a new element value. The in-place update and the `iter_mut` borrow are not modelled.
- Strings are sequences of characters. UTF-8 byte offsets and slicing on character boundaries are not modelled.
- Strings.Trim: whitespace is the ASCII set (space, tab, line feed, carriage return, form feed, vertical tab), not every Unicode whitespace character.
- Attribute maps are Dafny maps. The key order of `BTreeMap` is not modelled.
- TrimStartMatches: its own contract states that the result is a suffix not starting with the pattern. That only whole copies of the pattern are removed is stated by `Strings.TrimStartMatchesRepeats` and `Strings.TrimStartMatchesFrame`.
- TrimEndMatches: its own contract states that the result is a prefix not ending with the pattern. That only whole copies of the pattern are removed is stated by `Strings.TrimEndMatchesRepeats` and `Strings.TrimEndMatchesFrame`.
- Tags.Keys: its own contract states only the count. The contents are stated by `Tags.KeysAt`, and also through `Tags.CollectAttributes`, `Tags.PushChunk` and `Tags.RenderedPairs`.
- Tags.Values: its own contract states only the count. The contents are stated by `Tags.ValuesAt`, and also through the same members as `Tags.Keys`.

=== FILE: description.dfy ===
/** Method descriptions: an introduction of paragraphs, then subsections
    opened by `<h5` headings, each a run of paragraphs and code blocks. */
module Descriptions {
  import opened Results
  import opened Strings
  import opened Fragments
  import opened Elements
  import opened ContentZipper
  import opened CodeZipper

  datatype DescriptionSection = DescriptionSection(name: Fragment, content: seq<Fragment>)

  datatype Description = Description(introduction: seq<Fragment>, sections: seq<DescriptionSection>)

  /** The text before the first "<h5" and the pieces between it and every
      later "<h5"; text without "<h5" is all introduction. */
  function SplitSections(description: string): (r: (string, seq<string>))
    ensures !Contains(description, "<h5") ==> r == (description, [])
    ensures Contains(description, "<h5")
            ==> && description == r.0 + "<h5" + Join(r.1, "<h5")
                && !Contains(r.0, "<h5")
                && |r.1| >= 1
                && forall k :: 0 <= k < |r.1| ==> !Contains(r.1[k], "<h5")
  {
    match SplitOnce(description, "<h5")
    case None => (description, [])
    case Some((intro, rest)) =>
      assert !Contains(intro, "<h5") by {
        forall j: nat | OccursAt(intro, "<h5", j) ensures false {
          OccursInPrefix(description, "<h5", |intro|, j);
        }
      }
      (intro, Split(rest, "<h5"))
  }

  /** `extract("p", line).zip_content()` for one line of the introduction. */
  function IntroLine(line: string): Result<seq<Fragment>> {
    ZipExtracted("p", line)
  }

  /** The introduction: the lines ending in "</p>\n", each zipped, in order. */
  function Introduction(text: string): (r: Result<seq<Fragment>>)
    ensures text == [] ==> r == Ok([])
    ensures r.Ok? <==> MapAll(SplitInclusive(text, "</p>\n"), IntroLine).Ok?
    ensures r.Ok? ==> r.value == Flatten(MapAll(SplitInclusive(text, "</p>\n"), IntroLine).value)
  {
    FlatMapAll(SplitInclusive(text, "</p>\n"), IntroLine)
  }

  /** A text that does not hold "</p>\n" is a single line of introduction. */
  lemma IntroductionOneLine(text: string)
    requires text != [] && !Contains(text, "</p>\n")
    ensures Introduction(text) == IntroLine(text)
  {
    var lines := SplitInclusive(text, "</p>\n");
    assert lines == [text];
    FlatMapAllOne(text, IntroLine);
  }

  /** `Description::parse`: the sections first, one per "<h5" and in order,
      then the introduction from the text before the first "<h5". */
  function Parse(description: string): (r: Result<Description>)
    ensures !Contains(description, "<h5")
            ==> && (r.Ok? <==> Introduction(description).Ok?)
                && (r.Ok? ==> r.value == Description(Introduction(description).value, []))
    ensures r.Ok? ==> && |r.value.sections| == |SplitSections(description).1|
                      && forall k :: 0 <= k < |r.value.sections|
                           ==> SectionOf(SplitSections(description).1[k]) == Ok(r.value.sections[k])
    ensures r.Ok? ==> Introduction(SplitSections(description).0) == Ok(r.value.introduction)
    ensures r.Ok? <==> MapAll(SplitSections(description).1, SectionOf).Ok?
                       && Introduction(SplitSections(description).0).Ok?
  {
    var (intro, pieces) := SplitSections(description);
    var sections :- MapAll(pieces, SectionOf);
    var introduction :- Introduction(intro);
    Ok(Description(introduction, sections))
  }

  /** What one turn of the body loop does: push fragments and continue from
      `rest`, or stop. */
  datatype Step = Stop | Push(fragments: seq<Fragment>, rest: string)

  /** The second character of the trimmed remainder, which the body loop
      dispatches on. */
  function Peek(s: string): (r: Option<char>)
    ensures r.Some? <==> |Trim(s)| >= 2
    ensures r.Some? ==> r.value == Trim(s)[1]
  {
    var t := Trim(s);
    if |t| >= 2 then Some(t[1]) else None
  }

  /** One turn of the body loop. On 'p' the text up to the first "</p>",
      with that closing tag put back, is built and zipped; on 'd' the `code`
      element up to the first "</div>" becomes one `CodeBlock`; anything
      else stops the loop. Either way the rest follows the closing tag. */
  function BodyStep(s: string): (r: Result<Step>)
    ensures Peek(s) != Some('p') && Peek(s) != Some('d') ==> r == Ok(Stop)
    ensures Peek(s) == Some('p') && !Contains(s, "</p>") ==> r == Fail(MissingSeparator)
    ensures Peek(s) == Some('d') && !Contains(s, "</div>") ==> r == Fail(MissingSeparator)
    ensures r.Ok? && r.value.Push? ==> |r.value.rest| < |s|
    ensures r.Ok? && r.value.Push? && Peek(s) == Some('p')
            ==> s == SplitOnce(s, "</p>").value.0 + "</p>" + r.value.rest
    ensures r.Ok? && r.value.Push? && Peek(s) == Some('d')
            ==> && s == SplitOnce(s, "</div>").value.0 + "</div>" + r.value.rest
                && |r.value.fragments| == 1 && r.value.fragments[0].CodeBlock?
    ensures (Peek(s) == Some('p') || Peek(s) == Some('d')) && r.Ok? ==> r.value.Push?
    ensures r.Ok? && r.value.Push? && Peek(s) == Some('p')
            ==> && ParseElement(SplitOnce(s, "</p>").value.0 + "</p>").Ok?
                && ZipContentSpec(ParseElement(SplitOnce(s, "</p>").value.0 + "</p>").value.0)
                   == Ok(r.value.fragments)
    ensures r.Ok? && r.value.Push? && Peek(s) == Some('d')
            ==> && Extract("code", SplitOnce(s, "</div>").value.0).Ok?
                && ZipCodeSpec(Extract("code", SplitOnce(s, "</div>").value.0).value).Ok?
                && r.value.fragments
                   == [CodeBlock(ZipCodeSpec(Extract("code", SplitOnce(s, "</div>").value.0).value).value)]
    ensures Peek(s) == Some('p') && Contains(s, "</p>")
            ==> (r.Ok? <==> && ParseElement(SplitOnce(s, "</p>").value.0 + "</p>").Ok?
                            && ZipContentSpec(ParseElement(SplitOnce(s, "</p>").value.0 + "</p>").value.0).Ok?)
    ensures Peek(s) == Some('d') && Contains(s, "</div>")
            ==> (r.Ok? <==> && Extract("code", SplitOnce(s, "</div>").value.0).Ok?
                            && ZipCodeSpec(Extract("code", SplitOnce(s, "</div>").value.0).value).Ok?)
  {
    var next := Peek(s);
    if next == Some('p') then
      match SplitOnce(s, "</p>")
      case None => Fail(MissingSeparator)
      case Some((head, tail)) =>
        var parsed :- ParseElement(head + "</p>");
        var fragments :- ZipContentSpec(parsed.0);
        Ok(Push(fragments, tail))
    else if next == Some('d') then
      match SplitOnce(s, "</div>")
      case None => Fail(MissingSeparator)
      case Some((head, tail)) =>
        var code :- Extract("code", head);
        var block :- ZipCodeSpec(code);
        Ok(Push([CodeBlock(block)], tail))
    else
      Ok(Stop)
  }

  /** A step that consumes text on every turn that pushes. */
  ghost predicate Consumes(step: string -> Result<Step>) {
    forall t :: step(t).Ok? && step(t).value.Push? ==> |step(t).value.rest| < |t|
  }

  /** Everything a peek-driven loop pushes, turn by turn, from `s` on, until
      a turn stops it or aborts. */
  function Turns(s: string, step: string -> Result<Step>): (r: Result<seq<seq<Fragment>>>)
    requires Consumes(step)
    ensures step(s) == Ok(Stop) ==> r == Ok([])
    ensures step(s).Fail? ==> r == Fail(step(s).failure)
    decreases |s|
  {
    var turn :- step(s);
    match turn
    case Stop => Ok([])
    case Push(fragments, rest) =>
      var later :- Turns(rest, step);
      Ok([fragments] + later)
  }

  /** One pushing turn moves one list from the turns still to come to the
      turns collected. */
  lemma TurnsPush(s: string, step: string -> Result<Step>, content: seq<seq<Fragment>>)
    requires Consumes(step) && step(s).Ok? && step(s).value.Push?
    ensures Prepend(content, Turns(s, step))
         == Prepend(content + [step(s).value.fragments], Turns(step(s).value.rest, step))
  {
    var turn := step(s).value;
    var later := Turns(turn.rest, step);
    if later.Ok? {
      assert content + ([turn.fragments] + later.value) == (content + [turn.fragments]) + later.value;
    }
  }

  lemma BodyStepConsumes()
    ensures Consumes(BodyStep)
  {
  }

  /** Everything the body loop of a description section pushes from `s` on. */
  function BodySteps(s: string): (r: Result<seq<seq<Fragment>>>)
    ensures BodyStep(s) == Ok(Stop) ==> r == Ok([])
    ensures BodyStep(s).Fail? ==> r == Fail(BodyStep(s).failure)
  {
    BodyStepConsumes();
    Turns(s, BodyStep)
  }

  /** `DescriptionSection::parse`: the heading up to "</h5>" gives the name,
      the bold first text of its first `a`; the body loop gives the content,
      the pushed fragments in order. */
  function SectionOf(data: string): (r: Result<DescriptionSection>)
    ensures !Contains(data, "</h5>") ==> r == Fail(MissingSeparator)
    ensures r.Ok? ==> && Extract("a", SplitOnce(data, "</h5>").value.0).Ok?
                      && |Extract("a", SplitOnce(data, "</h5>").value.0).value.content| > 0
                      && r.value.name
                         == Bold([Extract("a", SplitOnce(data, "</h5>").value.0).value.content[0]])
    ensures r.Ok? ==> && BodySteps(SplitOnce(data, "</h5>").value.1).Ok?
                      && r.value.content == Flatten(BodySteps(SplitOnce(data, "</h5>").value.1).value)
    ensures r.Ok? <==> && Contains(data, "</h5>")
                       && Extract("a", SplitOnce(data, "</h5>").value.0).Ok?
                       && |Extract("a", SplitOnce(data, "</h5>").value.0).value.content| > 0
                       && BodySteps(SplitOnce(data, "</h5>").value.1).Ok?
  {
    match SplitOnce(data, "</h5>")
    case None => Fail(MissingSeparator)
    case Some((heading, body)) =>
      var anchor :- Extract("a", heading);
      if |anchor.content| == 0 then Fail(IndexOutOfRange)
      else
        var steps :- BodySteps(body);
        Ok(DescriptionSection(Bold([anchor.content[0]]), Flatten(steps)))
  }

  /** The body loop as the source runs it: peek at the remainder, push what
      the turn yields, move the remainder on, until a turn stops. */
  method RunTurns(body: string, step: string -> Result<Step>) returns (r: Result<seq<seq<Fragment>>>)
    requires Consumes(step)
    ensures r == Turns(body, step)
  {
    var content: seq<seq<Fragment>> := [];
    var sections := body;
    if Turns(body, step).Ok? {
      assert [] + Turns(body, step).value == Turns(body, step).value;
    }
    while true
      invariant Prepend(content, Turns(sections, step)) == Turns(body, step)
      decreases |sections|
    {
      var turn := step(sections);
      if turn.Fail? {
        return Fail(turn.failure);
      }
      if turn.value.Stop? {
        break;
      }
      TurnsPush(sections, step, content);
      content := content + [turn.value.fragments];
      sections := turn.value.rest;
    }
    assert content + [] == content;
    r := Ok(content);
  }

  /** `DescriptionSection::parse` as the source runs it: the name from the
      heading, then the body loop, its pushes flattened in order. */
  method ParseSection(data: string) returns (r: Result<DescriptionSection>)
    ensures r == SectionOf(data)
  {
    var split := SplitOnce(data, "</h5>");
    if split.None? {
      return Fail(MissingSeparator);
    }
    var anchor := Extract("a", split.value.0);
    if anchor.Fail? {
      return Fail(anchor.failure);
    }
    if |anchor.value.content| == 0 {
      return Fail(IndexOutOfRange);
    }
    var name := Bold([anchor.value.content[0]]);
    BodyStepConsumes();
    var content := RunTurns(split.value.1, BodyStep);
    if content.Fail? {
      return Fail(content.failure);
    }
    r := Ok(DescriptionSection(name, Flatten(content.value)));
  }
}

=== FILE: fragment.dfy ===
/** Fragments: the semantically tagged pieces of text every parser of the
    page produces, and the HTML-entity un-escaping applied to them. */
module Fragments {
  import opened Results
  import opened Strings

  /** A highlighting hint, carried but not interpreted by the parser. */
  datatype Color = AssociatedType | Enum | Macro | Method | Primitive | Struct | Trait

  datatype Fragment =
    | Bold(parts: seq<Fragment>)
    | Code(inner: Fragment)
    | CodeBlock(inner: Fragment)
    | Colored(inner: Fragment, color: Color)
    | Raw(text: string)

  /** The text of a `Raw` fragment; any other fragment aborts. */
  function RawContent(f: Fragment): (r: Result<string>)
    ensures r.Ok? <==> f.Raw?
    ensures r.Ok? ==> f == Raw(r.value)
    ensures r.Fail? ==> r.failure == NotRaw
  {
    match f
    case Raw(text) => Ok(text)
    case _ => Fail(NotRaw)
  }

  /** The four entity replacements, in this order: `&lt;`, `&gt;`, `&amp;`,
      `&#x27;`. */
  function UnEscape(raw: string): string {
    Replace(Replace(Replace(Replace(raw, "&lt;", "<"), "&gt;", ">"), "&amp;", "&"), "&#x27;", "'")
  }

  /** `a` and `b` are the same tree of fragments: same constructors, same
      `Bold` lengths, same colours; only the texts of `Raw` leaves may differ. */
  predicate SameShape(a: Fragment, b: Fragment)
    decreases a
  {
    match a
    case Bold(ps) =>
      b.Bold? && |ps| == |b.parts| && forall i :: 0 <= i < |ps| ==> SameShape(ps[i], b.parts[i])
    case Code(x) => b.Code? && SameShape(x, b.inner)
    case CodeBlock(x) => b.CodeBlock? && SameShape(x, b.inner)
    case Colored(x, c) => b.Colored? && b.color == c && SameShape(x, b.inner)
    case Raw(_) => b.Raw?
  }

  /** Every `Raw` text anywhere in `f` satisfies `ok`. */
  predicate AllRaw(f: Fragment, ok: string -> bool)
    decreases f
  {
    match f
    case Bold(ps) => forall i :: 0 <= i < |ps| ==> AllRaw(ps[i], ok)
    case Code(x) => AllRaw(x, ok)
    case CodeBlock(x) => AllRaw(x, ok)
    case Colored(x, _) => AllRaw(x, ok)
    case Raw(t) => ok(t)
  }

  /** `un_escape_content`: `UnEscape` applied to every `Raw` text of the
      tree; the tree itself is kept. */
  function UnEscapeContent(f: Fragment): (r: Fragment)
    ensures f.Raw? <==> r.Raw?
    decreases f
  {
    match f
    case Bold(ps) => Bold(seq(|ps|, i requires 0 <= i < |ps| => UnEscapeContent(ps[i])))
    case Code(x) => Code(UnEscapeContent(x))
    case CodeBlock(x) => CodeBlock(UnEscapeContent(x))
    case Colored(x, c) => Colored(UnEscapeContent(x), c)
    case Raw(t) => Raw(UnEscape(t))
  }

  /** Un-escaping keeps the tree: same constructors, `Bold` lengths and
      colours, and every text of the result is an un-escaped text. */
  lemma {:induction false} UnEscapeContentShape(f: Fragment)
    ensures SameShape(f, UnEscapeContent(f))
    ensures AllRaw(UnEscapeContent(f), IsUnEscaped)
    decreases f
  {
    match f
    case Bold(ps) =>
      var r := UnEscapeContent(f);
      forall i | 0 <= i < |ps| ensures SameShape(ps[i], r.parts[i]) && AllRaw(r.parts[i], IsUnEscaped) {
        UnEscapeContentShape(ps[i]);
      }
    case Code(x) => UnEscapeContentShape(x);
    case CodeBlock(x) => UnEscapeContentShape(x);
    case Colored(x, _) => UnEscapeContentShape(x);
    case Raw(t) => assert IsUnEscaped(UnEscape(t));
  }

  /** A text that is the un-escaping of some text. */
  ghost predicate IsUnEscaped(t: string) {
    exists s :: t == UnEscape(s)
  }

  /** Un-escaping is the identity on text without '&'. */
  lemma UnEscapeWithoutAmpersand(s: string)
    requires '&' !in s
    ensures UnEscape(s) == s
  {
    ReplaceAbsent(s, "&lt;", "<");
    ReplaceAbsent(s, "&gt;", ">");
    ReplaceAbsent(s, "&amp;", "&");
    ReplaceAbsent(s, "&#x27;", "'");
  }

  /** Un-escaping never lengthens a text. */
  lemma UnEscapeShrinks(s: string)
    ensures |UnEscape(s)| <= |s|
  {
    var a := Replace(s, "&lt;", "<");
    var b := Replace(a, "&gt;", ">");
    var c := Replace(b, "&amp;", "&");
    ReplaceShrinks(s, "&lt;", "<");
    ReplaceShrinks(a, "&gt;", ">");
    ReplaceShrinks(b, "&amp;", "&");
    ReplaceShrinks(c, "&#x27;", "'");
  }

  /** A pattern `&x..` is not found at a lone '&' followed by a character other than `x`. */
  lemma ReplaceMissAtAmpersand(rest: string, from: string, to: string)
    requires |from| > 1 && from[0] == '&' && '&' !in rest && (|rest| == 0 || rest[0] != from[1])
    ensures Replace(['&'] + rest, from, to) == ['&'] + rest
  {
    var t := ['&'] + rest;
    assert !StartsWith(t, from) by {
      if |from| <= |t| { assert t[..|from|][1] == rest[0]; }
    }
    ReplaceKeep('&', rest, from, to);
    ReplaceAbsent(rest, from, to);
  }

  /** A pattern found at the start of a text with no further '&'. */
  lemma ReplaceOnlyAtStart(from: string, rest: string, to: string)
    requires |from| > 0 && from[0] == '&' && '&' !in rest
    ensures Replace(from + rest, from, to) == to + rest
  {
    ReplaceHit(from, rest, to);
    ReplaceAbsent(rest, from, to);
  }

  lemma {:induction false} UnEscapeKeepsLoneAmpersand(rest: string)
    requires '&' !in rest && (|rest| == 0 || rest[0] !in {'l', 'g', 'a', '#'})
    ensures UnEscape(['&'] + rest) == ['&'] + rest
  {
    ReplaceMissAtAmpersand(rest, "&lt;", "<");
    ReplaceMissAtAmpersand(rest, "&gt;", ">");
    ReplaceMissAtAmpersand(rest, "&amp;", "&");
    ReplaceMissAtAmpersand(rest, "&#x27;", "'");
  }

  /** The four replacements, each taken on the result of the one before. */
  lemma UnEscapeThrough(s: string, a: string, b: string, c: string, d: string)
    requires Replace(s, "&lt;", "<") == a && Replace(a, "&gt;", ">") == b
    requires Replace(b, "&amp;", "&") == c && Replace(c, "&#x27;", "'") == d
    ensures UnEscape(s) == d
  {
  }

  /** Text opening with a lone '&' whose second character does not continue
      `from` is left alone by the replacement of `from`. */
  lemma MissAfterAmpersand(s: string, from: string, to: string)
    requires |from| > 1 && from[0] == '&' && |s| > 1 && s[0] == '&' && '&' !in s[1..] && s[1] != from[1]
    ensures Replace(s, from, to) == s
  {
    assert s == ['&'] + s[1..];
    ReplaceMissAtAmpersand(s[1..], from, to);
  }

  /** Because `&amp;` is replaced before `&#x27;`, a doubly escaped
      apostrophe comes out as an apostrophe. */
  lemma UnEscapeAmpersandThenApostrophe(rest: string)
    requires '&' !in rest
    ensures UnEscape("&amp;#x27;" + rest) == "'" + rest
  {
    var s := "&amp;#x27;" + rest;
    ApostropheTail(rest);
    EscapedAmpersandMisses("#x27;" + rest);
    AmpersandFirst(rest);
    ReplaceOnlyAtStart("&#x27;", rest, "'");
    UnEscapeThrough(s, s, s, "&#x27;" + rest, "'" + rest);
  }

  /** After a leading "&amp;", text without '&' holds no `&lt;` or `&gt;`. */
  lemma EscapedAmpersandMisses(tail: string)
    requires '&' !in tail
    ensures Replace("&amp;" + tail, "&lt;", "<") == "&amp;" + tail
    ensures Replace("&amp;" + tail, "&gt;", ">") == "&amp;" + tail
  {
    var s := "&amp;" + tail;
    assert s[1..] == "amp;" + tail;
    assert '&' !in s[1..];
    MissAfterAmpersand(s, "&lt;", "<");
    MissAfterAmpersand(s, "&gt;", ">");
  }

  lemma AmpersandFirst(rest: string)
    requires '&' !in rest
    ensures Replace("&amp;#x27;" + rest, "&amp;", "&") == "&#x27;" + rest
  {
    ApostropheTail(rest);
    ReplaceOnlyAtStart("&amp;", "#x27;" + rest, "&");
  }

  lemma ApostropheTail(rest: string)
    requires '&' !in rest
    ensures '&' !in "#x27;" + rest
    ensures "&amp;#x27;" + rest == "&amp;" + ("#x27;" + rest)
    ensures "&" + ("#x27;" + rest) == "&#x27;" + rest
  {
  }

  /** Because `&lt;` is replaced before `&amp;`, a doubly escaped '<' comes
      out as `&lt;` and a second pass turns it into '<': un-escaping is not
      idempotent. */
  lemma UnEscapeNotIdempotent(rest: string)
    requires '&' !in rest
    ensures UnEscape("&amp;lt;" + rest) == "&lt;" + rest
    ensures UnEscape("&lt;" + rest) == "<" + rest
    ensures UnEscape(UnEscape("&amp;lt;" + rest)) != UnEscape("&amp;lt;" + rest)
  {
    var s := "&amp;lt;" + rest;
    assert s == "&amp;" + ("lt;" + rest);
    EscapedAmpersandMisses("lt;" + rest);
    DoublyEscapedAmpersand(rest);
    LessThanMisses(rest);
    UnEscapeThrough(s, s, s, "&lt;" + rest, "&lt;" + rest);
    LessThanOnce(rest);
    assert ("<" + rest)[0] != ("&lt;" + rest)[0];
  }

  lemma DoublyEscapedAmpersand(rest: string)
    requires '&' !in rest
    ensures Replace("&amp;lt;" + rest, "&amp;", "&") == "&lt;" + rest
  {
    var tail := "lt;" + rest;
    assert '&' !in tail;
    assert "&amp;lt;" + rest == "&amp;" + tail;
    ReplaceOnlyAtStart("&amp;", tail, "&");
    assert "&" + tail == "&lt;" + rest;
  }

  lemma LessThanMisses(rest: string)
    requires '&' !in rest
    ensures Replace("&lt;" + rest, "&#x27;", "'") == "&lt;" + rest
  {
    var s := "&lt;" + rest;
    assert s[1..] == "lt;" + rest;
    assert '&' !in s[1..];
    MissAfterAmpersand(s, "&#x27;", "'");
  }

  lemma LessThanOnce(rest: string)
    requires '&' !in rest
    ensures UnEscape("&lt;" + rest) == "<" + rest
  {
    ReplaceOnlyAtStart("&lt;", rest, "<");
    assert '&' !in "<" + rest;
    UnEscapeWithoutAmpersandTail("<" + rest);
  }

  /** The last three replacements leave text without '&' alone. */
  lemma UnEscapeWithoutAmpersandTail(s: string)
    requires '&' !in s
    ensures Replace(Replace(Replace(s, "&gt;", ">"), "&amp;", "&"), "&#x27;", "'") == s
  {
    ReplaceAbsent(s, "&gt;", ">");
    ReplaceAbsent(s, "&amp;", "&");
    ReplaceAbsent(s, "&#x27;", "'");
  }

  /** A text with no entity to un-escape. */
  predicate NoAmpersand(t: string) {
    '&' !in t
  }

  /** A fragment whose texts contain no '&' is left unchanged. */
  lemma {:induction false} UnEscapeContentWithoutAmpersand(f: Fragment)
    requires AllRaw(f, NoAmpersand)
    ensures UnEscapeContent(f) == f
    decreases f
  {
    match f
    case Bold(ps) =>
      forall i | 0 <= i < |ps| ensures UnEscapeContent(ps[i]) == ps[i] {
        UnEscapeContentWithoutAmpersand(ps[i]);
      }
      assert UnEscapeContent(f).parts == ps;
    case Code(x) => UnEscapeContentWithoutAmpersand(x);
    case CodeBlock(x) => UnEscapeContentWithoutAmpersand(x);
    case Colored(x, _) => UnEscapeContentWithoutAmpersand(x);
    case Raw(t) => UnEscapeWithoutAmpersand(t);
  }

  /** `to_hex`: the display colour of each tag. */
  function ToHex(c: Color): (r: string)
    ensures |r| == 7 && r[0] == '#'
    ensures r == "#2dbfb8" <==> c in {Enum, Primitive, Struct}
  {
    match c
    case AssociatedType => "#d2991d"
    case Enum => "#2dbfb8"
    case Macro => "#09bd00"
    case Method => "#2bab63"
    case Primitive => "#2dbfb8"
    case Struct => "#2dbfb8"
    case Trait => "#b78cf2"
  }

  /** Two colours share a display colour only when both are among Enum,
      Primitive and Struct. */
  lemma ToHexShared(c: Color, d: Color)
    ensures ToHex(c) == ToHex(d) <==> c == d || (c in {Enum, Primitive, Struct} && d in {Enum, Primitive, Struct})
  {
  }
}

=== FILE: html_element.dfy ===
/** The element tree builder: a recursive-descent parser that turns one HTML
    element into a tree of elements whose texts are `Raw` fragments, and the
    slicing that cuts the first element of a given name out of a page. */
module Elements {
  import opened Results
  import opened Strings
  import opened Fragments
  import Tags

  /** `HtmlElement`: a tag name, its attributes, the text runs found directly
      inside it and its child elements, both in document order. */
  datatype Element = Element(kind: string, attributes: map<string, string>,
                             content: seq<Fragment>, children: seq<Element>)

  /** A text run as the builder pushes it: a non-empty `Raw` text without '<'. */
  predicate TextRun(f: Fragment) {
    f.Raw? && f.text != [] && '<' !in f.text
  }

  /** Every text of the tree, at every depth, is a text run. */
  predicate WellFormed(e: Element)
    decreases e
  {
    && (forall i :: 0 <= i < |e.content| ==> TextRun(e.content[i]))
    && (forall i :: 0 <= i < |e.children| ==> WellFormed(e.children[i]))
  }

  /** `HtmlElement::parse` on a cursor at `html`: the element and the rest of
      the cursor. The opening tag is the text from index 1 up to the first
      '>'; whatever the first character is, it is skipped. */
  function ParseElement(html: string): (r: Result<(Element, string)>)
    ensures r.Ok? ==> |r.value.1| < |html|
    ensures !('>' in html) ==> r == Fail(MissingTagEnd)
    ensures |html| > 0 && html[0] == '>' ==> r == Fail(EmptyTagSlice)
    ensures r.Ok? ==> && Find(html, ">").Some? && 1 <= Find(html, ">").value
                      && r.value.0.kind == Tags.Parse(html[1..Find(html, ">").value]).name
                      && r.value.0.attributes == Tags.Parse(html[1..Find(html, ">").value]).attributes
    decreases |html|, 0
  {
    FindCharPrefix(html, '>');
    match Find(html, ">")
    case None => Fail(MissingTagEnd)
    case Some(end) =>
      if end == 0 then Fail(EmptyTagSlice)
      else
        var tag := Tags.Parse(html[1..end]);
        ParseBody(tag.name, tag.attributes, [], [], Trim(html[end + 1..]))
  }

  /** The builder's loop, with the element built so far and the cursor. */
  function ParseBody(name: string, attributes: map<string, string>, content: seq<Fragment>,
                     children: seq<Element>, cursor: string): (r: Result<(Element, string)>)
    ensures r.Ok? ==> |r.value.1| <= |cursor|
    ensures r.Ok? ==> r.value.0.kind == name && r.value.0.attributes == attributes
    decreases |cursor|, 2
  {
    if StartsWith(cursor, "<") then
      TagEndAfterStart(cursor);
      match Find(cursor, ">")
      case None => Fail(MissingTagEnd)
      case Some(end) => AtTag(name, attributes, content, children, cursor, end, Tags.Parse(cursor[1..end]))
    else if cursor == [] then
      Ok((Element(name, attributes, content, children), []))
    else
      TextRunAhead(cursor);
      match Find(cursor, "<")
      case None => Fail(MissingTextEnd)
      case Some(next) =>
        ParseBody(name, attributes, content + [Raw(cursor[..next])], children, cursor[next..])
  }

  /** The loop at a tag that ends at index `end` of the cursor: a void tag is
      pushed as a childless, textless element, an opening tag is parsed as a
      child, a closing tag closes the element. */
  function AtTag(name: string, attributes: map<string, string>, content: seq<Fragment>,
                 children: seq<Element>, cursor: string, end: nat, tag: Tags.Tag): (r: Result<(Element, string)>)
    requires 1 <= end < |cursor|
    ensures r.Ok? ==> |r.value.1| <= |cursor|
    ensures r.Ok? ==> r.value.0.kind == name && r.value.0.attributes == attributes
    decreases |cursor|, 1
  {
    match tag.kind
    case Void =>
      var void := Element(tag.name, tag.attributes, [], []);
      ParseBody(name, attributes, content, children + [void], Trim(cursor[end + 1..]))
    case Opening =>
      var parsed :- ParseElement(cursor);
      ParseBody(name, attributes, content, children + [parsed.0], parsed.1)
    case Closing =>
      Ok((Element(name, attributes, content, children), Trim(cursor[end + 1..])))
  }

  /** `HtmlElement::parse`: the builder's loop, advancing a cursor over `html`
      and pushing text runs and child elements; the element is closed by the
      first closing tag of its own level, whatever its name, or by the end of
      the text. Returns the element and what is left of the cursor. */
  method Parse(html: string) returns (r: Result<(Element, string)>)
    ensures r == ParseElement(html)
    decreases |html|
  {
    FindCharPrefix(html, '>');
    var mainTagEnd := Find(html, ">");
    if mainTagEnd.None? {
      return Fail(MissingTagEnd);
    }
    if mainTagEnd.value == 0 {
      return Fail(EmptyTagSlice);
    }
    var mainTag := Tags.ParseTag(html[1..mainTagEnd.value]);
    var content: seq<Fragment> := [];
    var children: seq<Element> := [];
    var cursor := Trim(html[mainTagEnd.value + 1..]);
    while true
      invariant |cursor| < |html|
      invariant ParseBody(mainTag.name, mainTag.attributes, content, children, cursor) == ParseElement(html)
      decreases |cursor|
    {
      if StartsWith(cursor, "<") {
        TagEndAfterStart(cursor);
        var currentTagEnd := Find(cursor, ">");
        if currentTagEnd.None? {
          return Fail(MissingTagEnd);
        }
        var end := currentTagEnd.value;
        var currentTag := Tags.ParseTag(cursor[1..end]);
        match currentTag.kind
        case Void =>
          VoidStep(mainTag.name, mainTag.attributes, content, children, cursor, end, currentTag);
          children := children + [Element(currentTag.name, currentTag.attributes, [], [])];
          cursor := Trim(cursor[end + 1..]);
        case Opening =>
          OpeningStep(mainTag.name, mainTag.attributes, content, children, cursor, end);
          var child := Parse(cursor);
          if child.Fail? {
            return Fail(child.failure);
          }
          children := children + [child.value.0];
          cursor := child.value.1;
        case Closing =>
          return Ok((Element(mainTag.name, mainTag.attributes, content, children), Trim(cursor[end + 1..])));
      } else {
        if cursor == [] {
          return Ok((Element(mainTag.name, mainTag.attributes, content, children), []));
        }
        TextRunAhead(cursor);
        var nextElementStart := Find(cursor, "<");
        if nextElementStart.None? {
          return Fail(MissingTextEnd);
        }
        content := content + [Raw(cursor[..nextElementStart.value])];
        cursor := cursor[nextElementStart.value..];
      }
    }
  }

  /** Where `extract` starts reading: at the first `<name>` if there is one,
      else at the first `<name`, else at the start of the data. */
  function ExtractTail(name: string, data: string): (r: string)
    ensures Contains(data, "<" + name + ">") ==> r == data[Find(data, "<" + name + ">").value..]
    ensures !Contains(data, "<" + name + ">") && Contains(data, "<" + name)
            ==> r == data[Find(data, "<" + name).value..]
    ensures !Contains(data, "<" + name + ">") && !Contains(data, "<" + name) ==> r == data
  {
    var closedTag := "<" + name + ">";
    var openTag := "<" + name;
    match SplitOnce(data, closedTag)
    case Some((head, tail)) =>
      SplitOnceFind(data, closedTag);
      closedTag + tail
    case None =>
      match SplitOnce(data, openTag)
      case Some((head, tail)) =>
        SplitOnceFind(data, openTag);
        openTag + tail
      case None => data
  }

  /** The closing tag `extract` cuts at: `<name>` with '<' replaced by "</". */
  function Untag(name: string): string {
    Replace("<" + name + ">", "<", "</")
  }

  /** For a name without '<' the cut is at `</name>`. */
  lemma UntagOf(name: string)
    requires '<' !in name
    ensures Untag(name) == "</" + name + ">"
  {
    assert "<" + name + ">" == "<" + (name + ">");
    ReplaceHit("<", name + ">", "</");
    ReplaceAbsent(name + ">", "<", "</");
    assert "</" + (name + ">") == "</" + name + ">";
  }

  /** The slice `extract` hands to the builder: from the start of
      `ExtractTail` through the first closing tag after it (or to the end
      when there is none); only empty data leaves nothing to take. */
  function ExtractSlice(name: string, data: string): (r: Result<string>)
    ensures r.Fail? <==> data == []
    ensures r.Fail? ==> r.failure == NothingToTake
    ensures r.Ok? ==> StartsWith(ExtractTail(name, data), r.value)
    ensures r.Ok? && Contains(ExtractTail(name, data), Untag(name))
            ==> EndsWith(r.value, Untag(name))
                && forall j: nat :: j + |Untag(name)| < |r.value| ==> !OccursAt(r.value, Untag(name), j)
    ensures r.Ok? && !Contains(ExtractTail(name, data), Untag(name)) ==> r.value == ExtractTail(name, data)
  {
    var tail := ExtractTail(name, data);
    var pieces := SplitInclusive(tail, Untag(name));
    if |pieces| == 0 then Fail(NothingToTake)
    else
      forall j: nat | j + |Untag(name)| < |pieces[0]| && OccursAt(pieces[0], Untag(name), j)
        ensures false
      {
        OccursInPrefix(tail, Untag(name), |pieces[0]|, j);
      }
      Ok(pieces[0])
  }

  /** `HtmlElement::extract`: the element built from `ExtractSlice`; whatever
      follows it is dropped. */
  function Extract(name: string, data: string): (r: Result<Element>)
    ensures data == [] ==> r == Fail(NothingToTake)
    ensures r.Ok? <==> ExtractSlice(name, data).Ok? && ParseElement(ExtractSlice(name, data).value).Ok?
    ensures r.Ok? ==> r.value == ParseElement(ExtractSlice(name, data).value).value.0
    ensures r.Ok? ==> WellFormed(r.value)
  {
    var slice :- ExtractSlice(name, data);
    ParseElementWellFormed(slice);
    var parsed :- ParseElement(slice);
    Ok(parsed.0)
  }

  /** Once the data holds `<name>` and a closing tag after it, text
      appended to the data never reaches the element `extract` returns. */
  lemma ExtractIgnoresLaterText(name: string, data: string, extra: string)
    requires Contains(data, "<" + name + ">")
    requires Contains(ExtractTail(name, data), Untag(name))
    ensures Extract(name, data + extra) == Extract(name, data)
  {
    ExtractTailAppend(name, data, extra);
    SplitInclusiveAppend(ExtractTail(name, data), extra, Untag(name));
  }

  /** Text appended after `<name>` is appended to where `extract` starts. */
  lemma ExtractTailAppend(name: string, data: string, extra: string)
    requires Contains(data, "<" + name + ">")
    ensures ExtractTail(name, data + extra) == ExtractTail(name, data) + extra
  {
    var closedTag := "<" + name + ">";
    FindAppend(data, extra, closedTag);
    var i := Find(data, closedTag).value;
    assert OccursAt(data + extra, closedTag, i) by {
      assert (data + extra)[i..i + |closedTag|] == data[i..i + |closedTag|];
    }
    assert (data + extra)[i..] == data[i..] + extra;
  }

  /** When the data holds `<name>` for a plain name (no space, '<' or '>'),
      the element `extract` returns is that element. */
  lemma ExtractName(name: string, data: string)
    requires ' ' !in name && '<' !in name && '>' !in name
    requires Contains(data, "<" + name + ">")
    ensures Extract(name, data).Ok? ==> Extract(name, data).value.kind == name
  {
    if ExtractSlice(name, data).Ok? {
      SliceOpens(name, data);
      Tags.ParseName(name);
    }
  }

  /** A slice cut at `<name>` opens with that tag. */
  lemma SliceOpens(name: string, data: string)
    requires '<' !in name && '>' !in name && Contains(data, "<" + name + ">")
    requires ExtractSlice(name, data).Ok?
    ensures var s := ExtractSlice(name, data).value;
            Find(s, ">") == Some(|name| + 1) && s[1..|name| + 1] == name
  {
    var closedTag := "<" + name + ">";
    var tail := ExtractTail(name, data);
    var s := ExtractSlice(name, data).value;
    assert tail[..|closedTag|] == closedTag by {
      var i := Find(data, closedTag).value;
      assert data[i..i + |closedTag|] == closedTag;
    }
    UntagOf(name);
    assert |s| >= |closedTag| by {
      if Contains(tail, Untag(name)) {
        assert EndsWith(s, Untag(name));
      }
    }
    assert s[..|closedTag|] == tail[..|closedTag|];
    assert s == ("<" + name) + ">" + s[|closedTag|..];
    assert '>' !in "<" + name;
    FindCharAfter("<" + name, '>', s[|closedTag|..]);
    assert s[1..|name| + 1] == name;
  }


  /** A tag that starts with '<' ends at a '>' after that first character. */
  lemma TagEndAfterStart(cursor: string)
    requires StartsWith(cursor, "<")
    ensures Find(cursor, ">").Some? ==> 1 <= Find(cursor, ">").value < |cursor|
  {
    FindCharPrefix(cursor, '>');
  }

  /** Text that does not start with '<' runs, non-empty, up to the first '<'. */
  lemma TextRunAhead(cursor: string)
    requires cursor != [] && !StartsWith(cursor, "<")
    ensures Find(cursor, "<").Some? ==> 0 < Find(cursor, "<").value < |cursor|
    ensures Find(cursor, "<").Some? ==> TextRun(Raw(cursor[..Find(cursor, "<").value]))
  {
    FindCharPrefix(cursor, '<');
    assert cursor[..1] == [cursor[0]];
  }

  /** Every element the builder returns is well formed: its texts, at every
      depth, are non-empty runs without '<'. */
  lemma {:induction false} ParseElementWellFormed(html: string)
    ensures ParseElement(html).Ok? ==> WellFormed(ParseElement(html).value.0)
    decreases |html|, -1
  {
    match Find(html, ">")
    case None =>
    case Some(end) =>
      if end != 0 {
        var tag := Tags.Parse(html[1..end]);
        ParseBodyWellFormed(tag.name, tag.attributes, [], [], Trim(html[end + 1..]));
      }
  }

  lemma {:induction false} ParseBodyWellFormed(name: string, attributes: map<string, string>,
                                               content: seq<Fragment>, children: seq<Element>, cursor: string)
    requires forall i :: 0 <= i < |content| ==> TextRun(content[i])
    requires forall i :: 0 <= i < |children| ==> WellFormed(children[i])
    ensures ParseBody(name, attributes, content, children, cursor).Ok?
            ==> WellFormed(ParseBody(name, attributes, content, children, cursor).value.0)
    decreases |cursor|, 2
  {
    if StartsWith(cursor, "<") {
      TagStepWellFormed(name, attributes, content, children, cursor);
    } else if cursor != [] {
      TextStepWellFormed(name, attributes, content, children, cursor);
    }
  }

  /** The loop step at a tag keeps the element well formed. */
  lemma {:induction false} TagStepWellFormed(name: string, attributes: map<string, string>,
                                             content: seq<Fragment>, children: seq<Element>, cursor: string)
    requires StartsWith(cursor, "<")
    requires forall i :: 0 <= i < |content| ==> TextRun(content[i])
    requires forall i :: 0 <= i < |children| ==> WellFormed(children[i])
    ensures ParseBody(name, attributes, content, children, cursor).Ok?
            ==> WellFormed(ParseBody(name, attributes, content, children, cursor).value.0)
    decreases |cursor|, 1
  {
    TagEndAfterStart(cursor);
    match Find(cursor, ">")
    case None =>
    case Some(end) =>
      var tag := Tags.Parse(cursor[1..end]);
      match tag.kind
      case Void => VoidStepWellFormed(name, attributes, content, children, cursor, end);
      case Opening => OpeningStepWellFormed(name, attributes, content, children, cursor, end);
      case Closing =>
  }

  lemma {:induction false} VoidStepWellFormed(name: string, attributes: map<string, string>,
                                              content: seq<Fragment>, children: seq<Element>, cursor: string, end: nat)
    requires StartsWith(cursor, "<") && Find(cursor, ">") == Some(end) && 1 <= end < |cursor|
    requires Tags.Parse(cursor[1..end]).kind == Tags.Void
    requires forall i :: 0 <= i < |content| ==> TextRun(content[i])
    requires forall i :: 0 <= i < |children| ==> WellFormed(children[i])
    ensures ParseBody(name, attributes, content, children, cursor).Ok?
            ==> WellFormed(ParseBody(name, attributes, content, children, cursor).value.0)
    decreases |cursor|, 0
  {
    var tag := Tags.Parse(cursor[1..end]);
    var void := Element(tag.name, tag.attributes, [], []);
    VoidStep(name, attributes, content, children, cursor, end, tag);
    AppendWellFormed(children, void);
    ParseBodyWellFormed(name, attributes, content, children + [void], Trim(cursor[end + 1..]));
  }

  lemma {:induction false} OpeningStepWellFormed(name: string, attributes: map<string, string>,
                                                 content: seq<Fragment>, children: seq<Element>, cursor: string, end: nat)
    requires StartsWith(cursor, "<") && Find(cursor, ">") == Some(end) && 1 <= end < |cursor|
    requires Tags.Parse(cursor[1..end]).kind == Tags.Opening
    requires forall i :: 0 <= i < |content| ==> TextRun(content[i])
    requires forall i :: 0 <= i < |children| ==> WellFormed(children[i])
    ensures ParseBody(name, attributes, content, children, cursor).Ok?
            ==> WellFormed(ParseBody(name, attributes, content, children, cursor).value.0)
    decreases |cursor|, 0
  {
    ParseElementWellFormed(cursor);
    var parsed := ParseElement(cursor);
    if parsed.Ok? {
      OpeningStep(name, attributes, content, children, cursor, end);
      AppendWellFormed(children, parsed.value.0);
      ParseBodyWellFormed(name, attributes, content, children + [parsed.value.0], parsed.value.1);
    }
  }

  /** At a tag the loop goes on according to the tag's kind. */
  lemma TagStep(name: string, attributes: map<string, string>,
                content: seq<Fragment>, children: seq<Element>, cursor: string, end: nat)
    requires StartsWith(cursor, "<") && Find(cursor, ">") == Some(end) && 1 <= end < |cursor|
    ensures ParseBody(name, attributes, content, children, cursor)
         == AtTag(name, attributes, content, children, cursor, end, Tags.Parse(cursor[1..end]))
  {
  }

  /** At a void tag the loop pushes a childless, textless element and goes on after the tag. */
  lemma VoidStep(name: string, attributes: map<string, string>,
                 content: seq<Fragment>, children: seq<Element>, cursor: string, end: nat, tag: Tags.Tag)
    requires StartsWith(cursor, "<") && Find(cursor, ">") == Some(end) && 1 <= end < |cursor|
    requires tag == Tags.Parse(cursor[1..end]) && tag.kind == Tags.Void
    ensures ParseBody(name, attributes, content, children, cursor)
         == ParseBody(name, attributes, content, children + [Element(tag.name, tag.attributes, [], [])],
                      Trim(cursor[end + 1..]))
  {
    TagStep(name, attributes, content, children, cursor, end);
    VoidCase(name, attributes, content, children, cursor, end, tag);
  }

  /** A closing tag, whatever its name, closes the element built so far and
      moves the cursor past the tag, trimmed. */
  lemma ClosingStep(name: string, attributes: map<string, string>,
                    content: seq<Fragment>, children: seq<Element>, cursor: string, end: nat)
    requires StartsWith(cursor, "<") && Find(cursor, ">") == Some(end) && 1 <= end < |cursor|
    requires Tags.Parse(cursor[1..end]).kind == Tags.Closing
    ensures ParseBody(name, attributes, content, children, cursor)
         == Ok((Element(name, attributes, content, children), Trim(cursor[end + 1..])))
  {
    TagStep(name, attributes, content, children, cursor, end);
    ClosingCase(name, attributes, content, children, cursor, end, Tags.Parse(cursor[1..end]));
  }

  lemma ClosingCase(name: string, attributes: map<string, string>,
                    content: seq<Fragment>, children: seq<Element>, cursor: string, end: nat, tag: Tags.Tag)
    requires 1 <= end < |cursor| && tag.kind == Tags.Closing
    ensures AtTag(name, attributes, content, children, cursor, end, tag)
         == Ok((Element(name, attributes, content, children), Trim(cursor[end + 1..])))
  {
  }

  /** An inner tag without a '>' after it is the `expect` failure. */
  lemma InnerTagWithoutEnd(name: string, attributes: map<string, string>,
                           content: seq<Fragment>, children: seq<Element>, cursor: string)
    requires StartsWith(cursor, "<") && '>' !in cursor
    ensures ParseBody(name, attributes, content, children, cursor) == Fail(MissingTagEnd)
  {
    FindCharPrefix(cursor, '>');
  }

  /** The end of the text closes the element with everything built so far. */
  lemma EmptyCursorCloses(name: string, attributes: map<string, string>,
                          content: seq<Fragment>, children: seq<Element>)
    ensures ParseBody(name, attributes, content, children, [])
         == Ok((Element(name, attributes, content, children), []))
  {
  }

  /** Text is pushed up to the next '<', and the loop goes on there. */
  lemma TextStep(name: string, attributes: map<string, string>,
                 content: seq<Fragment>, children: seq<Element>, cursor: string, next: nat)
    requires cursor != [] && cursor[0] != '<' && Find(cursor, "<") == Some(next)
    ensures 0 < next < |cursor|
    ensures ParseBody(name, attributes, content, children, cursor)
         == ParseBody(name, attributes, content + [Raw(cursor[..next])], children, cursor[next..])
  {
    TextRunAhead(cursor);
  }

  /** Text with no '<' after it is the `expect` failure: the element was
      never closed. */
  lemma TextWithoutTagFails(name: string, attributes: map<string, string>,
                            content: seq<Fragment>, children: seq<Element>, cursor: string)
    requires cursor != [] && '<' !in cursor
    ensures ParseBody(name, attributes, content, children, cursor) == Fail(MissingTextEnd)
  {
    FindCharPrefix(cursor, '<');
  }

  lemma VoidCase(name: string, attributes: map<string, string>,
                 content: seq<Fragment>, children: seq<Element>, cursor: string, end: nat, tag: Tags.Tag)
    requires 1 <= end < |cursor| && tag.kind == Tags.Void
    ensures AtTag(name, attributes, content, children, cursor, end, tag)
         == ParseBody(name, attributes, content, children + [Element(tag.name, tag.attributes, [], [])],
                      Trim(cursor[end + 1..]))
  {
  }

  /** At an opening tag the loop pushes the element parsed from the tag on. */
  lemma OpeningStep(name: string, attributes: map<string, string>,
                    content: seq<Fragment>, children: seq<Element>, cursor: string, end: nat)
    requires StartsWith(cursor, "<") && Find(cursor, ">") == Some(end) && 1 <= end < |cursor|
    requires Tags.Parse(cursor[1..end]).kind == Tags.Opening
    ensures ParseElement(cursor).Fail? ==> ParseBody(name, attributes, content, children, cursor)
                                           == Fail(ParseElement(cursor).failure)
    ensures ParseElement(cursor).Ok?
            ==> (ParseBody(name, attributes, content, children, cursor)
                 == ParseBody(name, attributes, content, children + [ParseElement(cursor).value.0],
                              ParseElement(cursor).value.1))
  {
  }

  lemma AppendWellFormed(children: seq<Element>, e: Element)
    requires forall i :: 0 <= i < |children| ==> WellFormed(children[i])
    requires WellFormed(e)
    ensures forall i :: 0 <= i < |children + [e]| ==> WellFormed((children + [e])[i])
  {
  }

  /** The loop step at a text run keeps the element well formed. */
  lemma {:induction false} TextStepWellFormed(name: string, attributes: map<string, string>,
                                              content: seq<Fragment>, children: seq<Element>, cursor: string)
    requires cursor != [] && !StartsWith(cursor, "<")
    requires forall i :: 0 <= i < |content| ==> TextRun(content[i])
    requires forall i :: 0 <= i < |children| ==> WellFormed(children[i])
    ensures ParseBody(name, attributes, content, children, cursor).Ok?
            ==> WellFormed(ParseBody(name, attributes, content, children, cursor).value.0)
    decreases |cursor|, 1
  {
    var r := ParseBody(name, attributes, content, children, cursor);
    TextRunAhead(cursor);
    match Find(cursor, "<")
    case None =>
    case Some(next) =>
      var runs := content + [Raw(cursor[..next])];
      assert r == ParseBody(name, attributes, runs, children, cursor[next..]);
      assert forall i :: 0 <= i < |runs| ==> TextRun(runs[i]);
      ParseBodyWellFormed(name, attributes, runs, children, cursor[next..]);
  }
}

=== FILE: legacy.dfy ===
/** The older `zip_content`, the copy in the all-in-one helpers module that
    the crate root still declares. It is the newer one except for the
    trailing run, which it decides on before popping the last child. */
module LegacyZipper {
  import opened Results
  import opened Fragments
  import opened Elements
  import opened ContentZipper

  /** The trailing run of the older version: the last run, when there are
      more runs than children, every child counted. */
  function LegacyTrailing(e: Element): (r: seq<Fragment>)
    ensures |r| <= 1
    ensures r != [] <==> |e.content| > |e.children|
    ensures r != [] ==> r[0] == e.content[|e.content| - 1]
  {
    if |e.content| > |e.children| then [e.content[|e.content| - 1]] else []
  }

  /** The fragments of the older version before un-escaping. */
  function LegacyZipped(e: Element): (r: Result<seq<Fragment>>)
    ensures r.Fail? ==> r.failure == IndexOutOfRange
  {
    var pairs :- ZipRuns(e.content, NonDiv(e.children));
    Ok(pairs + LegacyTrailing(e))
  }

  /** The older `zip_content`: the `strong` case, the zip and the `where`
      clause as in the newer one, with the older trailing run. */
  function LegacyZipContent(e: Element): (r: Result<seq<Fragment>>)
    ensures StrongFirst(e) ==> r == ZipContentSpec(e)
    ensures r.Fail? ==> r.failure == IndexOutOfRange
    decreases e
  {
    if StrongFirst(e) then
      if |e.children[0].content| == 0 || |e.content| == 0 then Fail(IndexOutOfRange)
      else Ok([Bold([e.children[0].content[0]]), e.content[0]])
    else
      var zipped :- LegacyZipped(e);
      if |e.children| > 0 && IsWhere(e.children[|e.children| - 1]) then
        var clause :- LegacyZipContent(e.children[|e.children| - 1]);
        Ok(UnEscapeAll(zipped + clause))
      else
        Ok(UnEscapeAll(zipped))
  }

  /** The two trailing runs differ exactly when there are as many runs as
      children, at least one: then only the newer version has one. */
  lemma TrailingDiffers(e: Element)
    ensures Trailing(e) != LegacyTrailing(e) <==> |e.children| > 0 && |e.content| == |e.children|
    ensures |e.children| > 0 && |e.content| == |e.children|
            ==> LegacyTrailing(e) == [] && Trailing(e) == [e.content[|e.content| - 1]]
  {
  }

  /** The zipped fragments of the two versions: the same pairs, and the
      newer one has the extra trailing run where the trailing runs differ. */
  lemma ZippedDiffers(e: Element)
    ensures LegacyZipped(e).Ok? <==> Zipped(e).Ok?
    ensures Zipped(e).Ok? && Trailing(e) == LegacyTrailing(e) ==> LegacyZipped(e) == Zipped(e)
    ensures Zipped(e).Ok? && Trailing(e) != LegacyTrailing(e)
            ==> Zipped(e).value == LegacyZipped(e).value + [e.content[|e.content| - 1]]
  {
    TrailingDiffers(e);
  }

  /** Without a `strong` first child or a `where` clause, the two versions
      succeed together and agree, except with as many runs as children (at
      least one): then the newer one ends with the last run once more,
      un-escaped, and the older one does not. */
  lemma LegacyAgrees(e: Element)
    requires !StrongFirst(e) && (|e.children| == 0 || !IsWhere(e.children[|e.children| - 1]))
    ensures LegacyZipContent(e).Ok? <==> ZipContentSpec(e).Ok?
    ensures |e.children| == 0 || |e.content| != |e.children| ==> LegacyZipContent(e) == ZipContentSpec(e)
    ensures |e.children| > 0 && |e.content| == |e.children| && ZipContentSpec(e).Ok?
            ==> ZipContentSpec(e).value
                == LegacyZipContent(e).value + [UnEscapeContent(e.content[|e.content| - 1])]
  {
    ZipContentUnfold(e);
    ZippedDiffers(e);
    TrailingDiffers(e);
    if Zipped(e).Ok? && |e.children| > 0 && |e.content| == |e.children| {
      var older := LegacyZipped(e).value;
      UnEscapeAllAppend(older, [e.content[|e.content| - 1]]);
    }
  }

  /** With a `where` last child, the older version appends that clause's own
      older zip after the trailing run, which counts the clause among the
      children, and un-escapes everything once more. */
  lemma LegacyZipContentWhere(e: Element)
    requires !StrongFirst(e) && |e.children| > 0 && IsWhere(e.children[|e.children| - 1])
    ensures var clause := LegacyZipContent(e.children[|e.children| - 1]);
            LegacyZipContent(e).Ok? <==> LegacyZipped(e).Ok? && clause.Ok?
    ensures var clause := LegacyZipContent(e.children[|e.children| - 1]);
            LegacyZipContent(e).Ok?
            ==> LegacyZipContent(e).value == UnEscapeAll(LegacyZipped(e).value + clause.value)
    ensures LegacyTrailing(e) != [] <==> |e.content| > |e.children|
  {
  }

  /** With a `where` last child, the two versions agree whenever their
      trailing runs and their zips of the clause agree. */
  lemma LegacyAgreesWhere(e: Element)
    requires !StrongFirst(e) && |e.children| > 0 && IsWhere(e.children[|e.children| - 1])
    requires Trailing(e) == LegacyTrailing(e)
    requires LegacyZipContent(e.children[|e.children| - 1]) == ZipContentSpec(e.children[|e.children| - 1])
    ensures LegacyZipContent(e) == ZipContentSpec(e)
  {
    ZippedDiffers(e);
    ZipContentWhereUnfold(e);
    LegacyZipContentWhere(e);
  }

  /** The older `zip_content` as the source runs it: the pairs, then the
      trailing run against every child, then the last child popped and a
      `where` clause appended. */
  method LegacyZip(e: Element) returns (r: Result<seq<Fragment>>, after: Element)
    ensures r == LegacyZipContent(e)
    ensures after == Popped(e)
    decreases e
  {
    after := Popped(e);
    if StrongFirst(e) {
      if |e.children[0].content| == 0 || |e.content| == 0 {
        return Fail(IndexOutOfRange), after;
      }
      return Ok([Bold([e.children[0].content[0]]), e.content[0]]), after;
    }
    var pairs := ZipPairs(e.content, NonDiv(e.children));
    if pairs.Fail? {
      return Fail(pairs.failure), after;
    }
    var fragments := pairs.value;
    assert pairs.value + [] == pairs.value;
    if |e.content| > |e.children| {
      fragments := fragments + [e.content[|e.content| - 1]];
    }
    assert LegacyZipped(e) == Ok(fragments);
    if |e.children| > 0 && IsWhere(e.children[|e.children| - 1]) {
      var clause, _ := LegacyZip(e.children[|e.children| - 1]);
      if clause.Fail? {
        return Fail(clause.failure), after;
      }
      fragments := fragments + clause.value;
    }
    r := Ok(UnEscapeAll(fragments));
  }
}

=== FILE: main_content.dfy ===
/** The main content of a page: one section per `<h2` heading, each parsed
    by the parser its heading names. */
module MainContents {
  import opened Results
  import opened Strings
  import opened Fragments
  import opened Elements
  import opened ContentZipper
  import Methods

  datatype Field = Field(content: seq<Fragment>, description: seq<Fragment>)

  datatype Implementation = Implementation(inherentImpl: Fragment, methods: seq<Methods.Method>)

  datatype RequiredAssociatedType = RequiredAssociatedType(name: Fragment, description: Fragment)

  datatype TraitImplementation = TraitImplementation(traitImpl: Fragment, methods: seq<Methods.Method>)

  datatype Variant = Variant(name: Fragment, description: seq<Fragment>)

  datatype SectionContent =
    | Dummy
    | Fields(fields: seq<Field>)
    | Implementations(implementations: seq<Implementation>)
    | ObjectSafety(fragments: seq<Fragment>)
    | RequiredAssociatedTypes(types: seq<RequiredAssociatedType>)
    | TraitImplementations(traitImplementations: seq<TraitImplementation>)
    | Variants(variants: seq<Variant>)

  datatype Section = Section(name: Fragment, content: SectionContent)

  datatype MainContent = MainContent(sections: seq<Section>)

  const ImplementorsOpen: string := "<details class=\"toggle implementors-toggle\" open>"
  const BlanketOpen: string := "<details class=\"toggle implementors-toggle\">"
  const MethodOpen: string := "<details class=\"toggle method-toggle\" open>"
  const BlanketMethodOpen: string := "<details class=\"toggle method-toggle\">"

  /** The zipped heading of a record, in bold. */
  function Heading(tag: string, data: string): (r: Result<Fragment>)
    ensures r.Ok? <==> ZipExtracted(tag, data).Ok?
    ensures r.Ok? ==> r.value == Bold(ZipExtracted(tag, data).value)
  {
    var fragments :- ZipExtracted(tag, data);
    Ok(Bold(fragments))
  }

  /** One struct field: its code up to the first "</span>", its description
      after it. */
  function FieldOf(field: string): (r: Result<Field>)
    ensures !Contains(field, "</span>") ==> r == Fail(MissingSeparator)
    ensures r.Ok? ==> && ZipExtracted("code", SplitOnce(field, "</span>").value.0) == Ok(r.value.content)
                      && ZipExtracted("p", SplitOnce(field, "</span>").value.1) == Ok(r.value.description)
    ensures r.Ok? <==> && Contains(field, "</span>")
                       && ZipExtracted("code", SplitOnce(field, "</span>").value.0).Ok?
                       && ZipExtracted("p", SplitOnce(field, "</span>").value.1).Ok?
  {
    match SplitOnce(field, "</span>")
    case None => Fail(MissingSeparator)
    case Some((code, description)) =>
      var content :- ZipExtracted("code", code);
      var text :- ZipExtracted("p", description);
      Ok(Field(content, text))
  }

  /** `parse_fields`: one field per "</div>"-terminated chunk, in order. */
  function ParseFields(data: string): (r: Result<SectionContent>)
    ensures r.Ok? ==> r.value.Fields? && |r.value.fields| == |SplitTerminator(data, "</div>")|
    ensures r.Ok? ==> forall k :: 0 <= k < |r.value.fields|
                        ==> FieldOf(SplitTerminator(data, "</div>")[k]) == Ok(r.value.fields[k])
    ensures r.Ok? <==> MapAll(SplitTerminator(data, "</div>"), FieldOf).Ok?
  {
    var fields :- MapAll(SplitTerminator(data, "</div>"), FieldOf);
    Ok(Fields(fields))
  }

  /** A chunk without "</span>" makes the whole field list abort. */
  lemma FieldWithoutSpan(data: string, k: nat)
    requires k < |SplitTerminator(data, "</div>")| && !Contains(SplitTerminator(data, "</div>")[k], "</span>")
    ensures ParseFields(data).Fail?
  {
    assert FieldOf(SplitTerminator(data, "</div>")[k]).Fail?;
  }

  /** The methods of an implementation block: every repeat of the trailing
      "</div></details>" trimmed, then one method per opener. */
  function MethodsOf(text: string, opener: string): (r: Result<seq<Methods.Method>>)
    requires |opener| > 0
    ensures r.Ok? ==> |r.value| == |Split(TrimEndMatches(text, "</div></details>"), opener)| - 1
    ensures r.Ok? ==> forall k :: 0 <= k < |r.value|
                        ==> Methods.Parse(Split(TrimEndMatches(text, "</div></details>"), opener)[k + 1])
                            == Ok(r.value[k])
    ensures r.Ok? <==> forall k :: 1 <= k < |Split(TrimEndMatches(text, "</div></details>"), opener)|
                         ==> Methods.Parse(Split(TrimEndMatches(text, "</div></details>"), opener)[k]).Ok?
  {
    var pieces := Split(TrimEndMatches(text, "</div></details>"), opener);
    MapAllFrom(pieces, Methods.Parse);
    MapAll(pieces[1..], Methods.Parse)
  }

  /** An implementation block split at its first "</summary>": the bold
      heading before it, the methods after it. */
  function Block(imp: string, opener: string): (r: Result<(Fragment, seq<Methods.Method>)>)
    requires |opener| > 0
    ensures !Contains(imp, "</summary>") ==> r == Fail(MissingSeparator)
    ensures r.Ok? ==> Heading("h3", SplitOnce(imp, "</summary>").value.0) == Ok(r.value.0)
    ensures r.Ok? ==> MethodsOf(SplitOnce(imp, "</summary>").value.1, opener) == Ok(r.value.1)
    ensures r.Ok? <==> && Contains(imp, "</summary>")
                       && Heading("h3", SplitOnce(imp, "</summary>").value.0).Ok?
                       && MethodsOf(SplitOnce(imp, "</summary>").value.1, opener).Ok?
  {
    match SplitOnce(imp, "</summary>")
    case None => Fail(MissingSeparator)
    case Some((heading, rest)) =>
      var name :- Heading("h3", heading);
      var methods :- MethodsOf(rest, opener);
      Ok((name, methods))
  }

  /** One `open` implementation block. */
  function ImplementationOf(imp: string): (r: Result<Implementation>)
    ensures !Contains(imp, "</summary>") ==> r == Fail(MissingSeparator)
    ensures r.Ok? ==> Block(imp, MethodOpen) == Ok((r.value.inherentImpl, r.value.methods))
    ensures r.Ok? <==> Block(imp, MethodOpen).Ok?
  {
    var block :- Block(imp, MethodOpen);
    Ok(Implementation(block.0, block.1))
  }

  /** `parse_implementations`: one record per implementors toggle with
      `open`, in order. */
  function ParseImplementations(data: string): (r: Result<SectionContent>)
    ensures r.Ok? ==> r.value.Implementations?
                      && |r.value.implementations| == |Split(data, ImplementorsOpen)| - 1
    ensures r.Ok? ==> forall k :: 0 <= k < |r.value.implementations|
                        ==> ImplementationOf(Split(data, ImplementorsOpen)[k + 1]) == Ok(r.value.implementations[k])
    ensures r.Ok? <==> MapAll(Split(data, ImplementorsOpen)[1..], ImplementationOf).Ok?
  {
    var records :- MapAll(Split(data, ImplementorsOpen)[1..], ImplementationOf);
    Ok(Implementations(records))
  }

  /** One blanket implementation block. */
  function BlanketOf(imp: string): (r: Result<TraitImplementation>)
    ensures !Contains(imp, "</summary>") ==> r == Fail(MissingSeparator)
    ensures r.Ok? ==> Block(imp, BlanketMethodOpen) == Ok((r.value.traitImpl, r.value.methods))
    ensures r.Ok? <==> Block(imp, BlanketMethodOpen).Ok?
  {
    var block :- Block(imp, BlanketMethodOpen);
    Ok(TraitImplementation(block.0, block.1))
  }

  /** `parse_blanket_implementations`: one record per implementors toggle
      without `open`, in order. */
  function ParseBlanketImplementations(data: string): (r: Result<SectionContent>)
    ensures r.Ok? ==> r.value.TraitImplementations?
                      && |r.value.traitImplementations| == |Split(data, BlanketOpen)| - 1
    ensures r.Ok? ==> forall k :: 0 <= k < |r.value.traitImplementations|
                        ==> BlanketOf(Split(data, BlanketOpen)[k + 1]) == Ok(r.value.traitImplementations[k])
    ensures r.Ok? <==> MapAll(Split(data, BlanketOpen)[1..], BlanketOf).Ok?
  {
    var records :- MapAll(Split(data, BlanketOpen)[1..], BlanketOf);
    Ok(TraitImplementations(records))
  }

  /** One auto trait implementation: its bold heading and no methods. */
  function AutoTraitOf(imp: string): (r: Result<TraitImplementation>)
    ensures r.Ok? ==> r.value.methods == []
    ensures r.Ok? <==> ZipExtracted("h3", imp).Ok?
    ensures r.Ok? ==> r.value.traitImpl == Bold(ZipExtracted("h3", imp).value)
  {
    var name :- Heading("h3", imp);
    Ok(TraitImplementation(name, []))
  }

  /** `parse_auto_trait_implementations`: one record per "</section>" piece
      other than a bare "</div>", none with methods. */
  function ParseAutoTraitImplementations(data: string): (r: Result<SectionContent>)
    ensures r.Ok? ==> r.value.TraitImplementations?
                      && |r.value.traitImplementations| == |Without(Split(data, "</section>"), "</div>")|
                      && forall k :: 0 <= k < |r.value.traitImplementations|
                           ==> r.value.traitImplementations[k].methods == []
    ensures r.Ok? ==> forall k :: 0 <= k < |r.value.traitImplementations|
                        ==> AutoTraitOf(Without(Split(data, "</section>"), "</div>")[k])
                            == Ok(r.value.traitImplementations[k])
    ensures r.Ok? <==> MapAll(Without(Split(data, "</section>"), "</div>"), AutoTraitOf).Ok?
  {
    var records :- MapAll(Without(Split(data, "</section>"), "</div>"), AutoTraitOf);
    Ok(TraitImplementations(records))
  }

  /** The methods of a trait implementation: the text after the first
      "</summary>", its leading impl-items openers trimmed, cut after every
      "<details", bare "<details" pieces dropped; none without "</summary>". */
  function TraitMethods(imp: string): (r: Result<seq<Methods.Method>>)
    ensures !Contains(imp, "</summary>") ==> r == Ok([])
    ensures Contains(imp, "</summary>")
            ==> r == MapAll(Without(SplitInclusive(TrimStartMatches(SplitOnce(imp, "</summary>").value.1,
                                                                    "<div class=\"impl-items\">"),
                                                   "<details"), "<details"), Methods.Parse)
  {
    match SplitOnce(imp, "</summary>")
    case None => Ok([])
    case Some((_, methods)) =>
      var pieces := SplitInclusive(TrimStartMatches(methods, "<div class=\"impl-items\">"), "<details");
      MapAll(Without(pieces, "<details"), Methods.Parse)
  }

  function TraitImplementationOf(imp: string): (r: Result<TraitImplementation>)
    ensures r.Ok? ==> r.value.traitImpl.Bold?
    ensures r.Ok? && !Contains(imp, "</summary>") ==> r.value.methods == []
    ensures r.Ok? ==> Heading("h3", imp) == Ok(r.value.traitImpl) && TraitMethods(imp) == Ok(r.value.methods)
    ensures r.Ok? <==> Heading("h3", imp).Ok? && TraitMethods(imp).Ok?
  {
    var name :- Heading("h3", imp);
    var methods :- TraitMethods(imp);
    Ok(TraitImplementation(name, methods))
  }

  /** `parse_trait_implementations`: one record per "</details>" piece after
      the first, bare "</div>" pieces dropped. */
  function ParseTraitImplementations(data: string): (r: Result<SectionContent>)
    ensures r.Ok? ==> r.value.TraitImplementations?
                      && |r.value.traitImplementations| == |Without(Split(data, "</details>")[1..], "</div>")|
    ensures r.Ok? ==> forall k :: 0 <= k < |r.value.traitImplementations|
                        ==> TraitImplementationOf(Without(Split(data, "</details>")[1..], "</div>")[k])
                            == Ok(r.value.traitImplementations[k])
    ensures r.Ok? <==> MapAll(Without(Split(data, "</details>")[1..], "</div>"), TraitImplementationOf).Ok?
  {
    var records :- MapAll(Without(Split(data, "</details>")[1..], "</div>"), TraitImplementationOf);
    Ok(TraitImplementations(records))
  }

  /** `parse_object_safety`: the section built as one element and zipped. */
  function ParseObjectSafety(data: string): (r: Result<SectionContent>)
    ensures r.Ok? ==> r.value.ObjectSafety?
    ensures !('>' in data) ==> r == Fail(MissingTagEnd)
    ensures r.Ok? ==> && ParseElement(data).Ok?
                      && ZipContentSpec(ParseElement(data).value.0) == Ok(r.value.fragments)
    ensures r.Ok? <==> ParseElement(data).Ok? && ZipContentSpec(ParseElement(data).value.0).Ok?
  {
    var parsed :- ParseElement(data);
    var fragments :- ZipContentSpec(parsed.0);
    Ok(ObjectSafety(fragments))
  }

  /** One required associated type: its bold `h4`, and the first text of its
      first `p`, neither zipped nor un-escaped. */
  function AssociatedTypeOf(chunk: string): (r: Result<RequiredAssociatedType>)
    ensures r.Ok? ==> Heading("h4", chunk) == Ok(r.value.name)
    ensures r.Ok? ==> && Extract("p", chunk).Ok? && |Extract("p", chunk).value.content| > 0
                      && r.value.description == Extract("p", chunk).value.content[0]
    ensures r.Ok? <==> && Heading("h4", chunk).Ok? && Extract("p", chunk).Ok?
                       && |Extract("p", chunk).value.content| > 0
  {
    var name :- Heading("h4", chunk);
    var paragraph :- Extract("p", chunk);
    if |paragraph.content| == 0 then Fail(IndexOutOfRange)
    else Ok(RequiredAssociatedType(name, paragraph.content[0]))
  }

  /** `parse_required_associated_types`: trailing "</div>"s trimmed, then one
      record per "</details>"-terminated chunk. */
  function ParseRequiredAssociatedTypes(data: string): (r: Result<SectionContent>)
    ensures r.Ok? ==> r.value.RequiredAssociatedTypes?
                      && |r.value.types| == |SplitTerminator(TrimEndMatches(data, "</div>"), "</details>")|
    ensures r.Ok? ==> forall k :: 0 <= k < |r.value.types|
                        ==> AssociatedTypeOf(SplitTerminator(TrimEndMatches(data, "</div>"), "</details>")[k])
                            == Ok(r.value.types[k])
    ensures r.Ok? <==> MapAll(SplitTerminator(TrimEndMatches(data, "</div>"), "</details>"), AssociatedTypeOf).Ok?
  {
    var types :- MapAll(SplitTerminator(TrimEndMatches(data, "</div>"), "</details>"), AssociatedTypeOf);
    Ok(RequiredAssociatedTypes(types))
  }

  /** One variant: its bold `h3` and its zipped `p`. */
  function VariantOf(variant: string): (r: Result<Variant>)
    ensures r.Ok? <==> Heading("h3", variant).Ok? && ZipExtracted("p", variant).Ok?
    ensures r.Ok? ==> && r.value.name == Heading("h3", variant).value
                      && r.value.description == ZipExtracted("p", variant).value
  {
    var name :- Heading("h3", variant);
    var description :- ZipExtracted("p", variant);
    Ok(Variant(name, description))
  }

  /** `parse_variants`: one record per "</a>" piece after the first. */
  function ParseVariants(data: string): (r: Result<SectionContent>)
    ensures r.Ok? ==> r.value.Variants? && |r.value.variants| == |Split(data, "</a>")| - 1
    ensures r.Ok? ==> forall k :: 0 <= k < |r.value.variants|
                        ==> VariantOf(Split(data, "</a>")[k + 1]) == Ok(r.value.variants[k])
    ensures r.Ok? <==> MapAll(Split(data, "</a>")[1..], VariantOf).Ok?
  {
    var variants :- MapAll(Split(data, "</a>")[1..], VariantOf);
    Ok(Variants(variants))
  }

  /** The headings the dispatcher knows. */
  const Headings: set<string> := {
    "Auto Trait Implementations", "Blanket Implementations", "Fields", "Tuple Fields",
    "Implementations", "Object Safety", "Required Associated Types",
    "Trait Implementations", "Variants"
  }

  /** The parser a known heading names, run on the section's body: named
      and tuple fields share one parser, and the three kinds of trait
      implementation section all give trait implementations. */
  function ParseBody(name: string, body: string): (r: Result<SectionContent>)
    requires name in Headings
    ensures r.Ok? ==> !r.value.Dummy?
    ensures name == "Auto Trait Implementations" ==> r == ParseAutoTraitImplementations(body)
    ensures name == "Blanket Implementations" ==> r == ParseBlanketImplementations(body)
    ensures name == "Fields" || name == "Tuple Fields" ==> r == ParseFields(body)
    ensures name == "Implementations" ==> r == ParseImplementations(body)
    ensures name == "Object Safety" ==> r == ParseObjectSafety(body)
    ensures name == "Required Associated Types" ==> r == ParseRequiredAssociatedTypes(body)
    ensures name == "Trait Implementations" ==> r == ParseTraitImplementations(body)
    ensures name == "Variants" ==> r == ParseVariants(body)
    ensures r.Ok? && (name == "Auto Trait Implementations" || name == "Blanket Implementations"
                      || name == "Trait Implementations")
            ==> r.value.TraitImplementations?
  {
    if name == "Auto Trait Implementations" then ParseAutoTraitImplementations(body)
    else if name == "Blanket Implementations" then ParseBlanketImplementations(body)
    else if name == "Fields" || name == "Tuple Fields" then ParseFields(body)
    else if name == "Implementations" then ParseImplementations(body)
    else if name == "Object Safety" then ParseObjectSafety(body)
    else if name == "Required Associated Types" then ParseRequiredAssociatedTypes(body)
    else if name == "Trait Implementations" then ParseTraitImplementations(body)
    else ParseVariants(body)
  }

  /** The heading dispatch: an unknown heading is unreachable, a known one
      needs the text after "</h2>". */
  function Dispatch(name: string, pieces: seq<string>): (r: Result<SectionContent>)
    ensures name !in Headings ==> r == Fail(UnknownHeading)
    ensures name in Headings && |pieces| < 2 ==> r == Fail(IndexOutOfRange)
    ensures name in Headings && |pieces| >= 2 ==> r == ParseBody(name, pieces[1])
  {
    if name !in Headings then Fail(UnknownHeading)
    else if |pieces| < 2 then Fail(IndexOutOfRange)
    else ParseBody(name, pieces[1])
  }

  /** The name of a section: the first text run of the element built from
      the text up to and including the first "</h2>", which must be `Raw`. */
  function HeadingText(chunk: string): (r: Result<string>)
    ensures chunk == [] ==> r == Fail(IndexOutOfRange)
    ensures chunk != [] && ParseElement(SplitInclusive(chunk, "</h2>")[0]).Fail?
            ==> r == Fail(ParseElement(SplitInclusive(chunk, "</h2>")[0]).failure)
    ensures r.Ok? ==> && chunk != [] && ParseElement(SplitInclusive(chunk, "</h2>")[0]).Ok?
                      && |ParseElement(SplitInclusive(chunk, "</h2>")[0]).value.0.content| > 0
                      && ParseElement(SplitInclusive(chunk, "</h2>")[0]).value.0.content[0] == Raw(r.value)
    ensures r.Ok? <==> && chunk != [] && ParseElement(SplitInclusive(chunk, "</h2>")[0]).Ok?
                       && |ParseElement(SplitInclusive(chunk, "</h2>")[0]).value.0.content| > 0
                       && ParseElement(SplitInclusive(chunk, "</h2>")[0]).value.0.content[0].Raw?
  {
    var pieces := SplitInclusive(chunk, "</h2>");
    if |pieces| == 0 then Fail(IndexOutOfRange)
    else
      var parsed :- ParseElement(pieces[0]);
      if |parsed.0.content| == 0 then Fail(IndexOutOfRange)
      else RawContent(parsed.0.content[0])
  }

  /** One section: its heading names it, as a bold raw text, and picks its
      parser, which runs on the text after the first "</h2>". */
  function SectionOf(chunk: string): (r: Result<Section>)
    ensures HeadingText(chunk).Fail? ==> r == Fail(HeadingText(chunk).failure)
    ensures HeadingText(chunk).Ok? && HeadingText(chunk).value !in Headings ==> r == Fail(UnknownHeading)
    ensures r.Ok? ==> && HeadingText(chunk).Ok? && HeadingText(chunk).value in Headings
                      && r.value.name == Bold([Raw(HeadingText(chunk).value)])
                      && |SplitInclusive(chunk, "</h2>")| >= 2
                      && ParseBody(HeadingText(chunk).value, SplitInclusive(chunk, "</h2>")[1]) == Ok(r.value.content)
                      && !r.value.content.Dummy?
    ensures r.Ok? <==> && HeadingText(chunk).Ok? && HeadingText(chunk).value in Headings
                       && |SplitInclusive(chunk, "</h2>")| >= 2
                       && ParseBody(HeadingText(chunk).value, SplitInclusive(chunk, "</h2>")[1]).Ok?
  {
    var name :- HeadingText(chunk);
    var content :- Dispatch(name, SplitInclusive(chunk, "</h2>"));
    Ok(Section(Bold([Raw(name)]), content))
  }

  /** The section texts: one per "<h2", each with its "<h2" put back; the
      text before the first "<h2" is dropped. */
  function Chunks(raw: string): (r: seq<string>)
    ensures |r| == |Split(raw, "<h2")| - 1
    ensures forall k :: 0 <= k < |r| ==> StartsWith(r[k], "<h2")
    ensures raw == Split(raw, "<h2")[0] + Flatten(r)
  {
    var pieces := Split(raw, "<h2");
    var r := seq(|pieces| - 1, k requires 0 <= k < |pieces| - 1 => "<h2" + pieces[k + 1]);
    JoinPrefixed(pieces, "<h2", r);
    r
  }

  /** Joining with a separator is the first piece followed by every later
      piece with the separator put in front of it. */
  lemma {:induction false} JoinPrefixed(pieces: seq<string>, sep: string, r: seq<string>)
    requires |pieces| >= 1 && |r| == |pieces| - 1
    requires forall k :: 0 <= k < |r| ==> r[k] == sep + pieces[k + 1]
    ensures Join(pieces, sep) == pieces[0] + Flatten(r)
    decreases |pieces|
  {
    if |pieces| == 1 {
      assert pieces[0] + [] == pieces[0];
    } else {
      JoinPrefixed(pieces[1..], sep, r[1..]);
      assert Flatten(r) == r[0] + Flatten(r[1..]);
    }
  }

  /** `MainContent::parse`: one section per "<h2", in order. */
  function Parse(raw: string): (r: Result<MainContent>)
    ensures r.Ok? ==> |r.value.sections| == |Split(raw, "<h2")| - 1
    ensures r.Ok? ==> forall k :: 0 <= k < |r.value.sections| ==> SectionOf(Chunks(raw)[k]) == Ok(r.value.sections[k])
    ensures r.Ok? ==> forall k :: 0 <= k < |r.value.sections| ==> !r.value.sections[k].content.Dummy?
    ensures r.Ok? <==> MapAll(Chunks(raw), SectionOf).Ok?
  {
    var sections :- MapAll(Chunks(raw), SectionOf);
    Ok(MainContent(sections))
  }
}

=== FILE: method.dfy ===
/** One method of an implementation block: its signature heading and its
    description. */
module Methods {
  import opened Results
  import opened Strings
  import opened Fragments
  import opened Elements
  import opened ContentZipper
  import Descriptions

  datatype Method = Method(signature: seq<Fragment>, description: Descriptions.Description)

  /** `extract("h4", data).zip_content()`: the zipped first `h4` heading. */
  function Signature(data: string): Result<seq<Fragment>> {
    ZipExtracted("h4", data)
  }

  /** `Method::parse`: the signature first, then the description of the
      whole input, not of what follows the heading. */
  function Parse(data: string): (r: Result<Method>)
    ensures Signature(data).Fail? ==> r == Fail(Signature(data).failure)
    ensures Signature(data).Ok? && Descriptions.Parse(data).Fail? ==> r == Fail(Descriptions.Parse(data).failure)
    ensures r.Ok? ==> && r.value.signature == Signature(data).value
                      && r.value.description == Descriptions.Parse(data).value
    ensures r.Ok? <==> Signature(data).Ok? && Descriptions.Parse(data).Ok?
  {
    var signature :- Signature(data);
    var description :- Descriptions.Parse(data);
    Ok(Method.Method(signature, description))
  }

  /** The signature ends at the first `</h4>` after the first `<h4>`:
      whatever follows the heading, later subsections included, never
      reaches it. */
  lemma SignatureIgnoresLaterText(data: string, extra: string)
    requires Contains(data, "<h4>")
    requires Contains(ExtractTail("h4", data), Untag("h4"))
    ensures Signature(data + extra) == Signature(data)
  {
    assert "<" + "h4" + ">" == "<h4>";
    ExtractIgnoresLaterText("h4", data, extra);
  }
}

=== FILE: page.dfy ===
/** `process_html`: a page is cut at five anchors, in order; the sidebar is
    parsed as soon as it is found, the section block once every anchor is.
    Nothing parsed is returned: the outcome only says whether the anchors
    were all there. */
module Pages {
  import opened Results
  import opened Strings
  import Sidebars
  import MainContents

  /** `Herr`, the one error the processor reports. */
  datatype Herr = Parsing(message: string)

  /** `Result<(), Herr>`: done, or refused with an error. */
  datatype Outcome = Done | Refused(error: Herr)

  const CannotProcess: string := "Can't process that page, sir"

  const MainMarker: string := "<section id=\"main-content\" class=\"content\">"

  /** The first two anchors: the text before the first "<section>", the
      sidebar text up to the next "</section>", and everything after it. */
  function SidebarPart(html: string): (r: Option<(string, string, string)>)
    ensures r.None? <==> !Contains(html, "<section>")
                         || !Contains(SplitOnce(html, "<section>").value.1, "</section>")
    ensures r.Some? ==> html == r.value.0 + "<section>" + r.value.1 + "</section>" + r.value.2
    ensures r.Some? ==> forall j: nat :: j < |r.value.0| ==> !OccursAt(html, "<section>", j)
    ensures r.Some? ==> forall j: nat :: j < |r.value.1|
                          ==> !OccursAt(r.value.1 + "</section>" + r.value.2, "</section>", j)
  {
    match SplitOnce(html, "<section>")
    case None => None
    case Some((head, body)) =>
      match SplitOnce(body, "</section>")
      case None => None
      case Some((sidebar, main)) =>
        assert html == head + "<section>" + sidebar + "</section>" + main;
        Some((head, sidebar, main))
  }

  /** The last two anchors, in the text after the main content marker:
      "<script", then the first "</details>" before it. The parts are the
      introduction, the section block and the text after "<script". */
  function ScriptPart(rest: string): (r: Option<(string, string, string)>)
    ensures r.Some? ==> rest == r.value.0 + "</details>" + r.value.1 + "<script" + r.value.2
    ensures r.Some? ==> forall j: nat :: j < |r.value.0 + "</details>" + r.value.1| ==> !OccursAt(rest, "<script", j)
    ensures r.Some? ==> forall j: nat :: j < |r.value.0|
                          ==> !OccursAt(r.value.0 + "</details>" + r.value.1, "</details>", j)
    ensures r.None? <==> !Contains(rest, "<script")
                         || !Contains(SplitOnce(rest, "<script").value.0, "</details>")
  {
    match SplitOnce(rest, "<script")
    case None => None
    case Some((content, tail)) =>
      match SplitOnce(content, "</details>")
      case None => None
      case Some((introduction, block)) =>
        assert content == introduction + "</details>" + block;
        Some((introduction, block, tail))
  }

  /** The last three anchors, all searched for after the sidebar: the main
      content marker, then the two anchors of `ScriptPart` after it. The
      parts are the text before the marker and the three parts after it. */
  function SectionPart(main: string, marker: string): (r: Option<(string, (string, string, string))>)
    ensures r.Some? ==> |r.value.0| + |marker| <= |main| && main[..|r.value.0| + |marker|] == r.value.0 + marker
    ensures r.Some? ==> forall j: nat :: j < |r.value.0| ==> !OccursAt(main, marker, j)
    ensures r.Some? ==> ScriptPart(main[|r.value.0| + |marker|..]) == Some(r.value.1)
    ensures r.None? <==> !Contains(main, marker) || ScriptPart(SplitOnce(main, marker).value.1).None?
  {
    match SplitOnce(main, marker)
    case None => None
    case Some((before, rest)) =>
      match ScriptPart(rest)
      case None => None
      case Some(parts) =>
        assert main[|before| + |marker|..] == rest;
        Some((before, parts))
  }

  /** `process_html`. A missing anchor refuses the page with the parsing
      error; a parser that aborts aborts the whole; otherwise the page is
      done. The sidebar is parsed before the later anchors are looked for,
      so it can abort a page whose later anchors are missing. */
  function ProcessHtml(html: string): (r: Result<Outcome>)
    ensures r == Ok(Refused(Parsing(CannotProcess)))
            <==> || SidebarPart(html).None?
                 || (Sidebars.Parse(SidebarPart(html).value.1).Ok? && SectionPart(SidebarPart(html).value.2, MainMarker).None?)
    ensures r == Ok(Done)
            <==> && SidebarPart(html).Some? && Sidebars.Parse(SidebarPart(html).value.1).Ok?
                 && SectionPart(SidebarPart(html).value.2, MainMarker).Some?
                 && MainContents.Parse(SectionPart(SidebarPart(html).value.2, MainMarker).value.1.1).Ok?
    ensures r.Ok? ==> r.value == Done || r.value == Refused(Parsing(CannotProcess))
  {
    match SidebarPart(html)
    case None => Ok(Refused(Parsing(CannotProcess)))
    case Some((_, sidebar, main)) =>
      var _ :- Sidebars.Parse(sidebar);
      match SectionPart(main, MainMarker)
      case None => Ok(Refused(Parsing(CannotProcess)))
      case Some((_, (_, block, _))) =>
        var _ :- MainContents.Parse(block);
        Ok(Done)
  }

  /** `process_html` as the source runs it: the anchor chain assigns the
      sidebar and the main content to locals as it goes; both are returned
      here so that what was parsed can be stated. */
  method Process(html: string) returns (r: Result<Outcome>, sidebar: Sidebars.Sidebar, mainContent: MainContents.MainContent)
    ensures r == ProcessHtml(html)
    ensures SidebarPart(html).Some? && Sidebars.Parse(SidebarPart(html).value.1).Ok?
            ==> sidebar == Sidebars.Parse(SidebarPart(html).value.1).value
    ensures SidebarPart(html).None? ==> sidebar == Sidebars.Sidebar([])
    ensures r == Ok(Done) ==> mainContent == MainContents.Parse(SectionPart(SidebarPart(html).value.2, MainMarker).value.1.1).value
    ensures r != Ok(Done) ==> mainContent == MainContents.MainContent([])
  {
    sidebar := Sidebars.Sidebar([]);
    mainContent := MainContents.MainContent([]);
    var outer := SidebarPart(html);
    if outer.None? {
      r := Ok(Refused(Parsing(CannotProcess)));
      return;
    }
    var parsedSidebar := Sidebars.Parse(outer.value.1);
    if parsedSidebar.Fail? {
      r := Fail(parsedSidebar.failure);
      return;
    }
    sidebar := parsedSidebar.value;
    var inner := SectionPart(outer.value.2, MainMarker);
    if inner.None? {
      r := Ok(Refused(Parsing(CannotProcess)));
      return;
    }
    var parsedMain := MainContents.Parse(inner.value.1.1);
    if parsedMain.Fail? {
      r := Fail(parsedMain.failure);
      return;
    }
    mainContent := parsedMain.value;
    r := Ok(Done);
  }

  /** The five anchors cut a page that has them all into six texts, each
      anchor found at its first occurrence in what follows the previous one. */
  lemma AnchorsCut(html: string)
    requires SidebarPart(html).Some? && SectionPart(SidebarPart(html).value.2, MainMarker).Some?
    ensures var (head, sidebar, main) := SidebarPart(html).value;
            var (before, (introduction, block, tail)) := SectionPart(main, MainMarker).value;
            html == head + "<section>" + sidebar + "</section>"
                    + (before + MainMarker + (introduction + "</details>" + block + "<script" + tail))
  {
    CutWith(html, MainMarker);
  }

  lemma CutWith(html: string, marker: string)
    requires SidebarPart(html).Some? && SectionPart(SidebarPart(html).value.2, marker).Some?
    ensures var (head, sidebar, main) := SidebarPart(html).value;
            var (before, (introduction, block, tail)) := SectionPart(main, marker).value;
            html == head + "<section>" + sidebar + "</section>"
                    + (before + marker + (introduction + "</details>" + block + "<script" + tail))
  {
    var (head, sidebar, main) := SidebarPart(html).value;
    var (before, parts) := SectionPart(main, marker).value;
    var rest := main[|before| + |marker|..];
    assert main == before + marker + rest;
    assert rest == parts.0 + "</details>" + parts.1 + "<script" + parts.2;
  }
}

=== FILE: results.dfy ===
/** Failure-carrying values for a parser whose every `expect`, `unwrap`,
    out-of-range index and `unreachable!()` aborts the process: here each of
    those aborts is a `Fail` value naming what went wrong. */
module Results {

  datatype Option<T> = None | Some(value: T)

  /** The kinds of abort the parser can run into. */
  datatype Failure =
    | MissingTagEnd      // no '>' after a '<' (`find('>').expect(..)`)
    | EmptyTagSlice      // the text starts with '>' so `html[1..0]` is out of order
    | MissingTextEnd     // a text run with no later '<' (`find('<').expect(..)`)
    | IndexOutOfRange    // `content[0]`, `inner_elements[0]`, `split[1]` on too short a vector
    | NotRaw             // `raw_content` called on a fragment that is not `Raw`
    | MissingSeparator   // `split_once(..).unwrap()` on text without the separator
    | NothingToTake      // `next().expect(..)`, `last().unwrap()`, `reduce(..).unwrap()` on nothing
    | UnknownHeading     // `unreachable!()` in the heading dispatch

  datatype Result<T> = Ok(value: T) | Fail(failure: Failure) {
    predicate IsFailure() { Fail? }

    function PropagateFailure<U>(): Result<U>
      requires Fail?
    {
      Fail(failure)
    }

    function Extract(): T
      requires Ok?
    {
      value
    }
  }

  /** `xs.iter().map(f).collect::<Vec<_>>()` where `f` may abort: the elements
      are mapped left to right and the first abort is the result. */
  function MapAll<A, B>(xs: seq<A>, f: A -> Result<B>): (r: Result<seq<B>>)
    ensures r.Ok? <==> forall i :: 0 <= i < |xs| ==> f(xs[i]).Ok?
    ensures r.Ok? ==> |r.value| == |xs| && forall i :: 0 <= i < |xs| ==> f(xs[i]) == Ok(r.value[i])
    ensures r.Fail? ==> exists i :: 0 <= i < |xs| && f(xs[i]) == Fail(r.failure)
                                 && forall j :: 0 <= j < i ==> f(xs[j]).Ok?
  {
    if |xs| == 0 then Ok([])
    else
      match f(xs[0])
      case Fail(e) => Fail(e)
      case Ok(head) =>
        match MapAll(xs[1..], f)
        case Fail(e) => Fail(e)
        case Ok(tail) => Ok([head] + tail)
  }

  /** Mapping a concatenation: the first part's abort wins, then the
      second part's; otherwise the values are concatenated. */
  lemma {:induction false} MapAllAppend<A, B>(xs: seq<A>, ys: seq<A>, f: A -> Result<B>)
    ensures MapAll(xs + ys, f)
         == if MapAll(xs, f).Fail? then Fail(MapAll(xs, f).failure)
            else if MapAll(ys, f).Fail? then Fail(MapAll(ys, f).failure)
            else Ok(MapAll(xs, f).value + MapAll(ys, f).value)
  {
    if |xs| == 0 {
      assert xs + ys == ys;
      if MapAll(ys, f).Ok? {
        assert [] + MapAll(ys, f).value == MapAll(ys, f).value;
      }
    } else {
      var zs := xs + ys;
      assert zs[0] == xs[0];
      assert zs[1..] == xs[1..] + ys;
      MapAllAppend(xs[1..], ys, f);
      match f(xs[0])
      case Fail(e) =>
      case Ok(head) =>
        match MapAll(xs[1..], f)
        case Fail(e) =>
        case Ok(tail) =>
          if MapAll(ys, f).Ok? {
            var rest := MapAll(ys, f).value;
            assert MapAll(zs, f) == Ok([head] + (tail + rest));
            assert [head] + (tail + rest) == ([head] + tail) + rest;
          }
    }
  }

  /** Mapping one more element at the end of a prefix. */
  lemma MapAllSnoc<A, B>(xs: seq<A>, i: nat, f: A -> Result<B>)
    requires i < |xs|
    ensures MapAll(xs[..i + 1], f)
         == if MapAll(xs[..i], f).Fail? then Fail(MapAll(xs[..i], f).failure)
            else if f(xs[i]).Fail? then Fail(f(xs[i]).failure)
            else Ok(MapAll(xs[..i], f).value + [f(xs[i]).value])
  {
    assert xs[..i + 1] == xs[..i] + [xs[i]];
    MapAllAppend(xs[..i], [xs[i]], f);
    assert [xs[i]][1..] == [];
    if f(xs[i]).Ok? {
      assert [f(xs[i]).value] + [] == [f(xs[i]).value];
    }
  }

  /** Concatenation of a sequence of sequences, in order (`flatten`). */
  /** Mapping every element after the first succeeds exactly when the
      function succeeds on each of them. */
  lemma MapAllFrom<A, B>(xs: seq<A>, f: A -> Result<B>)
    requires |xs| > 0
    ensures MapAll(xs[1..], f).Ok? <==> forall k :: 1 <= k < |xs| ==> f(xs[k]).Ok?
  {
    forall k | 1 <= k < |xs| ensures xs[1..][k - 1] == xs[k] {}
  }

  function Flatten<T>(ss: seq<seq<T>>): (r: seq<T>)
    ensures |ss| == 1 ==> r == ss[0]
  {
    if |ss| == 0 then [] else ss[0] + Flatten(ss[1..])
  }

  lemma {:induction false} FlattenAppend<T>(ss: seq<seq<T>>, s: seq<T>)
    ensures Flatten(ss + [s]) == Flatten(ss) + s
  {
    if |ss| == 0 {
      assert ss + [s] == [s];
    } else {
      assert (ss + [s])[1..] == ss[1..] + [s];
      FlattenAppend(ss[1..], s);
    }
  }

  /** `xs.iter().flat_map(f).collect()` where `f` may abort. */
  function FlatMapAll<A, B>(xs: seq<A>, f: A -> Result<seq<B>>): (r: Result<seq<B>>)
    ensures r.Ok? <==> forall i :: 0 <= i < |xs| ==> f(xs[i]).Ok?
    ensures r.Ok? ==> MapAll(xs, f).Ok? && r.value == Flatten(MapAll(xs, f).value)
  {
    var parts :- MapAll(xs, f);
    Ok(Flatten(parts))
  }

  /** Flat-mapping a single element is applying the function to it. */
  lemma FlatMapAllOne<A, B>(x: A, f: A -> Result<seq<B>>)
    ensures FlatMapAll([x], f) == f(x)
  {
    var xs := [x];
    assert xs[0] == x && xs[1..] == [];
    assert MapAll(xs[1..], f) == Ok([]);
    if f(x).Ok? {
      assert [f(x).value] + [] == [f(x).value];
      assert MapAll(xs, f) == Ok([f(x).value]);
      assert Flatten([f(x).value]) == f(x).value;
    } else {
      assert MapAll(xs, f) == Fail(f(x).failure);
    }
  }

  /** A list result with `prefix` already collected in front of it. */
  function Prepend<T>(prefix: seq<T>, r: Result<seq<T>>): (p: Result<seq<T>>)
    ensures p.Ok? <==> r.Ok?
    ensures p.Fail? ==> p.failure == r.failure
    ensures p.Ok? ==> p.value == prefix + r.value
  {
    match r
    case Ok(rest) => Ok(prefix + rest)
    case Fail(f) => Fail(f)
  }
}

=== FILE: sidebar.dfy ===
/** The sidebar of a page: one section per `</ul>`-terminated list, each a
    heading and the names of the items listed under it. */
module Sidebars {
  import opened Results
  import opened Strings
  import opened Fragments
  import opened Elements

  datatype SidebarSection = SidebarSection(name: string, items: seq<string>)

  datatype Sidebar = Sidebar(sections: seq<SidebarSection>)

  /** The name of a section: the first text of the first child of its
      heading, kept as written (not un-escaped); it must be `Raw`. */
  function NameOf(heading: Element): (r: Result<string>)
    ensures |heading.children| == 0 ==> r == Fail(IndexOutOfRange)
    ensures r.Ok? ==> && |heading.children| > 0 && |heading.children[0].content| > 0
                      && heading.children[0].content[0] == Raw(r.value)
    ensures r.Ok? <==> && |heading.children| > 0 && |heading.children[0].content| > 0
                       && heading.children[0].content[0].Raw?
  {
    if |heading.children| == 0 then Fail(IndexOutOfRange)
    else if |heading.children[0].content| == 0 then Fail(IndexOutOfRange)
    else RawContent(heading.children[0].content[0])
  }

  /** One item of the list: nothing for a child without children, else the
      un-escaped first text of its first child. */
  function ItemOf(child: Element): (r: Result<string>)
    ensures |child.children| == 0 ==> r == Ok([])
    ensures |child.children| > 0 && r.Ok?
            ==> && |child.children[0].content| > 0 && child.children[0].content[0].Raw?
                && r.value == UnEscape(child.children[0].content[0].text)
    ensures |child.children| > 0
            ==> (r.Ok? <==> |child.children[0].content| > 0 && child.children[0].content[0].Raw?)
  {
    if |child.children| == 0 then Ok([])
    else if |child.children[0].content| == 0 then Fail(IndexOutOfRange)
    else RawContent(UnEscapeContent(child.children[0].content[0]))
  }

  /** The items after the heading: one per direct child of the list
      element, in order; none when nothing follows the heading. */
  function ItemsOf(split: seq<string>): (r: Result<seq<string>>)
    ensures |split| <= 1 ==> r == Ok([])
    ensures |split| > 1 && r.Ok?
            ==> && ParseElement(split[1]).Ok?
                && |r.value| == |ParseElement(split[1]).value.0.children|
                && forall k :: 0 <= k < |r.value|
                     ==> ItemOf(ParseElement(split[1]).value.0.children[k]) == Ok(r.value[k])
    ensures |split| > 1
            ==> (r.Ok? <==> && ParseElement(split[1]).Ok?
                            && forall k :: 0 <= k < |ParseElement(split[1]).value.0.children|
                                 ==> ItemOf(ParseElement(split[1]).value.0.children[k]).Ok?)
  {
    if |split| <= 1 then Ok([])
    else
      var list :- ParseElement(split[1]);
      MapAll(list.0.children, ItemOf)
  }

  /** One section: the text up to the first "</h3>" is the heading, the
      text after it the list; the name is taken before the items. */
  function SectionOf(s: string): (r: Result<SidebarSection>)
    ensures r.Ok? ==> |SplitInclusive(s, "</h3>")| > 0
    ensures r.Ok? ==> && ParseElement(SplitInclusive(s, "</h3>")[0]).Ok?
                      && NameOf(ParseElement(SplitInclusive(s, "</h3>")[0]).value.0) == Ok(r.value.name)
    ensures r.Ok? ==> ItemsOf(SplitInclusive(s, "</h3>")) == Ok(r.value.items)
    ensures r.Ok? <==> && s != []
                       && ParseElement(SplitInclusive(s, "</h3>")[0]).Ok?
                       && NameOf(ParseElement(SplitInclusive(s, "</h3>")[0]).value.0).Ok?
                       && ItemsOf(SplitInclusive(s, "</h3>")).Ok?
  {
    var split := SplitInclusive(s, "</h3>");
    if |split| == 0 then Fail(IndexOutOfRange)
    else
      var heading :- ParseElement(split[0]);
      var name :- NameOf(heading.0);
      var items :- ItemsOf(split);
      Ok(SidebarSection(name, items))
  }

  /** `Sidebar::parse`: one section per "</ul>"-terminated piece, in order. */
  function Parse(content: string): (r: Result<Sidebar>)
    ensures content == [] ==> r == Ok(Sidebar([]))
    ensures r.Ok? ==> |r.value.sections| == |SplitInclusive(content, "</ul>")|
    ensures r.Ok? ==> forall k :: 0 <= k < |r.value.sections|
                        ==> SectionOf(SplitInclusive(content, "</ul>")[k]) == Ok(r.value.sections[k])
    ensures r.Ok? <==> MapAll(SplitInclusive(content, "</ul>"), SectionOf).Ok?
  {
    var sections :- MapAll(SplitInclusive(content, "</ul>"), SectionOf);
    Ok(Sidebar(sections))
  }

  /** The heading keeps its entities: a section named by an escaped text
      carries that text as written, while an item is un-escaped. */
  lemma NameNotUnEscaped(a: Element, heading: Element)
    requires a.content == [Raw("&lt;T")] && heading.children == [a]
    ensures NameOf(heading) == Ok("&lt;T")
    ensures ItemOf(heading) == Ok("<T")
  {
    UnEscapeNotIdempotent("T");
    assert "&lt;" + "T" == "&lt;T" && "<" + "T" == "<T";
    assert UnEscapeContent(Raw("&lt;T")) == Raw("<T");
  }
}

=== FILE: strings.dfy ===
/** The string operations of Rust's `str` that the parser is built from
    (`find`, `split_once`, `split`, `split_terminator`, `split_inclusive`,
    `replace`, `trim`, `trim_matches`, `trim_start_matches`,
    `trim_end_matches`), over `seq<char>`. Every pattern the parser uses is
    a non-empty literal. */
module Strings {
  import opened Results

  /** `p` occurs in `s` starting at index `i`. */
  predicate OccursAt(s: string, p: string, i: nat) {
    i + |p| <= |s| && s[i..i + |p|] == p
  }

  predicate StartsWith(s: string, p: string) {
    |p| <= |s| && s[..|p|] == p
  }

  predicate EndsWith(s: string, p: string) {
    |p| <= |s| && s[|s| - |p|..] == p
  }

  predicate Contains(s: string, p: string) {
    exists i: nat | i <= |s| :: OccursAt(s, p, i)
  }

  /** The first occurrence of `p` at or after `from`. */
  function FindFrom(s: string, p: string, from: nat): (r: Option<nat>)
    ensures r.Some? ==> from <= r.value && OccursAt(s, p, r.value)
    ensures r.Some? ==> forall j: nat :: from <= j < r.value ==> !OccursAt(s, p, j)
    ensures r.None? ==> forall j: nat :: from <= j ==> !OccursAt(s, p, j)
    decreases |s| - from
  {
    if from + |p| > |s| then None
    else if OccursAt(s, p, from) then Some(from)
    else FindFrom(s, p, from + 1)
  }

  /** `s.find(p)`: the index of the first occurrence of `p`. */
  function Find(s: string, p: string): (r: Option<nat>)
    ensures r.Some? ==> OccursAt(s, p, r.value) && forall j: nat :: j < r.value ==> !OccursAt(s, p, j)
    ensures r.None? <==> !Contains(s, p)
  {
    FindFrom(s, p, 0)
  }

  /** A one-character pattern occurs exactly where its character does. */
  lemma ContainsChar(s: string, c: char)
    ensures Contains(s, [c]) <==> c in s
  {
    if c in s {
      var j :| 0 <= j < |s| && s[j] == c;
      assert OccursAt(s, [c], j);
    }
    if Contains(s, [c]) {
      var j: nat :| j <= |s| && OccursAt(s, [c], j);
      assert s[j..j + 1][0] == s[j];
    }
  }

  /** A one-character pattern occurs at `i` exactly when `s[i]` is that character. */
  lemma OccursCharAt(s: string, c: char, i: nat)
    requires i < |s|
    ensures OccursAt(s, [c], i) <==> s[i] == c
  {
    assert s[i..i + 1] == [s[i]];
  }

  /** Before the first occurrence of a one-character pattern, the character does not occur. */
  lemma FindCharPrefix(s: string, c: char)
    ensures Find(s, [c]).Some? ==> Find(s, [c]).value < |s| && s[Find(s, [c]).value] == c
                                    && c !in s[..Find(s, [c]).value]
    ensures Find(s, [c]).None? ==> c !in s
  {
    ContainsChar(s, c);
    if Find(s, [c]).Some? {
      var i := Find(s, [c]).value;
      OccursCharAt(s, c, i);
      forall j | 0 <= j < i ensures s[..i][j] != c {
        OccursCharAt(s, c, j);
      }
    }
  }

  /** An occurrence with none before it is the one `find` returns. */
  lemma FindIsFirst(s: string, p: string, i: nat)
    requires OccursAt(s, p, i) && forall j: nat :: j < i ==> !OccursAt(s, p, j)
    ensures Find(s, p) == Some(i)
  {
    assert i <= |s|;
  }

  /** Text appended after an occurrence does not move the first one. */
  lemma FindAppend(s: string, e: string, p: string)
    requires Contains(s, p)
    ensures Find(s + e, p) == Find(s, p)
  {
    var i := Find(s, p).value;
    assert (s + e)[i..i + |p|] == s[i..i + |p|];
    forall j: nat | j < i ensures !OccursAt(s + e, p, j) {
      assert !OccursAt(s, p, j);
      assert (s + e)[j..j + |p|] == s[j..j + |p|];
    }
    FindIsFirst(s + e, p, i);
  }

  /** In `a + [c] + b`, the one-character pattern `[c]` first occurs just
      after `a` when `a` does not contain `c`. */
  lemma FindCharAfter(a: string, c: char, b: string)
    requires c !in a
    ensures Find(a + [c] + b, [c]) == Some(|a|)
    ensures SplitOnce(a + [c] + b, [c]) == Some((a, b))
  {
    var s := a + [c] + b;
    assert s[|a|..|a| + 1] == [c];
    forall j: nat | j < |a| ensures !OccursAt(s, [c], j) {
      assert s[j] == a[j];
    }
    FindIsFirst(s, [c], |a|);
    assert s[..|a|] == a && s[|a| + 1..] == b;
  }

  /** `s.split_once(p)`: the text before and after the first occurrence of `p`. */
  function SplitOnce(s: string, p: string): (r: Option<(string, string)>)
    ensures r.None? <==> !Contains(s, p)
    ensures r.Some? ==> s == r.value.0 + p + r.value.1
    ensures r.Some? ==> forall j: nat :: j < |r.value.0| ==> !OccursAt(s, p, j)
  {
    match Find(s, p)
    case None => None
    case Some(i) =>
      assert s == s[..i] + p + s[i + |p|..] by { assert s[i..i + |p|] == p; }
      Some((s[..i], s[i + |p|..]))
  }

  /** `split_once` splits at the first occurrence `Find` reports. */
  lemma SplitOnceFind(s: string, p: string)
    ensures SplitOnce(s, p).Some?
            ==> Find(s, p) == Some(|SplitOnce(s, p).value.0|)
                && s[|SplitOnce(s, p).value.0|..] == p + SplitOnce(s, p).value.1
  {
  }

  /** `sep`-separated concatenation: the inverse of `Split`. */
  function Join(parts: seq<string>, sep: string): string {
    if |parts| == 0 then []
    else if |parts| == 1 then parts[0]
    else parts[0] + sep + Join(parts[1..], sep)
  }

  lemma OccursInPrefix(s: string, p: string, n: nat, j: nat)
    requires n <= |s| && OccursAt(s[..n], p, j)
    ensures OccursAt(s, p, j)
  {
    assert s[..n][j..j + |p|] == s[j..j + |p|];
  }

  lemma OccursInSuffix(s: string, p: string, n: nat, j: nat)
    requires n <= |s| && OccursAt(s[n..], p, j)
    ensures OccursAt(s, p, n + j)
  {
    assert s[n..][j..j + |p|] == s[n + j..n + j + |p|];
  }

  /** `s.split(p)`: the pieces between the occurrences of `p`, found left to
      right without overlap. There is always at least one piece. */
  function Split(s: string, p: string): (r: seq<string>)
    requires |p| > 0
    ensures |r| >= 1
    ensures Join(r, p) == s
    ensures forall k :: 0 <= k < |r| ==> !Contains(r[k], p)
    decreases |s|
  {
    match Find(s, p)
    case None => [s]
    case Some(i) =>
      var rest := Split(s[i + |p|..], p);
      assert s == s[..i] + p + s[i + |p|..] by { assert s[i..i + |p|] == p; }
      assert !Contains(s[..i], p) by {
        forall j: nat | OccursAt(s[..i], p, j) ensures false {
          OccursInPrefix(s, p, i, j);
        }
      }
      assert ([s[..i]] + rest)[1..] == rest;
      [s[..i]] + rest
  }

  /** Splitting on a one-character pattern: a first piece without that
      character is split off whole. */
  lemma SplitCharAfter(a: string, c: char, b: string)
    requires c !in a
    ensures Split(a + [c] + b, [c]) == [a] + Split(b, [c])
  {
    FindCharAfter(a, c, b);
    var s := a + [c] + b;
    assert s[..|a|] == a && s[|a| + 1..] == b;
  }

  /** Splitting text without the one-character pattern gives the text. */
  lemma SplitCharAbsent(a: string, c: char)
    requires c !in a
    ensures Split(a, [c]) == [a]
  {
  }

  /** `s.split_terminator(p)`: `split`, without its last piece when that
      piece is empty. */
  function SplitTerminator(s: string, p: string): (r: seq<string>)
    requires |p| > 0
    ensures |r| <= |Split(s, p)| && r == Split(s, p)[..|r|]
    ensures |r| < |Split(s, p)| ==> |r| + 1 == |Split(s, p)| && Split(s, p)[|r|] == []
    ensures |Split(s, p)| == |r| + 1 || Split(s, p)[|r| - 1] != []
  {
    var pieces := Split(s, p);
    if pieces[|pieces| - 1] == [] then pieces[..|pieces| - 1] else pieces
  }

  /** `s.split_inclusive(p)`: like `split`, but every piece keeps the
      occurrence of `p` that ends it; there is no empty trailing piece, and
      the empty text has no piece at all. */
  function SplitInclusive(s: string, p: string): (r: seq<string>)
    requires |p| > 0
    ensures Flatten(r) == s
    ensures forall k :: 0 <= k < |r| ==> r[k] != []
    ensures |r| > 0 ==> StartsWith(s, r[0])
    ensures |r| > 0 && Contains(s, p) ==> EndsWith(r[0], p)
    ensures |r| > 0 && Contains(s, p) ==> forall j: nat :: j + |p| < |r[0]| ==> !OccursAt(s, p, j)
    ensures |r| > 0 && !Contains(s, p) ==> r[0] == s
    ensures |s| > 0 <==> |r| > 0
    decreases |s|
  {
    if |s| == 0 then []
    else
      match Find(s, p)
      case None => [s]
      case Some(i) =>
        var head := s[..i + |p|];
        var rest := SplitInclusive(s[i + |p|..], p);
        assert head[|head| - |p|..] == s[i..i + |p|];
        assert ([head] + rest)[1..] == rest;
        FlattenPieces(s, i + |p|, rest);
        [head] + rest
  }

  /** After the first piece, `split_inclusive` goes on with the text that
      follows it: every piece is pinned in turn. */
  lemma SplitInclusiveRest(s: string, p: string)
    requires |p| > 0 && |s| > 0
    ensures |SplitInclusive(s, p)| > 0
    ensures SplitInclusive(s, p)[1..] == SplitInclusive(s[|SplitInclusive(s, p)[0]|..], p)
  {
  }

  /** The text cut at `n`, with the tail given as pieces, flattens back to the text. */
  lemma FlattenPieces(s: string, n: nat, rest: seq<string>)
    requires n <= |s| && Flatten(rest) == s[n..]
    ensures Flatten([s[..n]] + rest) == s
  {
    assert ([s[..n]] + rest)[1..] == rest;
    assert s == s[..n] + s[n..];
  }

  /** Text appended after an occurrence does not change the first piece. */
  lemma SplitInclusiveAppend(s: string, e: string, p: string)
    requires |p| > 0 && Contains(s, p)
    ensures SplitInclusive(s + e, p)[0] == SplitInclusive(s, p)[0]
  {
    FindAppend(s, e, p);
    var i := Find(s, p).value;
    assert (s + e)[..i + |p|] == s[..i + |p|];
  }

  /** `s.replace(from, to)`: every occurrence of `from`, found left to
      right without overlap, replaced by `to`. */
  function Replace(s: string, from: string, to: string): (r: string)
    requires |from| > 0
    decreases |s|
  {
    if |s| == 0 then []
    else if StartsWith(s, from) then to + Replace(s[|from|..], from, to)
    else [s[0]] + Replace(s[1..], from, to)
  }

  /** Replacing a pattern whose first character does not occur changes nothing. */
  lemma {:induction false} ReplaceAbsent(s: string, from: string, to: string)
    requires |from| > 0 && from[0] !in s
    ensures Replace(s, from, to) == s
    decreases |s|
  {
    if |s| > 0 {
      assert !StartsWith(s, from) by { assert |from| <= |s| ==> s[..|from|][0] == s[0]; }
      assert s[1..] == s[1..] && from[0] !in s[1..] by { assert forall c :: c in s[1..] ==> c in s; }
      ReplaceAbsent(s[1..], from, to);
      assert [s[0]] + s[1..] == s;
    }
  }

  /** A text that starts with the pattern has it replaced there. */
  lemma ReplaceHit(from: string, rest: string, to: string)
    requires |from| > 0
    ensures Replace(from + rest, from, to) == to + Replace(rest, from, to)
  {
    assert (from + rest)[..|from|] == from;
    assert (from + rest)[|from|..] == rest;
  }

  /** A text that does not start with the pattern keeps its first character. */
  lemma ReplaceKeep(c: char, rest: string, from: string, to: string)
    requires |from| > 0 && !StartsWith([c] + rest, from)
    ensures Replace([c] + rest, from, to) == [c] + Replace(rest, from, to)
  {
    assert ([c] + rest)[1..] == rest;
  }

  /** Replacing by a text no longer than the pattern never lengthens. */
  lemma {:induction false} ReplaceShrinks(s: string, from: string, to: string)
    requires |from| > 0 && |to| <= |from|
    ensures |Replace(s, from, to)| <= |s|
    decreases |s|
  {
    if |s| > 0 {
      if StartsWith(s, from) {
        ReplaceShrinks(s[|from|..], from, to);
      } else {
        ReplaceShrinks(s[1..], from, to);
      }
    }
  }

  /** The characters `trim()` removes. */
  const Whitespace: set<char> := {' ', '\t', '\n', '\r', '\U{000B}', '\U{000C}'}

  /** Leading characters of `cs` removed. */
  function TrimStart(s: string, cs: set<char>): (r: string)
    ensures |r| <= |s| && r == s[|s| - |r|..]
    ensures r == [] || r[0] !in cs
    decreases |s|
  {
    if |s| > 0 && s[0] in cs then TrimStart(s[1..], cs) else s
  }

  /** Trailing characters of `cs` removed. */
  function TrimEnd(s: string, cs: set<char>): (r: string)
    ensures |r| <= |s| && r == s[..|r|]
    ensures r == [] || r[|r| - 1] !in cs
    decreases |s|
  {
    if |s| > 0 && s[|s| - 1] in cs then TrimEnd(s[..|s| - 1], cs) else s
  }

  /** `s.trim_matches(|c| c in cs)`: the longest middle slice that neither
      starts nor ends with a character of `cs`. */
  function TrimChars(s: string, cs: set<char>): (r: string)
    ensures |r| <= |s|
    ensures Contains(s, r)
    ensures r == [] || (r[0] !in cs && r[|r| - 1] !in cs)
  {
    var front := TrimStart(s, cs);
    var r := TrimEnd(front, cs);
    assert OccursAt(s, r, |s| - |front|);
    r
  }

  /** Trimming removes exactly a frame of `cs` characters around a text that
      neither starts nor ends with one. */
  lemma {:induction false} TrimCharsFrame(pre: string, s: string, post: string, cs: set<char>)
    requires forall k :: 0 <= k < |pre| ==> pre[k] in cs
    requires forall k :: 0 <= k < |post| ==> post[k] in cs
    requires s != [] && s[0] !in cs && s[|s| - 1] !in cs
    ensures TrimChars(pre + s + post, cs) == s
  {
    TrimStartFrame(pre, s + post, cs);
    assert pre + s + post == pre + (s + post);
    TrimEndFrame(s, post, cs);
  }

  lemma {:induction false} TrimStartFrame(pre: string, s: string, cs: set<char>)
    requires forall k :: 0 <= k < |pre| ==> pre[k] in cs
    requires s != [] && s[0] !in cs
    ensures TrimStart(pre + s, cs) == s
    decreases |pre|
  {
    if pre == [] {
      assert pre + s == s;
    } else {
      assert (pre + s)[1..] == pre[1..] + s;
      TrimStartFrame(pre[1..], s, cs);
    }
  }

  lemma {:induction false} TrimEndFrame(s: string, post: string, cs: set<char>)
    requires forall k :: 0 <= k < |post| ==> post[k] in cs
    requires s != [] && s[|s| - 1] !in cs
    ensures TrimEnd(s + post, cs) == s
    decreases |post|
  {
    if post == [] {
      assert s + post == s;
    } else {
      assert (s + post)[..|s + post| - 1] == s + post[..|post| - 1];
      TrimEndFrame(s, post[..|post| - 1], cs);
    }
  }

  /** `s.trim()`. */
  function Trim(s: string): (r: string)
    ensures |r| <= |s|
    ensures r == [] || (r[0] !in Whitespace && r[|r| - 1] !in Whitespace)
    ensures Contains(s, r)
    ensures r == TrimChars(s, Whitespace)
  {
    TrimChars(s, Whitespace)
  }

  /** `p` written `k` times. */
  function Repeat(p: string, k: nat): string {
    if k == 0 then [] else p + Repeat(p, k - 1)
  }

  /** Repeats can be peeled off at either end. */
  lemma {:induction false} RepeatSnoc(p: string, k: nat)
    ensures Repeat(p, k + 1) == Repeat(p, k) + p
  {
    if k > 0 {
      RepeatSnoc(p, k - 1);
    }
  }

  /** `s.trim_start_matches(p)`: every leading repeat of `p` removed. */
  function TrimStartMatches(s: string, p: string): (r: string)
    requires |p| > 0
    ensures |r| <= |s| && r == s[|s| - |r|..]
    ensures !StartsWith(r, p)
    decreases |s|
  {
    if StartsWith(s, p) then TrimStartMatches(s[|p|..], p) else s
  }

  /** What `trim_start_matches` removes is `p` a whole number of times. */
  lemma {:induction false} TrimStartMatchesRepeats(s: string, p: string) returns (k: nat)
    requires |p| > 0
    ensures s == Repeat(p, k) + TrimStartMatches(s, p)
    decreases |s|
  {
    if StartsWith(s, p) {
      var rest := s[|p|..];
      assert s == p + rest;
      var j := TrimStartMatchesRepeats(rest, p);
      k := j + 1;
      TrimStartCons(p, rest);
      RepeatCons(p, j, TrimStartMatches(rest, p));
    } else {
      k := 0;
      assert s == Repeat(p, 0) + s;
    }
  }

  /** `s.trim_end_matches(p)`: every trailing repeat of `p` removed. */
  function TrimEndMatches(s: string, p: string): (r: string)
    requires |p| > 0
    ensures |r| <= |s| && r == s[..|r|]
    ensures !EndsWith(r, p)
    decreases |s|
  {
    if EndsWith(s, p) then TrimEndMatches(s[..|s| - |p|], p) else s
  }

  /** What `trim_end_matches` removes is `p` a whole number of times. */
  lemma {:induction false} TrimEndMatchesRepeats(s: string, p: string) returns (k: nat)
    requires |p| > 0
    ensures s == TrimEndMatches(s, p) + Repeat(p, k)
    decreases |s|
  {
    if EndsWith(s, p) {
      var j := TrimEndMatchesRepeats(s[..|s| - |p|], p);
      k := j + 1;
      RepeatSnoc(p, j);
      assert s == s[..|s| - |p|] + p;
    } else {
      k := 0;
      assert s == s + Repeat(p, 0);
    }
  }

  /** Trimming leading repeats of `p` from `k` copies of `p` followed by a
      text that does not start with `p` gives back exactly that text. */
  lemma {:induction false} TrimStartMatchesFrame(p: string, k: nat, s: string)
    requires |p| > 0 && !StartsWith(s, p)
    ensures TrimStartMatches(Repeat(p, k) + s, p) == s
  {
    if k == 0 {
      assert Repeat(p, k) + s == s;
    } else {
      var j: nat := k - 1;
      var t := Repeat(p, j) + s;
      TrimStartMatchesFrame(p, j, s);
      RepeatCons(p, j, s);
      assert Repeat(p, k) + s == p + t;
      TrimStartCons(p, t);
      assert TrimStartMatches(p + t, p) == s;
    }
  }

  lemma RepeatCons(p: string, k: nat, s: string)
    ensures Repeat(p, k + 1) + s == p + (Repeat(p, k) + s)
  {
    assert Repeat(p, k + 1) == p + Repeat(p, k);
  }

  lemma TrimStartCons(p: string, t: string)
    requires |p| > 0
    ensures TrimStartMatches(p + t, p) == TrimStartMatches(t, p)
  {
    assert (p + t)[..|p|] == p && (p + t)[|p|..] == t;
  }

  /** Trimming trailing repeats of `p` from a text that does not end with
      `p` followed by `k` copies of `p` gives back exactly that text. */
  lemma {:induction false} TrimEndMatchesFrame(p: string, k: nat, s: string)
    requires |p| > 0 && !EndsWith(s, p)
    ensures TrimEndMatches(s + Repeat(p, k), p) == s
  {
    if k > 0 {
      var t := s + Repeat(p, k);
      RepeatSnoc(p, k - 1);
      assert t == (s + Repeat(p, k - 1)) + p;
      assert t[|t| - |p|..] == p && t[..|t| - |p|] == s + Repeat(p, k - 1);
      TrimEndMatchesFrame(p, k - 1, s);
    }
  }

  /** `pieces.filter(|p| *p != drop)`: the pieces other than `drop`, in order. */
  function Without(pieces: seq<string>, drop: string): (r: seq<string>)
    ensures |r| <= |pieces|
    ensures forall k :: 0 <= k < |r| ==> r[k] != drop
    ensures multiset(r) == multiset(pieces)[drop := 0]
    ensures drop !in pieces ==> r == pieces
  {
    if |pieces| == 0 then []
    else
      assert pieces == [pieces[0]] + pieces[1..];
      var rest := Without(pieces[1..], drop);
      if pieces[0] == drop then rest else [pieces[0]] + rest
  }

  /** Filtering keeps the order: the kept pieces of `a + b` are those of `a`,
      then those of `b`. */
  lemma {:induction false} WithoutAppend(a: seq<string>, b: seq<string>, drop: string)
    ensures Without(a + b, drop) == Without(a, drop) + Without(b, drop)
  {
    if |a| > 0 {
      assert (a + b)[1..] == a[1..] + b;
      WithoutAppend(a[1..], b, drop);
    } else {
      assert a + b == b;
    }
  }
}

=== FILE: tag.dfy ===
/** The tag tokenizer: the text between `<` and `>` split into a name, a
    kind and an attribute map. */
module Tags {
  import opened Strings

  datatype TagKind = Closing | Opening | Void

  datatype Tag = Tag(name: string, kind: TagKind, attributes: map<string, string>)

  /** The fourteen names of elements that never have a closing tag. */
  const VoidNames: set<string> := {"area", "base", "br", "col", "embed", "hr", "img", "input",
                                    "link", "meta", "param", "source", "track", "wbr"}

  /** The characters trimmed off both ends of an attribute name. */
  const KeyTrim: set<char> := {' ', '='}

  const Quote: string := "\""

  function KindOf(name: string): TagKind {
    if name in VoidNames then Void
    else if StartsWith(name, "/") then Closing
    else Opening
  }

  /** An attribute name: its chunk trimmed of ' ' and '='. */
  function KeyOf(chunk: string): string {
    TrimChars(chunk, KeyTrim)
  }

  /** An attribute value: its chunk trimmed of whitespace. */
  function ValueOf(chunk: string): string {
    Trim(chunk)
  }

  /** Attribute names: the even-indexed `"`-chunks. */
  function Keys(chunks: seq<string>): (r: seq<string>)
    ensures |r| == (|chunks| + 1) / 2
  {
    seq((|chunks| + 1) / 2, j requires 0 <= j < (|chunks| + 1) / 2 => KeyOf(chunks[2 * j]))
  }

  /** Attribute values: the odd-indexed `"`-chunks. */
  function Values(chunks: seq<string>): (r: seq<string>)
    ensures |r| == |chunks| / 2
  {
    seq(|chunks| / 2, j requires 0 <= j < |chunks| / 2 => ValueOf(chunks[2 * j + 1]))
  }

  /** `keys.iter().zip(values)`: pairs up to the shorter of the two. */
  function Zip(keys: seq<string>, values: seq<string>): (r: seq<(string, string)>)
    ensures |r| == if |keys| < |values| then |keys| else |values|
    ensures forall j :: 0 <= j < |r| ==> r[j] == (keys[j], values[j])
  {
    var n := if |keys| < |values| then |keys| else |values|;
    seq(n, j requires 0 <= j < n => (keys[j], values[j]))
  }

  /** `BTreeMap::from_iter`: pairs inserted in order, so a repeated key keeps
      its last value. */
  function FromPairs(ps: seq<(string, string)>): map<string, string> {
    if |ps| == 0 then map[] else FromPairs(ps[..|ps| - 1])[ps[|ps| - 1].0 := ps[|ps| - 1].1]
  }

  /** The attribute map of the text after the tag name. */
  function Attributes(content: string): map<string, string> {
    var chunks := SplitTerminator(content, Quote);
    FromPairs(Zip(Keys(chunks), Values(chunks)))
  }

  /** `Tag::parse`. The kind depends on the name only: Void exactly for the
      fourteen void names, whatever the attributes; otherwise Closing exactly
      when the name starts with '/'. */
  function Parse(data: string): (t: Tag)
    ensures t.kind == Void <==> t.name in VoidNames
    ensures t.kind == Closing <==> t.name !in VoidNames && |t.name| > 0 && t.name[0] == '/'
  {
    match SplitOnce(data, " ")
    case Some((name, content)) => Tag(name, KindOf(name), Attributes(content))
    case None => Tag(data, KindOf(data), map[])
  }

  /** With a space, the name is the text before the first space and the
      attributes come from the rest; without one, the whole text is the name
      and there are no attributes. */
  lemma ParseName(data: string)
    ensures var t := Parse(data);
      && (' ' in data ==> |t.name| < |data| && data[..|t.name|] == t.name && data[|t.name|] == ' ')
      && (' ' in data ==> ' ' !in t.name && t.attributes == Attributes(data[|t.name| + 1..]))
      && (' ' !in data ==> t.name == data && t.attributes == map[])
  {
    ContainsChar(data, ' ');
    match SplitOnce(data, " ")
    case Some((name, content)) =>
      forall j | 0 <= j < |name| ensures name[j] != ' ' {
        assert !OccursAt(data, " ", j);
        assert data[j..j + 1] == [data[j]];
      }
      assert data == name + " " + content;
      assert data[|name| + 1..] == content;
    case None =>
  }

  /** `Tag::parse` as the source runs it: split at the first space, collect
      the attribute names and values, zip them into the map. */
  method ParseTag(data: string) returns (t: Tag)
    ensures t == Parse(data)
  {
    var split := SplitOnce(data, " ");
    if split.None? {
      return Tag(data, KindOf(data), map[]);
    }
    var name := split.value.0;
    var chunks := SplitTerminator(split.value.1, Quote);
    var attribs, values := CollectAttributes(chunks);
    t := Tag(name, KindOf(name), FromPairs(Zip(attribs, values)));
  }

  /** The `for_each` over the `"`-chunks of the attribute text: each chunk is
      pushed onto the names (even index, trimmed of ' ' and '=') or onto the
      values (odd index, trimmed of whitespace). */
  method CollectAttributes(chunks: seq<string>) returns (attribs: seq<string>, values: seq<string>)
    ensures attribs == Keys(chunks)
    ensures values == Values(chunks)
  {
    attribs, values := [], [];
    for index := 0 to |chunks|
      invariant attribs == Keys(chunks[..index]) && values == Values(chunks[..index])
    {
      PushChunk(chunks, index);
      if index % 2 == 0 {
        attribs := attribs + [KeyOf(chunks[index])];
      } else {
        values := values + [ValueOf(chunks[index])];
      }
    }
    assert chunks[..|chunks|] == chunks;
  }

  /** One more chunk adds a name at an even index and a value at an odd one. */
  lemma PushChunk(chunks: seq<string>, index: nat)
    requires index < |chunks|
    ensures index % 2 == 0 ==> && Keys(chunks[..index + 1]) == Keys(chunks[..index]) + [KeyOf(chunks[index])]
                               && Values(chunks[..index + 1]) == Values(chunks[..index])
    ensures index % 2 == 1 ==> && Keys(chunks[..index + 1]) == Keys(chunks[..index])
                               && Values(chunks[..index + 1]) == Values(chunks[..index]) + [ValueOf(chunks[index])]
  {
    if index % 2 == 0 {
      PushKey(chunks, index);
      SameValues(chunks, index);
    } else {
      SameKeys(chunks, index);
      PushValue(chunks, index);
    }
  }

  lemma PushKey(chunks: seq<string>, index: nat)
    requires index < |chunks| && index % 2 == 0
    ensures Keys(chunks[..index + 1]) == Keys(chunks[..index]) + [KeyOf(chunks[index])]
  {
    var h := index / 2;
    assert index == 2 * h;
    assert (index + 2) / 2 == h + 1 && (index + 1) / 2 == h;
    var a := Keys(chunks[..index + 1]);
    var c := Keys(chunks[..index]) + [KeyOf(chunks[index])];
    assert |a| == |c| == h + 1;
    forall j | 0 <= j <= h ensures a[j] == c[j] {
      if j < h {
        assert chunks[..index + 1][2 * j] == chunks[..index][2 * j];
      }
    }
    assert a == c;
  }

  lemma SameValues(chunks: seq<string>, index: nat)
    requires index < |chunks| && index % 2 == 0
    ensures Values(chunks[..index + 1]) == Values(chunks[..index])
  {
    var h := index / 2;
    assert index == 2 * h;
    assert (index + 1) / 2 == h && index / 2 == h;
    var a := Values(chunks[..index + 1]);
    var b := Values(chunks[..index]);
    assert |a| == |b| == h;
    forall j | 0 <= j < h ensures a[j] == b[j] {
      assert chunks[..index + 1][2 * j + 1] == chunks[..index][2 * j + 1];
    }
    assert a == b;
  }

  lemma SameKeys(chunks: seq<string>, index: nat)
    requires index < |chunks| && index % 2 == 1
    ensures Keys(chunks[..index + 1]) == Keys(chunks[..index])
  {
    var h := index / 2;
    assert index == 2 * h + 1;
    assert (index + 2) / 2 == h + 1 && (index + 1) / 2 == h + 1;
    var a := Keys(chunks[..index + 1]);
    var b := Keys(chunks[..index]);
    assert |a| == |b| == h + 1;
    forall j | 0 <= j <= h ensures a[j] == b[j] {
      assert chunks[..index + 1][2 * j] == chunks[..index][2 * j];
    }
    assert a == b;
  }

  lemma PushValue(chunks: seq<string>, index: nat)
    requires index < |chunks| && index % 2 == 1
    ensures Values(chunks[..index + 1]) == Values(chunks[..index]) + [ValueOf(chunks[index])]
  {
    var h := index / 2;
    assert index == 2 * h + 1;
    assert (index + 1) / 2 == h + 1 && index / 2 == h;
    var a := Values(chunks[..index + 1]);
    var c := Values(chunks[..index]) + [ValueOf(chunks[index])];
    assert |a| == |c| == h + 1;
    forall j | 0 <= j <= h ensures a[j] == c[j] {
      if j < h {
        assert chunks[..index + 1][2 * j + 1] == chunks[..index][2 * j + 1];
      }
    }
    assert a == c;
  }

  /** A key is present exactly when some pair has it, and its value is the
      one of the last pair that has it. */
  lemma {:induction false} FromPairsLookup(ps: seq<(string, string)>, k: string)
    ensures k in FromPairs(ps) <==> exists j :: 0 <= j < |ps| && ps[j].0 == k
    ensures forall j :: 0 <= j < |ps| && ps[j].0 == k && (forall i :: j < i < |ps| ==> ps[i].0 != k)
                        ==> k in FromPairs(ps) && FromPairs(ps)[k] == ps[j].1
  {
    if |ps| > 0 {
      var init := ps[..|ps| - 1];
      FromPairsLookup(init, k);
      assert forall j :: 0 <= j < |init| ==> init[j] == ps[j];
    }
  }

  /** Attribute text as the generator writes it: `key="value" ` for each
      pair, then a tail without quotes (whatever precedes the closing '>'). */
  function Render(ps: seq<(string, string)>, tail: string): string {
    if |ps| == 0 then tail
    else ps[0].0 + "=" + Quote + ps[0].1 + Quote + " " + Render(ps[1..], tail)
  }

  predicate GoodKey(k: string) {
    k != [] && '"' !in k && k[0] !in KeyTrim && k[|k| - 1] !in KeyTrim
  }

  predicate GoodValue(v: string) {
    '"' !in v && (v == [] || (v[0] !in Whitespace && v[|v| - 1] !in Whitespace))
  }

  /** The `"`-chunks of `pre + Render(ps, tail)`. */
  function RenderedChunks(pre: string, ps: seq<(string, string)>, tail: string): (r: seq<string>)
    ensures |r| == 2 * |ps| + 1
    ensures r[2 * |ps|] == (if |ps| == 0 then pre else " ") + tail
    ensures forall j :: 0 <= j < |ps| ==> r[2 * j] == (if j == 0 then pre else " ") + ps[j].0 + "="
    ensures forall j :: 0 <= j < |ps| ==> r[2 * j + 1] == ps[j].1
    decreases |ps|
  {
    if |ps| == 0 then [pre + tail]
    else
      var rest := RenderedChunks(" ", ps[1..], tail);
      var r := [pre + ps[0].0 + "="] + [ps[0].1] + rest;
      assert forall j :: 1 <= j < |ps| ==> r[2 * j] == rest[2 * (j - 1)] && ps[1..][j - 1] == ps[j];
      assert forall j :: 1 <= j < |ps| ==> r[2 * j + 1] == rest[2 * (j - 1) + 1];
      r
  }

  lemma {:induction false} SplitRendered(pre: string, ps: seq<(string, string)>, tail: string)
    requires '"' !in pre && '"' !in tail
    requires forall j :: 0 <= j < |ps| ==> GoodKey(ps[j].0) && GoodValue(ps[j].1)
    ensures Split(pre + Render(ps, tail), Quote) == RenderedChunks(pre, ps, tail)
    decreases |ps|
  {
    if |ps| == 0 {
      SplitCharAbsent(pre + tail, '"');
    } else {
      assert forall j :: 0 <= j < |ps| - 1 ==> ps[1..][j] == ps[j + 1];
      SplitRendered(" ", ps[1..], tail);
      SplitRenderedStep(pre, ps, tail);
    }
  }

  /** One rendered pair splits off as its key chunk and its value chunk. */
  lemma SplitRenderedStep(pre: string, ps: seq<(string, string)>, tail: string)
    requires |ps| > 0 && '"' !in pre && GoodKey(ps[0].0) && GoodValue(ps[0].1)
    requires Split(" " + Render(ps[1..], tail), Quote) == RenderedChunks(" ", ps[1..], tail)
    ensures Split(pre + Render(ps, tail), Quote) == RenderedChunks(pre, ps, tail)
  {
    var (k, v) := ps[0];
    var left := pre + k + "=";
    var rest := " " + Render(ps[1..], tail);
    RenderFirst(pre, ps, tail);
    assert '"' !in left;
    SplitCharAfter(left, '"', v + ['"'] + rest);
    SplitCharAfter(v, '"', rest);
    assert Split(pre + Render(ps, tail), Quote) == [left] + ([v] + Split(rest, Quote));
    assert RenderedChunks(pre, ps, tail) == [left] + [v] + RenderedChunks(" ", ps[1..], tail);
  }

  /** The first rendered pair, cut at its two quotes. */
  lemma RenderFirst(pre: string, ps: seq<(string, string)>, tail: string)
    requires |ps| > 0
    ensures pre + Render(ps, tail)
         == (pre + ps[0].0 + "=") + ['"'] + (ps[0].1 + ['"'] + (" " + Render(ps[1..], tail)))
  {
  }

  /** A rendered key chunk, with its leading space and trailing '=', trims
      back to the key. */
  lemma KeyOfRendered(pre: string, k: string)
    requires pre == [] || pre == " "
    requires GoodKey(k)
    ensures KeyOf(pre + k + "=") == k
  {
    TrimCharsFrame(pre, k, "=", KeyTrim);
  }

  /** A value with no surrounding whitespace trims to itself. */
  lemma ValueOfGood(v: string)
    requires GoodValue(v)
    ensures ValueOf(v) == v
  {
    if v != [] {
      TrimCharsFrame([], v, [], Whitespace);
      assert [] + v + [] == v;
    }
  }

  /** Unless the rendered text is empty, its last `"`-chunk is not empty, so
      `split_terminator` keeps every chunk. */
  lemma RenderedTerminated(ps: seq<(string, string)>, tail: string)
    requires '"' !in tail
    requires forall j :: 0 <= j < |ps| ==> GoodKey(ps[j].0) && GoodValue(ps[j].1)
    requires |ps| > 0 || tail != []
    ensures SplitTerminator(Render(ps, tail), Quote) == RenderedChunks([], ps, tail)
  {
    SplitRendered([], ps, tail);
    assert [] + Render(ps, tail) == Render(ps, tail);
  }

  /** Names and values of the rendered chunks pair up into exactly the
      rendered pairs. */
  lemma RenderedPairs(ps: seq<(string, string)>, tail: string)
    requires forall j :: 0 <= j < |ps| ==> GoodKey(ps[j].0) && GoodValue(ps[j].1)
    ensures Zip(Keys(RenderedChunks([], ps, tail)), Values(RenderedChunks([], ps, tail))) == ps
  {
    var all := RenderedChunks([], ps, tail);
    RenderedCounts(ps, tail);
    var z := Zip(Keys(all), Values(all));
    assert |z| == |ps|;
    forall j | 0 <= j < |ps| ensures z[j] == ps[j] {
      RenderedPairAt(ps, tail, j);
    }
  }

  /** The rendered chunks hold one more name than values, one value per pair. */
  lemma RenderedCounts(ps: seq<(string, string)>, tail: string)
    ensures |Keys(RenderedChunks([], ps, tail))| == |ps| + 1
    ensures |Values(RenderedChunks([], ps, tail))| == |ps|
  {
    var n := |RenderedChunks([], ps, tail)|;
    assert n == 2 * |ps| + 1;
    assert (n + 1) / 2 == |ps| + 1;
    assert n / 2 == |ps|;
  }

  /** The name at index `j` comes from chunk `2 * j`. */
  lemma KeysAt(chunks: seq<string>, j: nat)
    requires 2 * j < |chunks|
    ensures j < |Keys(chunks)| && Keys(chunks)[j] == KeyOf(chunks[2 * j])
  {
  }

  /** The value at index `j` comes from chunk `2 * j + 1`. */
  lemma ValuesAt(chunks: seq<string>, j: nat)
    requires 2 * j + 1 < |chunks|
    ensures j < |Values(chunks)| && Values(chunks)[j] == ValueOf(chunks[2 * j + 1])
  {
  }

  /** The name and value at index `j` of the rendered chunks are those of the
      `j`-th pair. */
  lemma RenderedPairAt(ps: seq<(string, string)>, tail: string, j: nat)
    requires forall j :: 0 <= j < |ps| ==> GoodKey(ps[j].0) && GoodValue(ps[j].1)
    requires j < |ps|
    ensures j < |Keys(RenderedChunks([], ps, tail))| && j < |Values(RenderedChunks([], ps, tail))|
    ensures Keys(RenderedChunks([], ps, tail))[j] == ps[j].0
    ensures Values(RenderedChunks([], ps, tail))[j] == ps[j].1
  {
    var all := RenderedChunks([], ps, tail);
    KeysAt(all, j);
    ValuesAt(all, j);
    var pre: string := if j == 0 then [] else " ";
    assert all[2 * j] == pre + ps[j].0 + "=";
    KeyOfRendered(pre, ps[j].0);
    assert all[2 * j + 1] == ps[j].1;
    ValueOfGood(ps[j].1);
  }

  /** The attributes of rendered text are the rendered pairs, the last value
      winning for a repeated key. */
  lemma RenderedAttributes(ps: seq<(string, string)>, tail: string)
    requires '"' !in tail
    requires forall j :: 0 <= j < |ps| ==> GoodKey(ps[j].0) && GoodValue(ps[j].1)
    ensures Attributes(Render(ps, tail)) == FromPairs(ps)
  {
    if |ps| == 0 && tail == [] {
      assert Split([], Quote) == [[]];
    } else {
      RenderedTerminated(ps, tail);
      RenderedPairs(ps, tail);
    }
  }

  /** Round trip: parsing a rendered tag gives back its name and exactly the
      rendered pairs as attributes; a trailing word without a quoted value
      is dropped. */
  lemma RenderRoundTrip(name: string, ps: seq<(string, string)>, tail: string)
    requires ' ' !in name && '"' !in tail
    requires forall j :: 0 <= j < |ps| ==> GoodKey(ps[j].0) && GoodValue(ps[j].1)
    ensures Parse(name + " " + Render(ps, tail)) == Tag(name, KindOf(name), FromPairs(ps))
  {
    FindCharAfter(name, ' ', Render(ps, tail));
    RenderedAttributes(ps, tail);
  }

  /** The attribute pairs and trailing text of the tokenizer's own test. */
  const TestPairs: seq<(string, string)> :=
    [("href", "emoclew\\08:1.0.0.721\\\\:ptth"), ("type", "url Home"), ("class", "Url")]
  const TestTail: string := "open>!emocleW"

  /** The tokenizer's own test input, one attribute per piece. */
  const TestInput: string :=
    "a " + "href=\"emoclew\\08:1.0.0.721\\\\:ptth\" " + "type=\"url Home\" " + "class=\"Url\" " + "open>!emocleW"

  lemma TestPairsGood()
    ensures forall j :: 0 <= j < |TestPairs| ==> GoodKey(TestPairs[j].0) && GoodValue(TestPairs[j].1)
  {
    assert GoodKey("href") && GoodKey("type") && GoodKey("class");
    assert GoodValue("emoclew\\08:1.0.0.721\\\\:ptth");
    assert GoodValue("url Home") && GoodValue("Url");
  }

  lemma RenderStep(k: string, v: string, rest: seq<(string, string)>, tail: string)
    ensures Render([(k, v)] + rest, tail) == k + "=\"" + v + "\" " + Render(rest, tail)
  {
    assert ([(k, v)] + rest)[1..] == rest;
  }

  lemma TestRenderClass()
    ensures Render(TestPairs[2..], TestTail) == "class=\"Url\" " + TestTail
  {
    var c := TestPairs[2];
    assert TestPairs[2..] == [c] + [];
    RenderStep(c.0, c.1, [], TestTail);
    assert c.0 + "=\"" + c.1 + "\" " == "class=\"Url\" ";
  }

  lemma TestRenderType()
    ensures Render(TestPairs[1..], TestTail) == "type=\"url Home\" " + "class=\"Url\" " + TestTail
  {
    var t := TestPairs[1];
    assert TestPairs[1..] == [t] + TestPairs[2..];
    RenderStep(t.0, t.1, TestPairs[2..], TestTail);
    TestRenderClass();
    assert t.0 + "=\"" + t.1 + "\" " == "type=\"url Home\" ";
  }

  /** The first rendered attribute of the test input. */
  lemma TestRenderHref()
    ensures TestPairs[0].0 + "=\"" + TestPairs[0].1 + "\" " == "href=\"emoclew\\08:1.0.0.721\\\\:ptth\" "
  {
  }

  /** The test input read as its tag name followed by its rendered attributes. */
  lemma TestInputPieces()
    ensures TestInput
         == "a " + ("href=\"emoclew\\08:1.0.0.721\\\\:ptth\" " + ("type=\"url Home\" " + "class=\"Url\" " + TestTail))
  {
  }

  lemma TestRender()
    ensures TestInput == "a " + Render(TestPairs, TestTail)
  {
    var h := TestPairs[0];
    assert TestPairs == [h] + TestPairs[1..];
    RenderStep(h.0, h.1, TestPairs[1..], TestTail);
    TestRenderType();
    TestRenderHref();
    TestInputPieces();
  }

  lemma TestFromPairs()
    ensures FromPairs(TestPairs)
         == map["href" := "emoclew\\08:1.0.0.721\\\\:ptth", "type" := "url Home", "class" := "Url"]
  {
    var p2 := TestPairs[..2];
    var p1 := p2[..1];
    assert p1[..0] == [];
    assert FromPairs(p1) == map["href" := "emoclew\\08:1.0.0.721\\\\:ptth"];
    assert FromPairs(p2) == map["href" := "emoclew\\08:1.0.0.721\\\\:ptth", "type" := "url Home"];
  }

  lemma ParseRenderedTest()
    ensures Parse("a " + Render(TestPairs, TestTail)) == Tag("a", KindOf("a"), FromPairs(TestPairs))
  {
    var r := Render(TestPairs, TestTail);
    assert "a " + r == "a" + " " + r;
    TestPairsGood();
    RenderRoundTrip("a", TestPairs, TestTail);
  }

  lemma KindOfA()
    ensures KindOf("a") == Opening
  {
    assert "a" !in VoidNames;
    assert "a"[..1] == "a";
  }

  lemma ParseTestInput()
    ensures Parse(TestInput) == Tag("a", KindOf("a"), FromPairs(TestPairs))
  {
    TestRender();
    ParseRenderedTest();
  }

  /** The tokenizer's own test: name "a", kind Opening, exactly the three
      quoted attributes, and the trailing `open>!emocleW` dropped. */
  lemma ParseTestTag()
    ensures Parse(TestInput)
         == Tag("a", Opening, map["href" := "emoclew\\08:1.0.0.721\\\\:ptth", "type" := "url Home", "class" := "Url"])
  {
    ParseTestInput();
    KindOfA();
    TestFromPairs();
  }
}

=== FILE: zip_code.dfy ===
/** `zip_code`: a code block's spans and text runs joined into a single
    `Raw` text. */
module CodeZipper {
  import opened Results
  import opened Strings
  import opened Fragments
  import opened Elements
  import opened ContentZipper


  /** `span.content[0]` for one child of a code block. */
  function FirstContent(span: Element): (r: Result<Fragment>)
    ensures r.Ok? <==> |span.content| > 0
    ensures r.Ok? ==> r.value == span.content[0]
    ensures r.Fail? ==> r.failure == IndexOutOfRange
  {
    if |span.content| == 0 then Fail(IndexOutOfRange) else Ok(span.content[0])
  }

  /** The pieces of a code block in the order the fold pushes them: span then
      run, pairwise up to the shorter list; extra runs are dropped and, when
      there are more spans than runs, only the last span follows. */
  function CodePieces(spans: seq<Fragment>, runs: seq<Fragment>): (r: seq<Fragment>)
    requires |spans| > 0
    ensures |r| == 2 * Min(|spans|, |runs|) + (if |spans| > |runs| then 1 else 0)
    ensures |r| > 0
    ensures forall i :: 0 <= i < Min(|spans|, |runs|) ==> r[2 * i] == spans[i] && r[2 * i + 1] == runs[i]
    ensures |spans| > |runs| ==> r[|r| - 1] == spans[|spans| - 1]
  {
    var m := Min(|spans|, |runs|);
    Interleave(spans[..m], runs[..m]) + (if |spans| > |runs| then [spans[|spans| - 1]] else [])
  }

  /** One step of the reduce: the accumulator and the next piece, each
      un-escaped, joined into one `Raw`; a piece that is not `Raw` aborts. */
  function JoinStep(acc: Fragment, next: Fragment): (r: Result<Fragment>)
    ensures r.Ok? <==> acc.Raw? && next.Raw?
    ensures r.Fail? ==> r.failure == NotRaw
  {
    var previous :- RawContent(UnEscapeContent(acc));
    var following :- RawContent(UnEscapeContent(next));
    Ok(Raw(previous + following))
  }

  /** `reduce` from `acc` over `rest`: a lone piece comes back untouched,
      anything folded is a `Raw`. */
  function ReduceFrom(acc: Fragment, rest: seq<Fragment>): (r: Result<Fragment>)
    ensures rest == [] ==> r == Ok(acc)
    ensures rest != [] && r.Ok? ==> r.value.Raw?
    ensures r.Fail? ==> r.failure == NotRaw
    decreases |rest|
  {
    if rest == [] then Ok(acc)
    else
      var joined :- JoinStep(acc, rest[0]);
      ReduceFrom(joined, rest[1..])
  }

  /** `zip_code`. Every child's first text is taken (the last span is looked
      up through all of them), so no children or a child without text aborts;
      the pieces are then reduced. A block with text runs comes out as one
      `Raw`; one without is its last span, untouched. */
  function ZipCodeSpec(e: Element): (r: Result<Fragment>)
    ensures |e.children| == 0 ==> r == Fail(NothingToTake)
    ensures (exists k :: 0 <= k < |e.children| && |e.children[k].content| == 0) ==> r == Fail(IndexOutOfRange)
    ensures r.Ok? && |e.content| > 0 ==> r.value.Raw?
    ensures r.Ok? && |e.content| == 0 ==> r.value == e.children[|e.children| - 1].content[0]
  {
    if |e.children| == 0 then Fail(NothingToTake)
    else
      var spans :- MapAll(e.children, FirstContent);
      var pieces := CodePieces(spans, e.content);
      ReduceFrom(pieces[0], pieces[1..])
  }

  /** `zip_code` as the source runs it: the spans taken in one pass, the
      pairs pushed in a second, the pieces folded left to right. */
  method ZipCode(e: Element) returns (r: Result<Fragment>)
    ensures r == ZipCodeSpec(e)
  {
    var spans := TakeSpans(e.children);
    if spans.Fail? {
      return Fail(spans.failure);
    }
    if |spans.value| == 0 {
      return Fail(NothingToTake);
    }
    var pieces := PushPieces(spans.value, e.content);
    r := Reduce(pieces);
  }

  /** The first text of every child, in order; the first child without text
      aborts. */
  method TakeSpans(children: seq<Element>) returns (r: Result<seq<Fragment>>)
    ensures r == MapAll(children, FirstContent)
  {
    var spans: seq<Fragment> := [];
    var k := 0;
    while k < |children|
      invariant k <= |children| && |spans| == k
      invariant forall j :: 0 <= j < k ==> FirstContent(children[j]) == Ok(spans[j])
    {
      if |children[k].content| == 0 {
        SpansFail(children, k);
        return Fail(IndexOutOfRange);
      }
      spans := spans + [children[k].content[0]];
      k := k + 1;
    }
    SpansOk(children, spans);
    r := Ok(spans);
  }

  /** The fold of `zip_code`: span and run pushed pairwise, then the last
      span when there are more spans than runs. */
  method PushPieces(spans: seq<Fragment>, runs: seq<Fragment>) returns (pieces: seq<Fragment>)
    requires |spans| > 0
    ensures pieces == CodePieces(spans, runs)
  {
    var lastSpan := spans[|spans| - 1];
    pieces := [];
    var i := 0;
    while i < |spans| && i < |runs|
      invariant i <= Min(|spans|, |runs|)
      invariant pieces == Interleave(spans[..i], runs[..i])
    {
      assert spans[..i + 1] == spans[..i] + [spans[i]];
      assert runs[..i + 1] == runs[..i] + [runs[i]];
      InterleaveSnoc(spans[..i], runs[..i], spans[i], runs[i]);
      pieces := pieces + [spans[i], runs[i]];
      i := i + 1;
    }
    assert i == Min(|spans|, |runs|);
    if |spans| > |runs| {
      pieces := pieces + [lastSpan];
    } else {
      assert pieces + [] == pieces;
    }
  }

  /** `reduce(..).unwrap()` over pieces there is at least one of. */
  method Reduce(pieces: seq<Fragment>) returns (r: Result<Fragment>)
    requires |pieces| > 0
    ensures r == ReduceFrom(pieces[0], pieces[1..])
  {
    var acc := pieces[0];
    var n := 1;
    while n < |pieces|
      invariant 1 <= n <= |pieces|
      invariant ReduceFrom(acc, pieces[n..]) == ReduceFrom(pieces[0], pieces[1..])
    {
      var joined := JoinStep(acc, pieces[n]);
      if joined.Fail? {
        return Fail(joined.failure);
      }
      assert pieces[n..][1..] == pieces[n + 1..];
      acc := joined.value;
      n := n + 1;
    }
    r := Ok(acc);
  }

  /** A child without text aborts the spans. */
  lemma SpansFail(children: seq<Element>, k: nat)
    requires k < |children| && |children[k].content| == 0
    ensures MapAll(children, FirstContent) == Fail(IndexOutOfRange)
  {
    assert FirstContent(children[k]).Fail?;
  }

  /** Spans taken child by child are the mapped spans. */
  lemma SpansOk(children: seq<Element>, spans: seq<Fragment>)
    requires |spans| == |children|
    requires forall j :: 0 <= j < |children| ==> FirstContent(children[j]) == Ok(spans[j])
    ensures MapAll(children, FirstContent) == Ok(spans)
  {
    assert MapAll(children, FirstContent).Ok?;
    assert MapAll(children, FirstContent).value == spans;
  }

  /** Code pieces keep whatever every span and every run satisfies. */
  lemma CodePiecesKeep(spans: seq<Fragment>, runs: seq<Fragment>, p: Fragment -> bool)
    requires |spans| > 0
    requires forall i :: 0 <= i < |spans| ==> p(spans[i])
    requires forall i :: 0 <= i < |runs| ==> p(runs[i])
    ensures forall i :: 0 <= i < |CodePieces(spans, runs)| ==> p(CodePieces(spans, runs)[i])
  {
    var pieces := CodePieces(spans, runs);
    var m := Min(|spans|, |runs|);
    forall i | 0 <= i < |pieces| ensures p(pieces[i]) {
      var h := i / 2;
      if i >= 2 * m {
        assert pieces[i] == spans[|spans| - 1];
      } else if i % 2 == 1 {
        assert i == 2 * h + 1;
      } else {
        assert i == 2 * h;
      }
    }
  }

  predicate IsRaw(f: Fragment) {
    f.Raw?
  }

  predicate PlainRaw(f: Fragment) {
    f.Raw? && NoAmpersand(f.text)
  }

  /** Folding `Raw` pieces never aborts. */
  lemma {:induction false} ReduceRaw(acc: Fragment, rest: seq<Fragment>)
    requires acc.Raw? && forall i :: 0 <= i < |rest| ==> rest[i].Raw?
    ensures ReduceFrom(acc, rest).Ok?
    decreases |rest|
  {
    if rest != [] {
      ReduceRaw(JoinStep(acc, rest[0]).value, rest[1..]);
    }
  }

  /** The texts of the `Raw` fragments of a list, joined in order. */
  function Texts(fs: seq<Fragment>): string {
    if |fs| == 0 then [] else (if fs[0].Raw? then fs[0].text else []) + Texts(fs[1..])
  }

  /** Joining two texts without '&' un-escapes nothing. */
  lemma JoinPlain(a: string, b: string)
    requires NoAmpersand(a) && NoAmpersand(b)
    ensures JoinStep(Raw(a), Raw(b)) == Ok(Raw(a + b))
  {
    UnEscapeWithoutAmpersand(a);
    UnEscapeWithoutAmpersand(b);
  }

  /** The first step of a plain fold joins the texts as they are. */
  lemma ReduceFirstPlain(acc: string, rest: seq<Fragment>)
    requires rest != [] && NoAmpersand(acc)
    requires forall i :: 0 <= i < |rest| ==> rest[i].Raw? && NoAmpersand(rest[i].text)
    ensures NoAmpersand(acc + rest[0].text)
    ensures ReduceFrom(Raw(acc), rest) == ReduceFrom(Raw(acc + rest[0].text), rest[1..])
  {
    JoinPlain(acc, rest[0].text);
  }

  lemma AppendTexts(acc: string, rest: seq<Fragment>)
    requires rest != [] && rest[0].Raw?
    ensures (acc + rest[0].text) + Texts(rest[1..]) == acc + Texts(rest)
  {
  }

  /** Folding plain `Raw` pieces joins their texts in order. */
  lemma {:induction false} ReducePlain(acc: string, rest: seq<Fragment>)
    requires NoAmpersand(acc)
    requires forall i :: 0 <= i < |rest| ==> rest[i].Raw? && NoAmpersand(rest[i].text)
    ensures ReduceFrom(Raw(acc), rest) == Ok(Raw(acc + Texts(rest)))
    decreases |rest|
  {
    if rest == [] {
      assert acc + [] == acc;
    } else {
      var joined := acc + rest[0].text;
      var tail := rest[1..];
      ReduceFirstPlain(acc, rest);
      ReducePlain(joined, tail);
      AppendTexts(acc, rest);
    }
  }

  /** On a well-formed block, whose texts are all `Raw`, `zip_code` succeeds
      exactly when there is a child and every child has a text, and then
      gives a single `Raw`. */
  lemma ZipCodeWellFormed(e: Element)
    requires WellFormed(e)
    ensures ZipCodeSpec(e).Ok?
            <==> |e.children| > 0 && forall k :: 0 <= k < |e.children| ==> |e.children[k].content| > 0
    ensures ZipCodeSpec(e).Ok? ==> ZipCodeSpec(e).value.Raw?
  {
    if |e.children| > 0 && forall k :: 0 <= k < |e.children| ==> |e.children[k].content| > 0 {
      var spans := FirstTexts(e.children);
      ZipCodeUnfold(e);
      SpansRaw(e);
      CodePiecesKeep(spans, e.content, IsRaw);
      var pieces := CodePieces(spans, e.content);
      ReduceRaw(pieces[0], pieces[1..]);
    }
  }

  /** The first text of every child, for children that all have one. */
  function FirstTexts(children: seq<Element>): (r: seq<Fragment>)
    requires forall k :: 0 <= k < |children| ==> |children[k].content| > 0
    ensures |r| == |children|
    ensures forall k :: 0 <= k < |children| ==> r[k] == children[k].content[0]
  {
    seq(|children|, k requires 0 <= k < |children| => children[k].content[0])
  }

  /** With a child and a text in every child, `zip_code` reduces the pieces
      made of the children's first texts and the runs. */
  lemma ZipCodeUnfold(e: Element)
    requires |e.children| > 0 && forall k :: 0 <= k < |e.children| ==> |e.children[k].content| > 0
    ensures var pieces := CodePieces(FirstTexts(e.children), e.content);
            ZipCodeSpec(e) == ReduceFrom(pieces[0], pieces[1..])
  {
    SpansOk(e.children, FirstTexts(e.children));
  }

  lemma SpansRaw(e: Element)
    requires WellFormed(e) && forall k :: 0 <= k < |e.children| ==> |e.children[k].content| > 0
    ensures forall k :: 0 <= k < |e.children| ==> IsRaw(FirstTexts(e.children)[k])
    ensures forall k :: 0 <= k < |e.content| ==> IsRaw(e.content[k])
  {
    forall k | 0 <= k < |e.children| ensures IsRaw(FirstTexts(e.children)[k]) {
      assert WellFormed(e.children[k]);
      assert TextRun(e.children[k].content[0]);
    }
    forall k | 0 <= k < |e.content| ensures IsRaw(e.content[k]) {
      assert TextRun(e.content[k]);
    }
  }

  lemma SpansPlain(e: Element)
    requires WellFormed(e) && Plain(e) && forall k :: 0 <= k < |e.children| ==> |e.children[k].content| > 0
    ensures forall k :: 0 <= k < |e.children| ==> PlainRaw(FirstTexts(e.children)[k])
    ensures forall k :: 0 <= k < |e.content| ==> PlainRaw(e.content[k])
  {
    forall k | 0 <= k < |e.children| ensures PlainRaw(FirstTexts(e.children)[k]) {
      assert WellFormed(e.children[k]) && Plain(e.children[k]);
      assert TextRun(e.children[k].content[0]);
    }
    forall k | 0 <= k < |e.content| ensures PlainRaw(e.content[k]) {
      assert TextRun(e.content[k]);
    }
  }

  /** Reducing plain `Raw` pieces gives their texts joined. */
  lemma ReducePieces(pieces: seq<Fragment>)
    requires |pieces| > 0 && forall i :: 0 <= i < |pieces| ==> PlainRaw(pieces[i])
    ensures ReduceFrom(pieces[0], pieces[1..]) == Ok(Raw(Texts(pieces)))
  {
    ReducePlain(pieces[0].text, pieces[1..]);
    assert Texts(pieces) == pieces[0].text + Texts(pieces[1..]);
  }

  /** On a well-formed, plain block, `zip_code` is the texts of the pieces
      joined in order: the first text of each child and the runs,
      alternating, then the last child's when it has no run. */
  lemma ZipCodePlain(e: Element)
    requires WellFormed(e) && Plain(e) && |e.children| > 0
    requires forall k :: 0 <= k < |e.children| ==> |e.children[k].content| > 0
    ensures ZipCodeSpec(e) == Ok(Raw(Texts(CodePieces(FirstTexts(e.children), e.content))))
  {
    var spans := FirstTexts(e.children);
    ZipCodeUnfold(e);
    SpansPlain(e);
    CodePiecesKeep(spans, e.content, PlainRaw);
    ReducePieces(CodePieces(spans, e.content));
  }

  /** Joining two `Raw` pieces un-escapes both texts. */
  lemma JoinRaw(a: string, b: string)
    ensures JoinStep(Raw(a), Raw(b)) == Ok(Raw(UnEscape(a) + UnEscape(b)))
  {
  }

  /** The first join un-escapes a doubly escaped '<' once. */
  lemma JoinOnce()
    ensures JoinStep(Raw("&amp;lt;"), Raw("x")) == Ok(Raw("&lt;x"))
  {
    JoinRaw("&amp;lt;", "x");
    UnEscapeNotIdempotent("");
    assert "&amp;lt;" + "" == "&amp;lt;" && "&lt;" + "" == "&lt;";
    UnEscapeWithoutAmpersand("x");
    assert "&lt;" + "x" == "&lt;x";
  }

  /** The second join un-escapes the accumulator again. */
  lemma JoinTwice()
    ensures JoinStep(Raw("&lt;x"), Raw("y")) == Ok(Raw("<xy"))
  {
    JoinRaw("&lt;x", "y");
    UnEscapeNotIdempotent("x");
    assert "&lt;" + "x" == "&lt;x" && "<" + "x" == "<x";
    UnEscapeWithoutAmpersand("y");
    assert "<x" + "y" == "<xy";
  }

  /** The accumulator is un-escaped again at every step: a doubly escaped
      '<' in the first of three pieces comes out as '<', where one pass of
      un-escaping over the joined text would leave "&lt;". */
  lemma ReduceUnEscapesAccumulator()
    ensures ReduceFrom(Raw("&amp;lt;"), [Raw("x"), Raw("y")]) == Ok(Raw("<xy"))
    ensures UnEscape("&amp;lt;xy") == "&lt;xy"
  {
    JoinOnce();
    JoinTwice();
    assert [Raw("x"), Raw("y")][1..] == [Raw("y")];
    assert [Raw("y")][1..] == [];
    UnEscapeNotIdempotent("xy");
    assert "&amp;lt;" + "xy" == "&amp;lt;xy";
  }
}

=== FILE: zip_content.dfy ===
/** `zip_content`: an element's text runs interleaved with what its children
    stand for, the trailing run and a `where` clause appended, every fragment
    un-escaped. */
module ContentZipper {
  import opened Results
  import opened Fragments
  import opened Elements

  function Min(a: nat, b: nat): nat {
    if a < b then a else b
  }

  /** `[a0, b0, a1, b1, …]`, the order a fold pushes pairs in. */
  function Interleave(a: seq<Fragment>, b: seq<Fragment>): (r: seq<Fragment>)
    requires |a| == |b|
    ensures |r| == 2 * |a|
    ensures forall i :: 0 <= i < |a| ==> r[2 * i] == a[i] && r[2 * i + 1] == b[i]
  {
    seq(2 * |a|, k requires 0 <= k < 2 * |a| => if k % 2 == 0 then a[k / 2] else b[k / 2])
  }

  lemma InterleaveSnoc(a: seq<Fragment>, b: seq<Fragment>, x: Fragment, y: Fragment)
    requires |a| == |b|
    ensures Interleave(a + [x], b + [y]) == Interleave(a, b) + [x, y]
  {
    var l := Interleave(a + [x], b + [y]);
    var r := Interleave(a, b) + [x, y];
    forall k | 0 <= k < |l| ensures l[k] == r[k] {
      if k < 2 * |a| {
        assert l[k] == (if k % 2 == 0 then (a + [x])[k / 2] else (b + [y])[k / 2]);
      }
    }
  }

  /** `un_escape_content` on every fragment of a list. */
  function UnEscapeAll(fs: seq<Fragment>): (r: seq<Fragment>)
    ensures |r| == |fs|
    ensures forall i :: 0 <= i < |fs| ==> r[i] == UnEscapeContent(fs[i])
  {
    seq(|fs|, i requires 0 <= i < |fs| => UnEscapeContent(fs[i]))
  }

  /** The first child is a `strong` element. */
  predicate StrongFirst(e: Element) {
    |e.children| > 0 && e.children[0].kind == "strong"
  }

  /** A `where` clause: an element of class "where". */
  predicate IsWhere(e: Element) {
    "class" in e.attributes && e.attributes["class"] == "where"
  }

  /** The children `zip_content` pairs with text runs: all but the `div`s,
      in document order. */
  function NonDiv(children: seq<Element>): (r: seq<Element>)
    ensures |r| <= |children|
    ensures forall i :: 0 <= i < |r| ==> r[i].kind != "div"
    ensures (forall i :: 0 <= i < |children| ==> children[i].kind != "div") ==> r == children
  {
    if |children| == 0 then []
    else
      var rest := NonDiv(children[1..]);
      if children[0].kind == "div" then rest else [children[0]] + rest
  }

  /** A single child is kept exactly when it is not a `div`. */
  lemma NonDivOne(child: Element)
    ensures NonDiv([child]) == if child.kind == "div" then [] else [child]
  {
    assert [child][1..] == [];
  }

  /** Dropping the `div`s keeps the order: the kept children of `a + b` are
      those of `a`, then those of `b`. */
  lemma {:induction false} NonDivAppend(a: seq<Element>, b: seq<Element>)
    ensures NonDiv(a + b) == NonDiv(a) + NonDiv(b)
  {
    if |a| == 0 {
      assert a + b == b;
    } else {
      assert (a + b)[1..] == a[1..] + b;
      NonDivAppend(a[1..], b);
    }
  }

  /** Whatever every child satisfies, every non-`div` child satisfies. */
  lemma {:induction false} NonDivKeeps(children: seq<Element>, p: Element -> bool)
    requires forall j :: 0 <= j < |children| ==> p(children[j])
    ensures forall i :: 0 <= i < |NonDiv(children)| ==> p(NonDiv(children)[i])
  {
    if |children| > 0 {
      NonDivKeeps(children[1..], p);
    }
  }

  /** The colour a `class` attribute names, if any. */
  function ClassColor(className: string): (r: Option<Color>)
    ensures r.Some? <==> className in {"trait", "struct", "enum", "macro", "primitive", "fn", "associatedtype"}
    ensures r == Some(Method) <==> className == "fn"
    ensures className == "trait" ==> r == Some(Trait)
    ensures className == "struct" ==> r == Some(Struct)
    ensures className == "enum" ==> r == Some(Enum)
    ensures className == "macro" ==> r == Some(Macro)
    ensures className == "primitive" ==> r == Some(Primitive)
    ensures className == "associatedtype" ==> r == Some(AssociatedType)
  {
    match className
    case "trait" => Some(Trait)
    case "struct" => Some(Struct)
    case "enum" => Some(Enum)
    case "macro" => Some(Macro)
    case "primitive" => Some(Primitive)
    case "fn" => Some(Method)
    case "associatedtype" => Some(AssociatedType)
    case _ => None
  }

  /** What a child of a zipped element stands for. A child with a `class`
      is its first text, coloured when the class names a colour; otherwise
      a `code` child is its first text as `Code`; otherwise a child with
      children stands for the first text of its first child (as `Code` when
      that child is `code`); otherwise for its own first text. */
  function Resolve(child: Element): (r: Result<Fragment>)
    ensures r.Fail? ==> r.failure == IndexOutOfRange
  {
    if "class" in child.attributes then
      if |child.content| == 0 then Fail(IndexOutOfRange)
      else
        var name := child.content[0];
        match ClassColor(child.attributes["class"])
        case Some(color) => Ok(Colored(name, color))
        case None => Ok(name)
    else if child.kind == "code" then
      if |child.content| == 0 then Fail(IndexOutOfRange) else Ok(Code(child.content[0]))
    else if |child.children| > 0 then
      var first := child.children[0];
      if |first.content| == 0 then Fail(IndexOutOfRange)
      else if first.kind == "code" then Ok(Code(first.content[0]))
      else Ok(first.content[0])
    else if |child.content| == 0 then Fail(IndexOutOfRange)
    else Ok(child.content[0])
  }

  /** The cases of `Resolve`: a class child needs a text and is coloured
      exactly when its class names a colour; a `code` child is `Code`; a
      child with children stands for its first child's first text; any other
      child stands for its own first text. */
  lemma ResolveCases(child: Element)
    ensures "class" in child.attributes
            ==> && (Resolve(child).Ok? <==> |child.content| > 0)
                && (Resolve(child).Ok? && ClassColor(child.attributes["class"]).Some?
                    ==> Resolve(child).value == Colored(child.content[0], ClassColor(child.attributes["class"]).value))
                && (Resolve(child).Ok? && ClassColor(child.attributes["class"]).None?
                    ==> Resolve(child).value == child.content[0])
    ensures "class" !in child.attributes && child.kind == "code"
            ==> Resolve(child) == if |child.content| > 0 then Ok(Code(child.content[0])) else Fail(IndexOutOfRange)
    ensures "class" !in child.attributes && child.kind != "code" && |child.children| > 0
            ==> && (Resolve(child).Ok? <==> |child.children[0].content| > 0)
                && (Resolve(child).Ok? && child.children[0].kind == "code"
                    ==> Resolve(child).value == Code(child.children[0].content[0]))
                && (Resolve(child).Ok? && child.children[0].kind != "code"
                    ==> Resolve(child).value == child.children[0].content[0])
    ensures "class" !in child.attributes && child.kind != "code" && |child.children| == 0
            ==> Resolve(child) == if |child.content| > 0 then Ok(child.content[0]) else Fail(IndexOutOfRange)
  {
  }

  /** `content.iter().zip(children)` folded into a list: the runs paired
      with the resolved children up to the shorter of the two; a child is
      resolved only when the zip reaches it. */
  function ZipRuns(runs: seq<Fragment>, kids: seq<Element>): (r: Result<seq<Fragment>>)
    ensures r.Fail? ==> r.failure == IndexOutOfRange
    decreases |runs|
  {
    if |runs| == 0 || |kids| == 0 then Ok([])
    else
      var inner :- Resolve(kids[0]);
      var rest :- ZipRuns(runs[1..], kids[1..]);
      Ok([runs[0], inner] + rest)
  }

  /** The zip succeeds exactly when every child it reaches resolves, and
      then alternates run and resolved child. */
  lemma {:induction false} ZipRunsShape(runs: seq<Fragment>, kids: seq<Element>)
    ensures ZipRuns(runs, kids).Ok?
            <==> forall i :: 0 <= i < Min(|runs|, |kids|) ==> Resolve(kids[i]).Ok?
    ensures ZipRuns(runs, kids).Ok?
            ==> && |ZipRuns(runs, kids).value| == 2 * Min(|runs|, |kids|)
                && forall i :: 0 <= i < Min(|runs|, |kids|)
                     ==> ZipRuns(runs, kids).value[2 * i] == runs[i]
                         && ZipRuns(runs, kids).value[2 * i + 1] == Resolve(kids[i]).value
    decreases |runs|
  {
    if |runs| > 0 && |kids| > 0 {
      var m := Min(|runs|, |kids|);
      ZipRunsShape(runs[1..], kids[1..]);
      assert forall i :: 1 <= i < m ==> kids[1..][i - 1] == kids[i] && runs[1..][i - 1] == runs[i];
      var r := ZipRuns(runs, kids);
      if r.Ok? {
        var rest := ZipRuns(runs[1..], kids[1..]).value;
        forall i | 1 <= i < m
          ensures r.value[2 * i] == runs[i] && r.value[2 * i + 1] == Resolve(kids[i]).value
        {
          assert r.value[2 * i] == rest[2 * (i - 1)];
          assert r.value[2 * i + 1] == rest[2 * (i - 1) + 1];
        }
      }
    }
  }

  /** The trailing text run `zip_content` appends: the last run, when there
      are more runs than children once the last child has been popped. */
  function Trailing(e: Element): (r: seq<Fragment>)
    ensures |r| <= 1
    ensures r != [] <==> |e.content| > 0 && |e.content| >= |e.children|
    ensures r != [] ==> r[0] == e.content[|e.content| - 1]
  {
    var remaining := if |e.children| == 0 then 0 else |e.children| - 1;
    if |e.content| > remaining then [e.content[|e.content| - 1]] else []
  }

  /** The fragments of `zip_content` before un-escaping: the zipped pairs,
      then the trailing run. */
  function Zipped(e: Element): (r: Result<seq<Fragment>>)
    ensures r.Fail? ==> r.failure == IndexOutOfRange
  {
    var pairs :- ZipRuns(e.content, NonDiv(e.children));
    Ok(pairs + Trailing(e))
  }

  /** The layout of the zipped fragments: run and resolved non-`div` child
      alternate up to the shorter of the two, then the trailing run; the zip
      fails exactly when a child it reaches cannot be resolved. */
  lemma ZippedShape(e: Element)
    ensures var m := Min(|e.content|, |NonDiv(e.children)|);
            Zipped(e).Ok? <==> forall i :: 0 <= i < m ==> Resolve(NonDiv(e.children)[i]).Ok?
    ensures var m := Min(|e.content|, |NonDiv(e.children)|);
            Zipped(e).Ok?
            ==> && |Zipped(e).value| == 2 * m + |Trailing(e)|
                && (forall i :: 0 <= i < m ==> Zipped(e).value[2 * i] == e.content[i])
                && (forall i :: 0 <= i < m ==> Zipped(e).value[2 * i + 1] == Resolve(NonDiv(e.children)[i]).value)
                && Zipped(e).value[2 * m..] == Trailing(e)
  {
    ZipRunsShape(e.content, NonDiv(e.children));
  }

  /** `zip_content`. A `strong` first child gives `[Bold([its first text]),
      first run]`, not un-escaped. Otherwise the zipped fragments, then the
      zipped `where` clause when the last child is one, every fragment
      un-escaped. */
  function ZipContentSpec(e: Element): (r: Result<seq<Fragment>>)
    ensures StrongFirst(e) ==> (r.Ok? <==> |e.children[0].content| > 0 && |e.content| > 0)
    ensures StrongFirst(e) && r.Ok? ==> r.value == [Bold([e.children[0].content[0]]), e.content[0]]
    ensures r.Fail? ==> r.failure == IndexOutOfRange
    decreases e
  {
    if StrongFirst(e) then
      if |e.children[0].content| == 0 || |e.content| == 0 then Fail(IndexOutOfRange)
      else Ok([Bold([e.children[0].content[0]]), e.content[0]])
    else
      var zipped :- Zipped(e);
      if |e.children| > 0 && IsWhere(e.children[|e.children| - 1]) then
        var clause :- ZipContentSpec(e.children[|e.children| - 1]);
        Ok(UnEscapeAll(zipped + clause))
      else
        Ok(UnEscapeAll(zipped))
  }

  /** The element as `zip_content` leaves it: its last child popped, unless
      the first child is `strong`. */
  function Popped(e: Element): (r: Element)
    ensures r.kind == e.kind && r.attributes == e.attributes && r.content == e.content
    ensures !StrongFirst(e) && |e.children| > 0 ==> r.children + [e.children[|e.children| - 1]] == e.children
    ensures StrongFirst(e) || |e.children| == 0 ==> r == e
  {
    if StrongFirst(e) || |e.children| == 0 then e
    else e.(children := e.children[..|e.children| - 1])
  }

  /** The fold of `zip_content`: each run pushed with the child it is zipped
      with, the child resolved when the zip reaches it. */
  method ZipPairs(runs: seq<Fragment>, kids: seq<Element>) returns (r: Result<seq<Fragment>>)
    ensures r == ZipRuns(runs, kids)
  {
    var zipped: seq<Fragment> := [];
    var i := 0;
    PrependNothing(runs, kids);
    while i < |runs| && i < |kids|
      invariant i <= |runs| && i <= |kids|
      invariant Prepend(zipped, ZipRuns(runs[i..], kids[i..])) == ZipRuns(runs, kids)
    {
      var inner := Resolve(kids[i]);
      ZipRunsStep(runs, kids, i, zipped);
      if inner.Fail? {
        return Fail(inner.failure);
      }
      zipped := zipped + [runs[i], inner.value];
      i := i + 1;
    }
    assert ZipRuns(runs[i..], kids[i..]) == Ok([]);
    assert zipped + [] == zipped;
    r := Ok(zipped);
  }

  lemma PrependNothing(runs: seq<Fragment>, kids: seq<Element>)
    ensures Prepend([], ZipRuns(runs[0..], kids[0..])) == ZipRuns(runs, kids)
  {
    assert runs[0..] == runs && kids[0..] == kids;
    if ZipRuns(runs, kids).Ok? {
      assert [] + ZipRuns(runs, kids).value == ZipRuns(runs, kids).value;
    }
  }

  /** One pair of the zip, read from the `i`-th run and child on. */
  lemma ZipRunsStep(runs: seq<Fragment>, kids: seq<Element>, i: nat, zipped: seq<Fragment>)
    requires i < |runs| && i < |kids|
    ensures Resolve(kids[i]).Fail?
            ==> Prepend(zipped, ZipRuns(runs[i..], kids[i..])) == Fail(Resolve(kids[i]).failure)
    ensures Resolve(kids[i]).Ok?
            ==> Prepend(zipped, ZipRuns(runs[i..], kids[i..]))
                == Prepend(zipped + [runs[i], Resolve(kids[i]).value], ZipRuns(runs[i + 1..], kids[i + 1..]))
  {
    assert runs[i..][1..] == runs[i + 1..] && kids[i..][1..] == kids[i + 1..];
    var rest := ZipRuns(runs[i + 1..], kids[i + 1..]);
    if Resolve(kids[i]).Ok? && rest.Ok? {
      var pair := [runs[i], Resolve(kids[i]).value];
      assert zipped + (pair + rest.value) == (zipped + pair) + rest.value;
    }
  }

  /** `zip_content` as the source runs it; the last child is popped off the
      element, which is returned as `after`. */
  method ZipContent(e: Element) returns (r: Result<seq<Fragment>>, after: Element)
    ensures r == ZipContentSpec(e)
    ensures after == Popped(e)
    decreases e
  {
    after := Popped(e);
    if StrongFirst(e) {
      if |e.children[0].content| == 0 || |e.content| == 0 {
        return Fail(IndexOutOfRange), after;
      }
      return Ok([Bold([e.children[0].content[0]]), e.content[0]]), after;
    }
    var pairs := ZipPairs(e.content, NonDiv(e.children));
    if pairs.Fail? {
      return Fail(pairs.failure), after;
    }
    var fragments := pairs.value + Trailing(e);
    if |e.children| > 0 && IsWhere(e.children[|e.children| - 1]) {
      var clause, _ := ZipContent(e.children[|e.children| - 1]);
      if clause.Fail? {
        return Fail(clause.failure), after;
      }
      fragments := fragments + clause.value;
    }
    r := Ok(UnEscapeAll(fragments));
  }

  /** `HtmlElement::extract(name, data).zip_content()`, the pairing every
      section parser uses. */
  function ZipExtracted(name: string, data: string): (r: Result<seq<Fragment>>)
    ensures data == [] ==> r == Fail(NothingToTake)
    ensures Extract(name, data).Fail? ==> r == Fail(Extract(name, data).failure)
    ensures Extract(name, data).Ok? ==> r == ZipContentSpec(Extract(name, data).value)
  {
    var e :- Extract(name, data);
    ZipContentSpec(e)
  }

  /** `zip_content` without a `strong` first child or a `where` clause: the
      zipped fragments, un-escaped. */
  lemma ZipContentUnfold(e: Element)
    requires !StrongFirst(e) && (|e.children| == 0 || !IsWhere(e.children[|e.children| - 1]))
    ensures Zipped(e).Ok? ==> ZipContentSpec(e) == Ok(UnEscapeAll(Zipped(e).value))
    ensures Zipped(e).Fail? ==> ZipContentSpec(e) == Fail(Zipped(e).failure)
  {
  }

  /** No text of the element, at any depth, holds an entity to un-escape. */
  predicate Plain(e: Element)
    decreases e
  {
    && (forall i :: 0 <= i < |e.content| ==> AllRaw(e.content[i], NoAmpersand))
    && (forall i :: 0 <= i < |e.children| ==> Plain(e.children[i]))
  }

  lemma ResolvePlain(child: Element)
    requires Plain(child)
    ensures Resolve(child).Ok? ==> AllRaw(Resolve(child).value, NoAmpersand)
  {
    if "class" !in child.attributes && child.kind != "code" && |child.children| > 0 {
      assert Plain(child.children[0]);
    }
  }

  /** Every fragment of a list holds no entity to un-escape. */
  predicate PlainFragments(fs: seq<Fragment>) {
    forall i :: 0 <= i < |fs| ==> AllRaw(fs[i], NoAmpersand)
  }

  /** Zipping plain runs with plain children yields plain fragments. */
  lemma {:induction false} ZipRunsPlain(runs: seq<Fragment>, kids: seq<Element>)
    requires PlainFragments(runs)
    requires forall j :: 0 <= j < |kids| ==> Plain(kids[j])
    ensures ZipRuns(runs, kids).Ok? ==> PlainFragments(ZipRuns(runs, kids).value)
    decreases |runs|
  {
    if |runs| > 0 && |kids| > 0 && ZipRuns(runs, kids).Ok? {
      assert forall j :: 0 <= j < |kids| - 1 ==> kids[1..][j] == kids[j + 1];
      assert forall j :: 0 <= j < |runs| - 1 ==> runs[1..][j] == runs[j + 1];
      ZipRunsPlain(runs[1..], kids[1..]);
      ResolvePlain(kids[0]);
    }
  }

  /** Every zipped fragment of a plain element is plain. */
  lemma ZippedPlain(e: Element)
    requires Plain(e)
    ensures Zipped(e).Ok? ==> PlainFragments(Zipped(e).value)
  {
    NonDivKeeps(e.children, Plain);
    ZipRunsPlain(e.content, NonDiv(e.children));
  }

  /** Un-escaping changes nothing in a plain element: without a `where`
      clause, `zip_content` is the zipped fragments themselves. */
  lemma ZipContentPlain(e: Element)
    requires Plain(e) && !StrongFirst(e)
    requires |e.children| == 0 || !IsWhere(e.children[|e.children| - 1])
    ensures ZipContentSpec(e) == Zipped(e)
  {
    ZipContentUnfold(e);
    if Zipped(e).Ok? {
      var z := Zipped(e).value;
      ZippedPlain(e);
      forall i | 0 <= i < |z| ensures UnEscapeContent(z[i]) == z[i] {
        UnEscapeContentWithoutAmpersand(z[i]);
      }
      assert UnEscapeAll(z) == z;
    }
  }

  /** With as many runs as children (none of them a `div`, the first not
      `strong`, the last not a `where` clause), the last run is pushed twice:
      once paired with the last child and again as the trailing run, since
      the trailing check counts the children after the last one is popped. */
  lemma ZipContentRepeatsLastRun(e: Element)
    requires |e.content| == |e.children| > 0 && !StrongFirst(e)
    requires forall i :: 0 <= i < |e.children| ==> e.children[i].kind != "div"
    requires !IsWhere(e.children[|e.children| - 1])
    ensures ZipContentSpec(e).Ok?
            ==> && |ZipContentSpec(e).value| == 2 * |e.content| + 1
                && ZipContentSpec(e).value[2 * |e.content|] == ZipContentSpec(e).value[2 * |e.content| - 2]
                && ZipContentSpec(e).value[2 * |e.content|] == UnEscapeContent(e.content[|e.content| - 1])
  {
    ZipContentUnfold(e);
    ZippedRepeatsLastRun(e);
    if Zipped(e).Ok? {
      var n := |e.content|;
      var z := Zipped(e).value;
      var r := UnEscapeAll(z);
      assert ZipContentSpec(e) == Ok(r);
      assert r[2 * n] == UnEscapeContent(z[2 * n]);
      assert r[2 * n - 2] == UnEscapeContent(z[2 * n - 2]);
    }
  }

  /** Before un-escaping: with as many runs as children, the last run ends
      the zipped fragments and also comes right before the last child. */
  lemma ZippedRepeatsLastRun(e: Element)
    requires |e.content| == |e.children| > 0
    requires forall i :: 0 <= i < |e.children| ==> e.children[i].kind != "div"
    requires !IsWhere(e.children[|e.children| - 1])
    ensures Zipped(e).Ok?
            ==> && |Zipped(e).value| == 2 * |e.content| + 1
                && Zipped(e).value[2 * |e.content|] == e.content[|e.content| - 1]
                && Zipped(e).value[2 * |e.content| - 2] == e.content[|e.content| - 1]
  {
    ZippedShape(e);
    if Zipped(e).Ok? {
      var n := |e.content|;
      var z := Zipped(e).value;
      assert NonDiv(e.children) == e.children;
      assert z[2 * (n - 1)] == e.content[n - 1];
      assert z[2 * n..] == Trailing(e);
    }
  }


  /** With a `where` clause last, the clause's fragments follow the zipped
      ones and all are un-escaped together. */
  lemma ZipContentWhereUnfold(e: Element)
    requires !StrongFirst(e) && |e.children| > 0 && IsWhere(e.children[|e.children| - 1])
    ensures var clause := ZipContentSpec(e.children[|e.children| - 1]);
            ZipContentSpec(e).Ok? <==> Zipped(e).Ok? && clause.Ok?
    ensures var clause := ZipContentSpec(e.children[|e.children| - 1]);
            ZipContentSpec(e).Ok? ==> ZipContentSpec(e).value == UnEscapeAll(Zipped(e).value + clause.value)
  {
  }

  /** With a `where` clause last, the clause's fragments, already un-escaped
      by its own `zip_content`, are un-escaped a second time after the
      zipped fragments. */
  lemma ZipContentWhere(e: Element)
    requires !StrongFirst(e) && |e.children| > 0 && IsWhere(e.children[|e.children| - 1])
    ensures var clause := ZipContentSpec(e.children[|e.children| - 1]);
            ZipContentSpec(e).Ok?
            ==> && ZipContentSpec(e).value[..|Zipped(e).value|] == UnEscapeAll(Zipped(e).value)
                && ZipContentSpec(e).value[|Zipped(e).value|..] == UnEscapeAll(clause.value)
  {
    ZipContentWhereUnfold(e);
    var clause := ZipContentSpec(e.children[|e.children| - 1]);
    if ZipContentSpec(e).Ok? {
      UnEscapeAllAppend(Zipped(e).value, clause.value);
    }
  }

  lemma UnEscapeAllAppend(a: seq<Fragment>, b: seq<Fragment>)
    ensures UnEscapeAll(a + b) == UnEscapeAll(a) + UnEscapeAll(b)
  {
    assert forall i :: 0 <= i < |b| ==> (a + b)[|a| + i] == b[i];
  }
}
